=== FILE: README.md ===
# MrRobot in Dafny

MrRobot is an Android app that drives a LEGO MINDSTORMS EV3 robot around a square arena of
`m × m` cells. The arena is surrounded by a ring of border cells. Three of those border cells,
next to the robot's starting cell (the origin), form the safe zone.

The model covers two parts of the repository.

**The arena and the two missions** (`app/…/mrrobot`):

- `Field` keeps the arena as a grid of cell states with an `OUT_OF_BOUNDS` ring. It also keeps
  the robot's position and heading, the pose where the last ball was grabbed, and a map from grab
  cells to ball colours. It answers the movement questions (`canMove*`, `hasReachedNewLine`,
  `hasToRotate`) and turns, moves, marks cells and picks a safe cell.
- `FirstStep` sweeps the arena line by line. When a ball is in reach it grabs it, carries it to
  the origin, then to a safe cell, and then goes back to where it grabbed it.
- `SecondStep` does the same, but drives to a given list of ball positions.
- `Point` is their coordinate pair.

**The EV3 direct-command encoding** (`legoandroid/…/legoandroid`):

- `Bytecode` is an append-only byte-code buffer with long-format parameters.
- `Command` writes a 5-byte header: a message counter, the command type and the packed memory
  reservations.
- `Reply` parses the brick's answer.
- `LegoChannelService` frames each message with a 2-byte little-endian length.
- `EV3` issues the sound and sensor requests.
- `TachoMotor` issues the motor commands.
- The port enums and the light sensor's colour packing are pure encodings.

## How it is modelled

`Field` is a class over an `array2<CellType>` indexed `grid[y, x]`, as `fieldMatrix[y][x]` is.
Its queries are functions and its updates are methods. Each update states its whole new state.
The class invariant `Valid` says:

- the grid is (m + 2) × (m + 2);
- the ring holds only barrier cells;
- `CURRENT_POSITION` appears nowhere but at the robot's position;
- once started, the origin is an interior cell;
- before startingPoint there is no heading, no grab pose and no recorded colour;
- the grab pose and the saved heading are set together.

A rotation is split in two. A pure function (`SweepTurn`, `SafeTurn`, …) chooses the turn from
the cells around the robot. A method commits the new heading and returns the angle code: -8 for
left, 8 for right, 16 for a half turn and 0 for none.

One `execute` call of a mission becomes one `Step` method. Step takes the sensor readings as
parameters: whether the robot is moving, whether a ball is in reach, and the colour seen.
SecondStep.kt:23 reads whether a ball is in reach but never uses it, so `SecondStep.Step` takes
only whether the robot is moving and the colour. Each `Step` works in two stages:

- A pure transition function (`Tick`) chooses an *act* and the step's next variables. It reads a
  `Sight` record of the arena's answers.
- `Perform` carries the act out on the `Field` and appends the calls on the robot to a command log
  (`Robot`). `Performed` states the result in terms of the pure functions `PoseAfter`,
  `CellAfter` and `Emitted`.

The handlers (`Move`, `ChangeLine`, `MoveToSafe`, …) are methods of the step classes. Each one is
proved to do what its table function (`SearchPlan`, `ChangeLinePlan`, `SafePlan`, …) prescribes.

On the EV3 side:

- Bytes are integer subset types: `u8` is 0..255 and `i8`, `i16`, `i32` are the signed Kotlin
  types.
- Kotlin's `toByte()`, `toShort()` and Int overflow are written out as residues.
- The shifts, `and` and `or` of the source are written as arithmetic. Where a value might not be
  small, an explicit `BitOr` on naturals is used.
- A Bluetooth channel is a class holding the frames sent so far and the bytes the brick has still
  to send.
- Every sending method states the exact frame it appends and the bytes it consumes.
- Decoding lemmas read the long-format parameters back out of each command. This shows that every
  argument survives its encoding.

Kotlin behaviour kept in the model:

- A `Command` whose reservations are out of range is `null`. The source throws instead, but the
  shared sequence counter has already been incremented either way.
- A `Reply` built from fewer than 3 bytes is `None`, because the source throws on it.
- A field with `m != n` cannot be built, because a ring write falls outside the grid.
- `moveToOrigin` compares `angle == -9` on line 140 where it assigns elsewhere. The model keeps
  this, so a left turn toward the origin with a ball on board is sent as -8.
- `moveToLastPoint` turns with `getAngleToRotateOrigin` while it is away from the grab cell. The
  model keeps this too.
- For the origin (4, 1) of a 4 × 4 arena, the code sets the heading `TO_BOTTOM`, because its first
  test is `origin.y == 1`.
- `startingPoint` gives no heading at all to an origin on the bottom or right edge that is not in
  the top row or the left column.

## Model

| member | source | states |
|---|---|---|
| Points.Equals | app/src/main/java/com/github/giovanniandreuzza/mrrobot/Point.kt:10-16 | true exactly when the other object is a point with the same `x` and `y`; `null` and objects of other classes are never equal |
| Points.HashCode | app/src/main/java/com/github/giovanniandreuzza/mrrobot/Point.kt:18-22 | the hash is `31 * hash(x) + hash(y)` in 32-bit Int arithmetic; the equals/hashCode contract it serves is EqualsHashCode |
| Points.ToString | app/src/main/java/com/github/giovanniandreuzza/mrrobot/Point.kt:8 | the text is bracketed by `(` and `)` |
| Points.EqualsReflexive | app/src/main/java/com/github/giovanniandreuzza/mrrobot/Point.kt:10-16 | every point equals itself |
| Points.EqualsSymmetric | app/src/main/java/com/github/giovanniandreuzza/mrrobot/Point.kt:10-16 | `p.equals(q)` is the same as `q.equals(p)` |
| Points.EqualsTransitive | app/src/main/java/com/github/giovanniandreuzza/mrrobot/Point.kt:10-16 | equality is transitive |
| Points.EqualsHashCode | app/src/main/java/com/github/giovanniandreuzza/mrrobot/Point.kt:10-22 | equal points have equal hash codes |
| Points.CopyEquals | app/src/main/java/com/github/giovanniandreuzza/mrrobot/Point.kt:3-16 | the copy `Point(p.x, p.y)` that startingPoint keeps as the origin equals `p` |
| Points.ToStringRoundTrip | app/src/main/java/com/github/giovanniandreuzza/mrrobot/Point.kt:8 | reading `"(x, y)"` back gives the point, so `toString` prints both components in full |
| Points.ToStringInjective | app/src/main/java/com/github/giovanniandreuzza/mrrobot/Point.kt:8 | different points print differently |
| Decimal.IntText | app/src/main/java/com/github/giovanniandreuzza/mrrobot/Point.kt:8 | an Int in a string template prints as an optional `-` and digits, the sign exactly for negative values |
| Decimal.IntTextRoundTrip | app/src/main/java/com/github/giovanniandreuzza/mrrobot/Point.kt:8 | the decimal text of an Int reads back as that Int |
| Headings.Direction.ToRight | app/src/main/java/com/github/giovanniandreuzza/mrrobot/Field.kt:775-780 | a quarter turn clockwise on the screen grid: the unit step (dx, dy) becomes (-dy, dx) |
| Headings.Direction.ToLeft | app/src/main/java/com/github/giovanniandreuzza/mrrobot/Field.kt:782-787 | a quarter turn counter-clockwise: the unit step (dx, dy) becomes (dy, -dx) |
| Headings.Direction.ToBottom | app/src/main/java/com/github/giovanniandreuzza/mrrobot/Field.kt:789-794 | a half turn: the unit step is reversed |
| Headings.LeftRightInverse | app/src/main/java/com/github/giovanniandreuzza/mrrobot/Field.kt:775-787 | `toLeft` undoes `toRight` and `toRight` undoes `toLeft` |
| Headings.HalfTurnIsTwoQuarters | app/src/main/java/com/github/giovanniandreuzza/mrrobot/Field.kt:775-794 | `toBottom` is two `toRight` turns, and also two `toLeft` turns |
| Headings.ToRightRotatesStep | app/src/main/java/com/github/giovanniandreuzza/mrrobot/Field.kt:775-780 | a right turn rotates the one-cell step a quarter turn clockwise on the grid, whose y axis points down |
| Headings.AngleIdentifiesTurn | app/src/main/java/com/github/giovanniandreuzza/mrrobot/Field.kt:569-588 | each angle code (-8, 8, 16, 0) stands for exactly one turn |
| Headings.TurnReaches | app/src/main/java/com/github/giovanniandreuzza/mrrobot/Field.kt:338-399 | any heading reaches any other by one turn, so the saved heading can always be restored |
| Headings.BehindCancelsAhead | app/src/main/java/com/github/giovanniandreuzza/mrrobot/Field.kt:428-437 | a step back undoes a step forward, and the other way round |
| Headings.TowardShrinksDistance | app/src/main/java/com/github/giovanniandreuzza/mrrobot/Field.kt:173-195 | a step toward a target on the heading's axis brings it one cell closer; any other step takes it one cell further away |
| Arena.CellType.Ordinal | app/src/main/java/com/github/giovanniandreuzza/mrrobot/Field.kt:759-767 | the seven cell states have the ordinals 0..6 that getFinalMatrix prints |
| Arena.SetVal | app/src/main/java/com/github/giovanniandreuzza/mrrobot/Field.kt:547-554 | inside the grid it writes exactly the cell `[y][x]`; outside, it fails (the source throws) and changes nothing |
| Arena.PickSafe | app/src/main/java/com/github/giovanniandreuzza/mrrobot/Field.kt:631-736 | the result is one of the three candidates: the first if it is SAFE_AVAILABLE, else the second if it is, else the third whatever it holds |
| Arena.StartSafeCellsOnRing | app/src/main/java/com/github/giovanniandreuzza/mrrobot/Field.kt:47-101 | for every interior origin, the three cells startingPoint marks are distinct, lie on the ring inside the grid, and are not the origin |
| Arena.TopRightCornerStart | app/src/main/java/com/github/giovanniandreuzza/mrrobot/Field.kt:47-108 | for m = 4 and origin (4, 1), the safe cells are (4, 0), (5, 0) and (5, 1) and the heading is TO_BOTTOM |
| Arena.StartHeadingOnlyTopOrLeft | app/src/main/java/com/github/giovanniandreuzza/mrrobot/Field.kt:103-108 | the heading is TO_BOTTOM if `origin.y == 1`, else TO_RIGHT if `origin.x == 1`, else it stays unset: the two other branches test ring coordinates |
| Arena.StartSafeCellsTouchEdgeOrigin | app/src/main/java/com/github/giovanniandreuzza/mrrobot/Field.kt:52-95 | for an origin on an edge, each safe cell touches the origin, diagonals included |
| Arena.StartSafeCellsOfInnerOrigin | app/src/main/java/com/github/giovanniandreuzza/mrrobot/Field.kt:96-100 | an origin on no edge falls through to the bottom-side branch: three cells of the bottom ring row, far from the origin |
| Arena.RemarkedKeepsRevealed | app/src/main/java/com/github/giovanniandreuzza/mrrobot/Field.kt:522-536 | redrawing the markers yields HIDDEN exactly where the cell was HIDDEN and the robot is not on it, so a move never hides a cell |
| Arena.LineStartMonotone | app/src/main/java/com/github/giovanniandreuzza/mrrobot/Field.kt:738-757 | each printed row of getFinalMatrix starts after the ones before it |
| Arena.MatrixLayout | app/src/main/java/com/github/giovanniandreuzza/mrrobot/Field.kt:738-757 | in getFinalMatrix's text, row `y` starts with a newline and cell `x` of it is a space followed by the cell's character |
| Arena.Field.Create | app/src/main/java/com/github/giovanniandreuzza/mrrobot/Field.kt:7-45 | construction succeeds exactly when m == n; the grid is then `(m+2) × (m+2)` with an OUT_OF_BOUNDS ring and a HIDDEN interior, and nothing is started |
| Arena.Field.StartingPoint | app/src/main/java/com/github/giovanniandreuzza/mrrobot/Field.kt:47-111 | the origin and the position become `origin`, which is marked CURRENT_POSITION; exactly the three start cells become SAFE_AVAILABLE; the heading is as chosen by the first matching test; every other cell and field is unchanged |
| Arena.Field.StartCellsOnRing | app/src/main/java/com/github/giovanniandreuzza/mrrobot/Field.kt:47-101 | the start cells of the field's own origin lie on its ring and are not the origin |
| Arena.Field.SafeToGo | app/src/main/java/com/github/giovanniandreuzza/mrrobot/Field.kt:631-736 | the chosen safe cell is one of the three start cells, and it is SAFE_AVAILABLE whenever one of them still is |
| Arena.Field.SafeToGoOnRing | app/src/main/java/com/github/giovanniandreuzza/mrrobot/Field.kt:631-736 | the chosen safe cell lies on the ring, inside the grid |
| Arena.Field.CanMove | app/src/main/java/com/github/giovanniandreuzza/mrrobot/Field.kt:113-130 | true exactly when the cell ahead is neither OUT_OF_BOUNDS nor a safe cell |
| Arena.Field.CanMoveStaysInside | app/src/main/java/com/github/giovanniandreuzza/mrrobot/Field.kt:113-130 | whenever canMove holds, the cell ahead is an interior cell |
| Arena.Field.CanMoveToSafe | app/src/main/java/com/github/giovanniandreuzza/mrrobot/Field.kt:132-171 | true exactly when the safe cell lies strictly ahead on the heading's axis and the cell ahead is SAFE_AVAILABLE |
| Arena.Field.CanMoveToOrigin | app/src/main/java/com/github/giovanniandreuzza/mrrobot/Field.kt:173-195 | true exactly when the origin lies strictly ahead on the heading's axis and the cell ahead is EMPTY |
| Arena.Field.CanMoveToBall | app/src/main/java/com/github/giovanniandreuzza/mrrobot/Field.kt:197-219 | true exactly when the ball lies strictly ahead on the heading's axis and the cell ahead is neither BALL nor OUT_OF_BOUNDS |
| Arena.Field.CanMoveToLastPoint | app/src/main/java/com/github/giovanniandreuzza/mrrobot/Field.kt:222-244 | true exactly when the grab cell lies strictly ahead on the heading's axis and the cell ahead is EMPTY |
| Arena.Field.HasReachedNewLine | app/src/main/java/com/github/giovanniandreuzza/mrrobot/Field.kt:439-444 | true exactly when the cell ahead is HIDDEN |
| Arena.Field.HasToRotate | app/src/main/java/com/github/giovanniandreuzza/mrrobot/Field.kt:446-471 | true exactly when one of the two cells diagonally ahead is HIDDEN |
| Arena.Field.SweepTurn | app/src/main/java/com/github/giovanniandreuzza/mrrobot/Field.kt:569-588 | getAngle's choice from the cells on the left, on the right and behind; it is never "no turn" |
| Arena.Field.OriginTurn | app/src/main/java/com/github/giovanniandreuzza/mrrobot/Field.kt:590-606 | getAngleOrigin's choice from the cells on the left and on the right; never "no turn" |
| Arena.Field.BallTurn | app/src/main/java/com/github/giovanniandreuzza/mrrobot/Field.kt:608-624 | getAngleBall's choice from the cells on the left and on the right; never "no turn" |
| Arena.Field.SafeTurn | app/src/main/java/com/github/giovanniandreuzza/mrrobot/Field.kt:304-336 | always a quarter turn, and a left turn exactly when the safe cell lies strictly on the robot's left |
| Arena.Field.LastDirectionTurn | app/src/main/java/com/github/giovanniandreuzza/mrrobot/Field.kt:338-399 | the turn that brings the heading to the saved one; no turn exactly when they already agree |
| Arena.Field.GetAngleToRotate | app/src/main/java/com/github/giovanniandreuzza/mrrobot/Field.kt:246-275 | commits the sweep turn as the new heading, changes nothing else, and returns its angle code |
| Arena.Field.GetAngleToRotateOrigin | app/src/main/java/com/github/giovanniandreuzza/mrrobot/Field.kt:277-302 | commits the turn toward the origin, changes nothing else, and returns its angle code |
| Arena.Field.GetAngleToRotateSafe | app/src/main/java/com/github/giovanniandreuzza/mrrobot/Field.kt:304-336 | commits the turn toward the safe cell and returns -8 or 8, its angle code |
| Arena.Field.GetAngleToRotateLastDirection | app/src/main/java/com/github/giovanniandreuzza/mrrobot/Field.kt:338-399 | commits the turn, after which the heading equals the saved heading, and returns its angle code |
| Arena.Field.GetAngleToRotateBall | app/src/main/java/com/github/giovanniandreuzza/mrrobot/Field.kt:401-426 | commits the turn toward the ball, changes nothing else, and returns its angle code |
| Arena.Field.RecolorKeepsTurn | app/src/main/java/com/github/giovanniandreuzza/mrrobot/Field.kt:512-516 | recording a ball's colour changes none of the rotation decisions |
| Arena.Field.UpdateCurrentPosition | app/src/main/java/com/github/giovanniandreuzza/mrrobot/Field.kt:522-536 | every CURRENT_POSITION cell becomes EMPTY, then the robot's cell is marked if it was HIDDEN or EMPTY; the marker invariant holds afterwards |
| Arena.Field.GetDistanceToMove | app/src/main/java/com/github/giovanniandreuzza/mrrobot/Field.kt:479-489 | the robot moves one cell along its heading, the markers are redrawn, nothing else changes, and the cell length is returned |
| Arena.Field.MoveBack | app/src/main/java/com/github/giovanniandreuzza/mrrobot/Field.kt:428-437 | the robot moves one cell against its heading, the markers are redrawn, nothing else changes, and the negated cell length is returned |
| Arena.Field.MoveKeepsFinished | app/src/main/java/com/github/giovanniandreuzza/mrrobot/Field.kt:491-501 | once no cell is HIDDEN, a move keeps it so |
| Arena.Field.IsFieldFinished | app/src/main/java/com/github/giovanniandreuzza/mrrobot/Field.kt:491-501 | true exactly when no cell of the grid is HIDDEN |
| Arena.Field.BallGrabbed | app/src/main/java/com/github/giovanniandreuzza/mrrobot/Field.kt:507-510 | saves the current cell and heading as the grab pose; nothing else changes |
| Arena.Field.SetColorOfHoldingBall | app/src/main/java/com/github/giovanniandreuzza/mrrobot/Field.kt:512-516 | records the colour under the saved grab cell, and does nothing before any grab; nothing else changes |
| Arena.Field.BallReleased | app/src/main/java/com/github/giovanniandreuzza/mrrobot/Field.kt:518-520 | the robot's cell becomes SAFE_UNAVAILABLE and no other cell changes |
| Arena.CellAt | app/src/main/java/com/github/giovanniandreuzza/mrrobot/Field.kt:538-545 | getVal: the stored cell inside the grid, OUT_OF_BOUNDS for any coordinate outside it (never an exception, unlike setVal) |
| Arena.Field.OriginInCorner | app/src/main/java/com/github/giovanniandreuzza/mrrobot/Field.kt:626-629 | the origin is one of the four corner cells exactly when both its coordinates are next to the ring |
| Arena.Field.InOrigin | app/src/main/java/com/github/giovanniandreuzza/mrrobot/Field.kt:473 | `==` is the Point `equals`: at the origin exactly when the origin equals the current position |
| Arena.Field.InSafe | app/src/main/java/com/github/giovanniandreuzza/mrrobot/Field.kt:475 | in the safe cell only on one of the three cells startingPoint marked |
| Arena.Field.OnLastPoint | app/src/main/java/com/github/giovanniandreuzza/mrrobot/Field.kt:477 | false while no ball was grabbed (`null == p` is false); otherwise the grab cell equals the current position |
| Arena.Field.InRightPosition | app/src/main/java/com/github/giovanniandreuzza/mrrobot/Field.kt:503 | in the right position exactly when restoring the saved heading needs no turn |
| Arena.Field.AtBall | app/src/main/java/com/github/giovanniandreuzza/mrrobot/Field.kt:505 | at the ball exactly when the ball equals the current position |
| Arena.Field.InSafeOnRing | app/src/main/java/com/github/giovanniandreuzza/mrrobot/Field.kt:475 | when the robot stands in the safe cell, that cell is on the ring |
| Arena.Field.GetFinalMatrix | app/src/main/java/com/github/giovanniandreuzza/mrrobot/Field.kt:738-757 | the text is the grid row by row, each cell printed as its colour letter at a grab cell, else as its ordinal |
| Arena.Field.FinalMatrixCell | app/src/main/java/com/github/giovanniandreuzza/mrrobot/Field.kt:738-757 | the character at row `y`, column `x` of the printed matrix is that cell's own character |
| Mission.Widen | app/src/main/java/com/github/giovanniandreuzza/mrrobot/FirstStep.kt:88-146 | the two rewrites of an angle code: each of the turn codes -8, 8 and 16 keeps its side and grows by at most 3; AsIs leaves the code alone |
| Mission.WidenKeepsSense | app/src/main/java/com/github/giovanniandreuzza/mrrobot/FirstStep.kt:130-148 | widening never changes the side of a turn and never shortens it |
| Mission.SafeRotationWidened | app/src/main/java/com/github/giovanniandreuzza/mrrobot/FirstStep.kt:89-97 | GO_TO_SAFE sends its quarter turns as -9 and 9 |
| Mission.LoadedLeftTurnNotWidened | app/src/main/java/com/github/giovanniandreuzza/mrrobot/FirstStep.kt:139-141 | with a ball on board, a left turn toward the origin stays -8 while the right and half turns are widened |
| Mission.Emitted | app/src/main/java/com/github/giovanniandreuzza/mrrobot/MrRobotCallback.kt:13-21 | each act makes at most one call on the robot, none exactly for the acts that only change the step's state, and a rotation sends the widened angle |
| Mission.Painted | app/src/main/java/com/github/giovanniandreuzza/mrrobot/Field.kt:512-516 | recording a colour touches only the colour map |
| Mission.PoseAfter | app/src/main/java/com/github/giovanniandreuzza/mrrobot/Field.kt:428-536 | after an act only a drive or a back-off moves the robot, only a grab changes the grab pose, and the origin and colour map stay |
| Mission.CellAfter | app/src/main/java/com/github/giovanniandreuzza/mrrobot/Field.kt:518-536 | after an act a cell changes only through a move's marker redraw or a release on the robot's own cell, and no cell becomes HIDDEN again |
| Mission.SafeStep | app/src/main/java/com/github/giovanniandreuzza/mrrobot/FirstStep.kt:85-113 | moveToSafe: release exactly when holding a ball in the safe cell; a release adds one ball and sets the back-off; the back-off comes exactly when empty-handed with one due; it leaves for the origin exactly when all balls are in |
| Mission.OriginStep | app/src/main/java/com/github/giovanniandreuzza/mrrobot/FirstStep.kt:130-151 | moveToOrigin: drive exactly when canMoveToOrigin; turn exactly when blocked and away, widened only when holding a ball; at the origin, hand over to GO_TO_SAFE with a ball, else stop |
| Mission.Robot.Send | app/src/main/java/com/github/giovanniandreuzza/mrrobot/MrRobotCallback.kt:13-21 | a call on the robot is appended to its log |
| Mission.Perform | app/src/main/java/com/github/giovanniandreuzza/mrrobot/FirstStep.kt:124-152 | records the colour when asked, then carries out the act on the field and the robot, all as `PoseAfter`, `CellAfter` and `Emitted` say |
| Mission.Execute | app/src/main/java/com/github/giovanniandreuzza/mrrobot/FirstStep.kt:44-122 | carries out one act of a handler on the field and the robot |
| Mission.DriveOn | app/src/main/java/com/github/giovanniandreuzza/mrrobot/FirstStep.kt:87 | `coverDistance(getDistanceToMove())`: one step ahead and one CoverDistance call |
| Mission.BackOff | app/src/main/java/com/github/giovanniandreuzza/mrrobot/FirstStep.kt:106-109 | `coverDistance(moveBack())`: one step back and a CoverDistance call with the negated length |
| Mission.TurnBy | app/src/main/java/com/github/giovanniandreuzza/mrrobot/FirstStep.kt:88-98 | `rotateByAngle` of a widened angle code: the heading changes by the chosen turn |
| Mission.GrabBall | app/src/main/java/com/github/giovanniandreuzza/mrrobot/FirstStep.kt:50-56 | `closeClaws()` and `ballGrabbed()` |
| Mission.ReleaseBall | app/src/main/java/com/github/giovanniandreuzza/mrrobot/FirstStep.kt:99-105 | `openClaws()` and `ballReleased()` |
| FirstStepMission.SearchPlan | app/src/main/java/com/github/giovanniandreuzza/mrrobot/FirstStep.kt:44-59 | move: grab exactly when a ball is in reach and the field is not finished; the state becomes GO_TO_ORIGIN only for a finished field or a grab; counts untouched |
| FirstStepMission.ChangeLinePlan | app/src/main/java/com/github/giovanniandreuzza/mrrobot/FirstStep.kt:61-83 | changeLine: changes only `action`; drives exactly in CHANGING_LINE and rotates exactly in ROTATING_FIRST or ROTATING_SECOND |
| FirstStepMission.SafePlan | app/src/main/java/com/github/giovanniandreuzza/mrrobot/FirstStep.kt:85-113 | moveToSafe: a release adds one ball; holding ends exactly at a release; the state leaves GO_TO_SAFE only empty-handed after the back-off, for GO_TO_ORIGIN exactly when all balls are in |
| FirstStepMission.LastPointPlan | app/src/main/java/com/github/giovanniandreuzza/mrrobot/FirstStep.kt:115-122 | moveToLastPoint: changes only the state, back to SEARCH exactly when on the grab cell with the saved heading and no move possible |
| FirstStepMission.OriginPlan | app/src/main/java/com/github/giovanniandreuzza/mrrobot/FirstStep.kt:124-152 | moveToOrigin: records the colour exactly once per carry; stops only at the origin without a ball; switches to GO_TO_SAFE exactly when holding a ball at the origin |
| FirstStepMission.TickKeepsConsistent | app/src/main/java/com/github/giovanniandreuzza/mrrobot/FirstStep.kt:22-152 | every step keeps the relations between the variables: at most three balls, holding only on the way to the origin or safe zone, a back-off only after a release |
| FirstStepMission.TickCountsRelease | app/src/main/java/com/github/giovanniandreuzza/mrrobot/FirstStep.kt:99-105 | `ballsInSafe` grows by one at a release and at no other step |
| FirstStepMission.TickChangesHoldingOnlyAtGrabOrRelease | app/src/main/java/com/github/giovanniandreuzza/mrrobot/FirstStep.kt:50-55 | `holdingBall` changes exactly at a grab or a release |
| FirstStepMission.TickGrabsAndReleasesWhere | app/src/main/java/com/github/giovanniandreuzza/mrrobot/FirstStep.kt:28-56 | a grab happens only when not moving, in SEARCH with a ball in reach and an unfinished field; a release only in GO_TO_SAFE in the safe cell |
| FirstStepMission.TickStopsOnlyAtOrigin | app/src/main/java/com/github/giovanniandreuzza/mrrobot/FirstStep.kt:149-150 | stopEngine is called only in GO_TO_ORIGIN, at the origin, without a ball |
| FirstStepMission.TickRecolorsOnce | app/src/main/java/com/github/giovanniandreuzza/mrrobot/FirstStep.kt:125-128 | a colour is recorded only in GO_TO_ORIGIN while `isColorCaught` is false, which it then becomes |
| FirstStepMission.RunCountsReleases | app/src/main/java/com/github/giovanniandreuzza/mrrobot/FirstStep.kt:22-42 | over any run of steps the variables stay consistent, and `ballsInSafe` is the start count plus the releases, at most three in all |
| FirstStepMission.SweepTurnsOnlyAtLineChange | app/src/main/java/com/github/giovanniandreuzza/mrrobot/FirstStep.kt:61-83 | in SEARCH a rotation is always the sweep turn, made only while changing line |
| FirstStepMission.LastPointKept | app/src/main/java/com/github/giovanniandreuzza/mrrobot/FirstStep.kt:50-56 | while a ball is held or delivered, a grab pose is saved |
| FirstStepMission.FirstStep.constructor | app/src/main/java/com/github/giovanniandreuzza/mrrobot/FirstStep.kt:8-20 | a new step is in SEARCH, MOVING_ON_LINE, empty-handed, with no ball delivered |
| FirstStepMission.FirstStep.PlannedIsTick | app/src/main/java/com/github/giovanniandreuzza/mrrobot/FirstStep.kt:28-35 | the handler the current state selects is the pure transition function's choice |
| FirstStepMission.FirstStep.Step | app/src/main/java/com/github/giovanniandreuzza/mrrobot/FirstStep.kt:22-42 | one execute call: while moving nothing changes and nothing is sent, else the handler of the state runs, as Tick says; returns the termination test `(ballsInSafe == 3 or field finished) and at origin`; a finished field stays finished |
| FirstStepMission.FirstStep.Handle | app/src/main/java/com/github/giovanniandreuzza/mrrobot/FirstStep.kt:26-35 | the act of one execute call: keeps the step consistent with the field and the robot, and leaves them as Tick says |
| FirstStepMission.FirstStep.IsDone | app/src/main/java/com/github/giovanniandreuzza/mrrobot/FirstStep.kt:37 | true exactly when all three balls are in the safe cell or the arena is explored, and the robot is at the origin |
| FirstStepMission.FirstStep.Dispatch | app/src/main/java/com/github/giovanniandreuzza/mrrobot/FirstStep.kt:28-35 | runs exactly the handler the state selects, or nothing while moving |
| FirstStepMission.FirstStep.Apply | app/src/main/java/com/github/giovanniandreuzza/mrrobot/FirstStep.kt:44-152 | performs an act and stores the next variables |
| FirstStepMission.FirstStep.Move | app/src/main/java/com/github/giovanniandreuzza/mrrobot/FirstStep.kt:44-59 | does what SearchPlan prescribes |
| FirstStepMission.FirstStep.ChangeLine | app/src/main/java/com/github/giovanniandreuzza/mrrobot/FirstStep.kt:61-83 | does what ChangeLinePlan prescribes |
| FirstStepMission.FirstStep.MoveToSafe | app/src/main/java/com/github/giovanniandreuzza/mrrobot/FirstStep.kt:85-113 | does what SafePlan prescribes |
| FirstStepMission.FirstStep.MoveToLastPoint | app/src/main/java/com/github/giovanniandreuzza/mrrobot/FirstStep.kt:115-122 | does what LastPointPlan prescribes |
| FirstStepMission.FirstStep.MoveToOrigin | app/src/main/java/com/github/giovanniandreuzza/mrrobot/FirstStep.kt:124-152 | does what OriginPlan prescribes, recording the colour seen when it has not been caught yet |
| SecondStepMission.BallPlan | app/src/main/java/com/github/giovanniandreuzza/mrrobot/SecondStep.kt:43-55 | moveToBall: grab exactly when the ball's cell is reached and no move is possible, then GO_TO_ORIGIN holding it; otherwise nothing but the drive or the unwidened turn |
| SecondStepMission.SafePlan | app/src/main/java/com/github/giovanniandreuzza/mrrobot/SecondStep.kt:57-85 | moveToSafe as in FirstStep, except that it then leaves for the next ball |
| SecondStepMission.OriginPlan | app/src/main/java/com/github/giovanniandreuzza/mrrobot/SecondStep.kt:87-115 | moveToOrigin as in FirstStep, the unwidened -8 included |
| SecondStepMission.TickKeepsConsistent | app/src/main/java/com/github/giovanniandreuzza/mrrobot/SecondStep.kt:22-115 | every step keeps the relations between the variables |
| SecondStepMission.TickCountsRelease | app/src/main/java/com/github/giovanniandreuzza/mrrobot/SecondStep.kt:71-77 | `ballsInSafe` grows by one at a release and at no other step |
| SecondStepMission.TickChangesHoldingOnlyAtGrabOrRelease | app/src/main/java/com/github/giovanniandreuzza/mrrobot/SecondStep.kt:47-53 | `holdingBall` changes exactly at a grab or a release |
| SecondStepMission.TickGrabsAndReleasesWhere | app/src/main/java/com/github/giovanniandreuzza/mrrobot/SecondStep.kt:28-55 | a grab happens only in GO_TO_BALL on the ball's cell; a release only in GO_TO_SAFE in the safe cell |
| SecondStepMission.TickStopsOnlyAtOrigin | app/src/main/java/com/github/giovanniandreuzza/mrrobot/SecondStep.kt:87-115 | stopEngine is called only in GO_TO_ORIGIN, at the origin, without a ball |
| SecondStepMission.TickAfterRelease | app/src/main/java/com/github/giovanniandreuzza/mrrobot/SecondStep.kt:78-84 | after a release, one back-off step, then GO_TO_ORIGIN once three balls are in, else GO_TO_BALL |
| SecondStepMission.RunCountsReleases | app/src/main/java/com/github/giovanniandreuzza/mrrobot/SecondStep.kt:22-41 | over any run, the variables stay consistent, the count is the releases, at most three, and GO_TO_BALL always has a ball left to fetch |
| SecondStepMission.SecondStep.constructor | app/src/main/java/com/github/giovanniandreuzza/mrrobot/SecondStep.kt:8-20 | a new step is in GO_TO_BALL, empty-handed, with no ball delivered |
| SecondStepMission.SecondStep.PlannedIsTick | app/src/main/java/com/github/giovanniandreuzza/mrrobot/SecondStep.kt:28-34 | the handler the current state selects is the pure transition function's choice |
| SecondStepMission.SecondStep.Step | app/src/main/java/com/github/giovanniandreuzza/mrrobot/SecondStep.kt:22-41 | one execute call as Tick says; a grab saves `ballList[ballsInSafe]` as the grab cell; returns the termination test; a finished field stays finished |
| SecondStepMission.SecondStep.Dispatch | app/src/main/java/com/github/giovanniandreuzza/mrrobot/SecondStep.kt:28-34 | runs exactly the handler the state selects, or nothing while moving |
| SecondStepMission.SecondStep.Apply | app/src/main/java/com/github/giovanniandreuzza/mrrobot/SecondStep.kt:43-115 | performs an act and stores the next variables |
| SecondStepMission.SecondStep.MoveToBall | app/src/main/java/com/github/giovanniandreuzza/mrrobot/SecondStep.kt:43-55 | does what BallPlan prescribes for the target `ballList[ballsInSafe]` |
| SecondStepMission.SecondStep.MoveToSafe | app/src/main/java/com/github/giovanniandreuzza/mrrobot/SecondStep.kt:57-85 | does what SafePlan prescribes |
| SecondStepMission.SecondStep.MoveToOrigin | app/src/main/java/com/github/giovanniandreuzza/mrrobot/SecondStep.kt:87-115 | does what OriginPlan prescribes |
| Bytes.LowByte | legoandroid/src/main/java/com/github/giovanniandreuzza/legoandroid/comm/Bytecode.kt:23-25 | the byte written for an Int is its residue modulo 256 |
| Bytes.ToI8 | legoandroid/src/main/java/com/github/giovanniandreuzza/legoandroid/comm/Const.kt:39-59 | Kotlin's `toByte()`: the signed byte with the same residue modulo 256, unchanged when in range |
| Bytes.ToI16 | legoandroid/src/main/java/com/github/giovanniandreuzza/legoandroid/ev3/EV3.kt:73-74 | Kotlin's `toShort()`, as soundTone and (TachoMotor.kt:411, 441) the sync commands use it: the residue modulo 65536, unchanged when in range |
| Bytes.Wrap32 | legoandroid/src/main/java/com/github/giovanniandreuzza/legoandroid/comm/Command.kt:3-8 | Int overflow: the residue modulo 2^32, unchanged when in range |
| Bytes.Unsigned16 | legoandroid/src/main/java/com/github/giovanniandreuzza/legoandroid/comm/LegoChannelService.kt:36 | two bytes read as an unsigned little-endian value in 0..65535 |
| Bytes.Unsigned32 | legoandroid/src/main/java/com/github/giovanniandreuzza/legoandroid/comm/Bytecode.kt:56-62 | four bytes read as an unsigned little-endian value below 2^32 |
| Bytes.Le16RoundTrip | legoandroid/src/main/java/com/github/giovanniandreuzza/legoandroid/comm/Bytecode.kt:44-48 | the two bytes written for a Short read back as that Short |
| Bytes.Le16UnsignedRoundTrip | legoandroid/src/main/java/com/github/giovanniandreuzza/legoandroid/comm/LegoChannelService.kt:13-17 | the two length bytes of a value below 65536 read back as that value |
| Bytes.Le32RoundTrip | legoandroid/src/main/java/com/github/giovanniandreuzza/legoandroid/comm/Bytecode.kt:56-62 | the four bytes written for an Int read back as that Int |
| Bytecodes.DecodeParam | legoandroid/src/main/java/com/github/giovanniandreuzza/legoandroid/comm/Bytecode.kt:33-62 | a parameter is read exactly when a `0x81`, `0x82` or `0x83` prefix has its 1, 2 or 4 bytes after it |
| Bytecodes.DecodeEncoded | legoandroid/src/main/java/com/github/giovanniandreuzza/legoandroid/comm/Bytecode.kt:33-62 | each parameter written by addParameter reads back as its value, whatever follows |
| Bytecodes.DecodeAllPrefixed | legoandroid/src/main/java/com/github/giovanniandreuzza/legoandroid/comm/Bytecode.kt:33-62 | a parameter in front of a readable run adds its value in front of the run's values |
| Bytecodes.DecodeEncodeAll | legoandroid/src/main/java/com/github/giovanniandreuzza/legoandroid/comm/Bytecode.kt:33-62 | any run of written parameters reads back as their values |
| Bytecodes.DecodeAllAppend | legoandroid/src/main/java/com/github/giovanniandreuzza/legoandroid/comm/Bytecode.kt:79-81 | two readable runs appended read back as the values of both |
| Bytecodes.GlobalIndexInRange | legoandroid/src/main/java/com/github/giovanniandreuzza/legoandroid/comm/Bytecode.kt:70-72 | for an index in 0..31, addGlobalIndex writes `0x60 + i`, a byte in 0x60..0x7F |
| Bytecodes.Bytecode.constructor | legoandroid/src/main/java/com/github/giovanniandreuzza/legoandroid/comm/Bytecode.kt:14-15 | a new buffer is empty |
| Bytecodes.Bytecode.AddOpCode | legoandroid/src/main/java/com/github/giovanniandreuzza/legoandroid/comm/Bytecode.kt:23-25 | appends exactly the op-code's byte |
| Bytecodes.Bytecode.AddByteParameter | legoandroid/src/main/java/com/github/giovanniandreuzza/legoandroid/comm/Bytecode.kt:33-36 | appends `[0x81, b]` |
| Bytecodes.Bytecode.AddShortParameter | legoandroid/src/main/java/com/github/giovanniandreuzza/legoandroid/comm/Bytecode.kt:44-48 | appends `0x82` and the Short's two bytes, lowest first |
| Bytecodes.Bytecode.AddIntParameter | legoandroid/src/main/java/com/github/giovanniandreuzza/legoandroid/comm/Bytecode.kt:56-62 | appends `0x83` and the Int's four bytes, lowest first |
| Bytecodes.Bytecode.AddGlobalIndex | legoandroid/src/main/java/com/github/giovanniandreuzza/legoandroid/comm/Bytecode.kt:70-72 | appends the single byte `(i + 0x60) mod 256` |
| Bytecodes.Bytecode.Append | legoandroid/src/main/java/com/github/giovanniandreuzza/legoandroid/comm/Bytecode.kt:79-90 | appends the other buffer's bytes after the old ones |
| Commands.ReservationLow | legoandroid/src/main/java/com/github/giovanniandreuzza/legoandroid/comm/Command.kt:23 | `global and 0xFF`: the byte congruent to the global reservation modulo 256 |
| Commands.ReservationHigh | legoandroid/src/main/java/com/github/giovanniandreuzza/legoandroid/comm/Command.kt:21-22 | the low byte of reservationH: its top six bits hold the local reservation modulo 64, its two low bits bits 8 and 9 of the global one |
| Commands.Marshalled | legoandroid/src/main/java/com/github/giovanniandreuzza/legoandroid/comm/Command.kt:31-38 | marshal's output is `5 + data.size` bytes long and ends with the byte code |
| Commands.UnmarshalMarshalled | legoandroid/src/main/java/com/github/giovanniandreuzza/legoandroid/comm/Command.kt:21-38 | a brick reads back the counter modulo 65536, the reply flag, reservations below 64 and 1024, and the byte code |
| Commands.ReservationsWrap | legoandroid/src/main/java/com/github/giovanniandreuzza/legoandroid/comm/Command.kt:18-23 | the packing keeps only the local reservation modulo 64 and the global modulo 1024, so the admitted limits 64 and 1024 go out as 0 |
| Commands.GlobalResidue | legoandroid/src/main/java/com/github/giovanniandreuzza/legoandroid/comm/Command.kt:21-23 | both reservation bytes depend only on the global reservation modulo 1024 |
| Commands.SequenceCounter.constructor | legoandroid/src/main/java/com/github/giovanniandreuzza/legoandroid/comm/Command.kt:10-12 | the shared counter starts at 0 |
| Commands.Command.Init | legoandroid/src/main/java/com/github/giovanniandreuzza/legoandroid/comm/Command.kt:17-24 | stores the flag, counter and byte code, and packs the reservations |
| Commands.Command.Create | legoandroid/src/main/java/com/github/giovanniandreuzza/legoandroid/comm/Command.kt:3-24 | takes the counter and increments it (wrapping as an Int) even when rejecting; rejects exactly a global reservation above 1024 or a local one above 64 |
| Commands.Command.Marshal | legoandroid/src/main/java/com/github/giovanniandreuzza/legoandroid/comm/Command.kt:31-38 | the array is the counter's two bytes lowest first, the type byte (0x00 with a reply, 0x80 without), the two reservation bytes, then the byte code |
| Replies.Reply.Parse | legoandroid/src/main/java/com/github/giovanniandreuzza/legoandroid/comm/Reply.kt:3-16 | a reply exists exactly for 3 bytes or more; its counter is in 0..65535 and its payload is `size - 3` bytes long |
| Replies.ParseReplyBytes | legoandroid/src/main/java/com/github/giovanniandreuzza/legoandroid/comm/Reply.kt:3-16 | the counter bytes, status byte and payload a brick sends are read back as themselves; error exactly when the status is not 0x02 |
| Replies.ReplyBytesOfParse | legoandroid/src/main/java/com/github/giovanniandreuzza/legoandroid/comm/Reply.kt:3-16 | a parsed reply holds everything but the status: counter, status and payload rebuild the bytes exactly |
| Replies.FailIsError | legoandroid/src/main/java/com/github/giovanniandreuzza/legoandroid/comm/Reply.kt:12 | `error` is false exactly for the status 0x02, so 0x04 is an error |
| Replies.CounterMatchesCommand | legoandroid/src/main/java/com/github/giovanniandreuzza/legoandroid/comm/Reply.kt:4 | reading a counter where marshal wrote it gives the command's counter modulo 65536 |
| Channels.Framed | legoandroid/src/main/java/com/github/giovanniandreuzza/legoandroid/comm/LegoChannelService.kt:13-17 | a frame is two length bytes followed by the message unchanged |
| Channels.FramedAnnouncesLength | legoandroid/src/main/java/com/github/giovanniandreuzza/legoandroid/comm/LegoChannelService.kt:13-36 | the size a frame announces is the length of what it carries, below 65536 |
| Channels.Channel.Send | legoandroid/src/main/java/com/github/giovanniandreuzza/legoandroid/comm/Channel.kt:12 | a sent frame is appended to what the channel has sent |
| Channels.Channel.Receive | legoandroid/src/main/java/com/github/giovanniandreuzza/legoandroid/comm/Channel.kt:19 | a receive takes the brick's next byte |
| Channels.Frame | legoandroid/src/main/java/com/github/giovanniandreuzza/legoandroid/comm/LegoChannelService.kt:13-17 | the array built is the frame of the marshalled command |
| Channels.LegoChannelService.SendCommand | legoandroid/src/main/java/com/github/giovanniandreuzza/legoandroid/comm/LegoChannelService.kt:12-44 | sends exactly one frame of the marshalled command, reads exactly two size bytes and the payload they announce, and builds the reply from those bytes alone |
| Channels.LegoChannelService.Send | legoandroid/src/main/java/com/github/giovanniandreuzza/legoandroid/comm/LegoChannelService.kt:46-47 | a command with a reply, no local and the given global reservation; above 1024 nothing is sent and there is no reply, but the counter still advances |
| Channels.LegoChannelService.SendNoReply | legoandroid/src/main/java/com/github/giovanniandreuzza/legoandroid/comm/LegoChannelService.kt:49-56 | one frame of a no-reply command with zero reservations; nothing is read |
| Channels.ReadsFramedReply | legoandroid/src/main/java/com/github/giovanniandreuzza/legoandroid/comm/LegoChannelService.kt:31-43 | when the brick sends a framed reply, the read loops consume exactly that frame and leave what follows |
| Brick.Shorts | legoandroid/src/main/java/com/github/giovanniandreuzza/legoandroid/ev3/EV3.kt:130-135 | the values read are the signed little-endian Shorts of the byte pairs `2i, 2i+1` |
| Brick.PercentValues | legoandroid/src/main/java/com/github/giovanniandreuzza/legoandroid/ev3/EV3.kt:126-136 | there are `nvalue` values exactly when there is a reply with at least `2 * nvalue` payload bytes |
| Brick.ShortsOfLe16s | legoandroid/src/main/java/com/github/giovanniandreuzza/legoandroid/ev3/EV3.kt:130-135 | the Shorts written lowest byte first are read back, whatever follows |
| Brick.PercentValuesOfReply | legoandroid/src/main/java/com/github/giovanniandreuzza/legoandroid/ev3/EV3.kt:126-136 | a reply carrying the values' bytes yields exactly those values |
| Brick.ToneLayout | legoandroid/src/main/java/com/github/giovanniandreuzza/legoandroid/ev3/EV3.kt:68-76 | soundTone's byte code is `[0x94, 0x01, 0x81, vol, 0x82, freq lo, hi, 0x82, dur lo, hi]` |
| Brick.ToneDecodes | legoandroid/src/main/java/com/github/giovanniandreuzza/legoandroid/ev3/EV3.kt:68-76 | the tone's parameters read back as the volume byte and the frequency and duration Shorts |
| Brick.PrefaceLayout | legoandroid/src/main/java/com/github/giovanniandreuzza/legoandroid/ev3/EV3.kt:79-89 | prefaceGetValue's byte code is `[0x99, ready, 0x81, 0x00, 0x81, port, 0x81, type, 0x81, mode, 0x81, nvalue, 0x60]` |
| Brick.PrefaceDecodes | legoandroid/src/main/java/com/github/giovanniandreuzza/legoandroid/ev3/EV3.kt:79-89 | its parameters read back as layer 0, port, type, mode and count |
| Brick.Ev3.SoundTone | legoandroid/src/main/java/com/github/giovanniandreuzza/legoandroid/ev3/EV3.kt:68-76 | sends the tone's byte code with no reply and reads nothing |
| Brick.Ev3.PrefaceGetValue | legoandroid/src/main/java/com/github/giovanniandreuzza/legoandroid/ev3/EV3.kt:79-89 | builds a fresh buffer holding exactly the preface |
| Brick.Ev3.GetPercentValue | legoandroid/src/main/java/com/github/giovanniandreuzza/legoandroid/ev3/EV3.kt:126-136 | sends the READY_PCT preface with a global reservation of `2 * nvalue`, reads one reply, and returns its Shorts |
| Brick.Ev3.ReadShorts | legoandroid/src/main/java/com/github/giovanniandreuzza/legoandroid/ev3/EV3.kt:130-134 | yields a value exactly when the payload holds two bytes per value, and then the payload's Shorts: each value read little-endian from its own two bytes |
| Brick.Ev3.Send | legoandroid/src/main/java/com/github/giovanniandreuzza/legoandroid/ev3/EV3.kt:146 | forwards to the channel service unchanged |
| Brick.Ev3.SendNoReply | legoandroid/src/main/java/com/github/giovanniandreuzza/legoandroid/ev3/EV3.kt:154-156 | forwards to the channel service unchanged |
| Ports.OutputPort.ToByte | legoandroid/src/main/java/com/github/giovanniandreuzza/legoandroid/ev3/EV3OutputPort.kt:50-55 | A, B, C, D are numbered 0..3 |
| Ports.OutputPort.Bitmask | legoandroid/src/main/java/com/github/giovanniandreuzza/legoandroid/ev3/EV3OutputPort.kt:33 | `1 shl toByte()`: one of 1, 2, 4, 8 |
| Ports.OutputPort.ByteAsRead | legoandroid/src/main/java/com/github/giovanniandreuzza/legoandroid/ev3/EV3OutputPort.kt:42 | `toByte() or 0x10`: the number plus 0x10, in 0x10..0x13 |
| Ports.OutputPort.ToString | legoandroid/src/main/java/com/github/giovanniandreuzza/legoandroid/ev3/EV3OutputPort.kt:57 | `"Out/"` followed by the port's name |
| Ports.OutputPortOf | legoandroid/src/main/java/com/github/giovanniandreuzza/legoandroid/ev3/EV3OutputPort.kt:50-55 | the inverse of toByte, defined exactly on 0..3 |
| Ports.OutputPortOfToByte | legoandroid/src/main/java/com/github/giovanniandreuzza/legoandroid/ev3/EV3OutputPort.kt:50-55 | every port is found again from its number, so toByte is injective |
| Ports.BitmasksDisjoint | legoandroid/src/main/java/com/github/giovanniandreuzza/legoandroid/ev3/EV3OutputPort.kt:33 | each mask is a single bit, and distinct ports have distinct, disjoint masks |
| Ports.ByteAsReadInjective | legoandroid/src/main/java/com/github/giovanniandreuzza/legoandroid/ev3/EV3OutputPort.kt:42 | distinct ports have distinct read codes |
| Ports.OutputToStringInjective | legoandroid/src/main/java/com/github/giovanniandreuzza/legoandroid/ev3/EV3OutputPort.kt:57 | distinct output ports print differently |
| Ports.InputPort.ToByte | legoandroid/src/main/java/com/github/giovanniandreuzza/legoandroid/ev3/EV3InputPort.kt:30-35 | ports 1..4 are numbered 0..3 |
| Ports.InputPort.ToString | legoandroid/src/main/java/com/github/giovanniandreuzza/legoandroid/ev3/EV3InputPort.kt:37 | `"In/"` followed by the port's number |
| Ports.InputPortOf | legoandroid/src/main/java/com/github/giovanniandreuzza/legoandroid/ev3/EV3InputPort.kt:30-35 | the inverse of toByte, defined exactly on 0..3 |
| Ports.InputPortOfToByte | legoandroid/src/main/java/com/github/giovanniandreuzza/legoandroid/ev3/EV3InputPort.kt:30-35 | every port is found again from its number: toByte is injective with range 0..3 |
| Ports.InputToStringInjective | legoandroid/src/main/java/com/github/giovanniandreuzza/legoandroid/ev3/EV3InputPort.kt:30-37 | distinct input ports print differently, and port 1 prints `"In/0"` |
| Light.Bits32 | legoandroid/src/main/java/com/github/giovanniandreuzza/legoandroid/plug/sensors/LightSensor.kt:63-75 | the 32 bits of an Int as an unsigned value |
| Light.ToRgb24 | legoandroid/src/main/java/com/github/giovanniandreuzza/legoandroid/plug/sensors/LightSensor.kt:63-65 | for components in 0..255, the shifts and ORs of `toRGB24` add up to `R * 65536 + G * 256 + B`, in 0..0xFFFFFF |
| Light.Rgb24Components | legoandroid/src/main/java/com/github/giovanniandreuzza/legoandroid/plug/sensors/LightSensor.kt:63-65 | shifting and masking `toRGB24` gives back R, G and B |
| Light.ToArgb32 | legoandroid/src/main/java/com/github/giovanniandreuzza/legoandroid/plug/sensors/LightSensor.kt:73-75 | the alpha byte of `toARGB32` is always 0xFF; for components in 0..255 its bits are `0xFF000000 + toRGB24` |
| Light.ArgbWrapped | legoandroid/src/main/java/com/github/giovanniandreuzza/legoandroid/plug/sensors/LightSensor.kt:73-75 | for components in range, `toARGB32` is `0xFF000000 + toRGB24` as an Int |
| Light.ColorArgb32 | legoandroid/src/main/java/com/github/giovanniandreuzza/legoandroid/plug/sensors/LightSensor.kt:90-101 | Color.toARGB32: 0 exactly for TRANSPARENT; every other colour is a negative Int, its top bit being alpha |
| Light.ColorTableIsArgb | legoandroid/src/main/java/com/github/giovanniandreuzza/legoandroid/plug/sensors/LightSensor.kt:90-101 | every opaque entry of Color.toARGB32 is toARGB32 of that colour's components |
| Light.OnlyTransparentIsClear | legoandroid/src/main/java/com/github/giovanniandreuzza/legoandroid/plug/sensors/LightSensor.kt:90-101 | the table's alpha is 0 exactly for TRANSPARENT, and 0xFF for every other colour |
| Light.BrownArgb | legoandroid/src/main/java/com/github/giovanniandreuzza/legoandroid/plug/sensors/LightSensor.kt:99 | brown is 0xFFB48E5C |
| Motors.TailDecodes | legoandroid/src/main/java/com/github/giovanniandreuzza/legoandroid/plug/motors/TachoMotor.kt:107-445 | the parameters after the port of each output command read back as its arguments |
| Motors.ProfileDecodes | legoandroid/src/main/java/com/github/giovanniandreuzza/legoandroid/plug/motors/TachoMotor.kt:277-384 | the step and time profiles read back as the power or speed byte, three Ints and the brake level |
| Motors.SyncDecodes | legoandroid/src/main/java/com/github/giovanniandreuzza/legoandroid/plug/motors/TachoMotor.kt:401-445 | the synchronised commands read back as the power byte, the turn-ratio Short, the step or time Int and the brake level |
| Motors.CodeDecodes | legoandroid/src/main/java/com/github/giovanniandreuzza/legoandroid/plug/motors/TachoMotor.kt:39-445 | every output command starts with its op-code, then reads back as layer 0, the port (its number for setType, else its bit mask) and its arguments |
| Motors.CodeNamesOpAndPort | legoandroid/src/main/java/com/github/giovanniandreuzza/legoandroid/plug/motors/TachoMotor.kt:39-445 | two commands with the same bytes have the same op-code and the same port |
| Motors.BrakeAndCoast | legoandroid/src/main/java/com/github/giovanniandreuzza/legoandroid/plug/motors/TachoMotor.kt:150-173 | brake and stop send the same 7 bytes except the last, 0x01 for brake and 0x00 for stop |
| Motors.BusyReadsFirstByte | legoandroid/src/main/java/com/github/giovanniandreuzza/legoandroid/plug/motors/TachoMotor.kt:52-59 | when the brick answers, isBusy is true exactly when the payload's first byte is not 0, and there is no answer for an empty payload |
| Motors.TachoMotor.Prefix | legoandroid/src/main/java/com/github/giovanniandreuzza/legoandroid/plug/motors/TachoMotor.kt:39-46 | a fresh buffer with the op-code, layer 0 and the port's bit mask |
| Motors.TachoMotor.ClearCount | legoandroid/src/main/java/com/github/giovanniandreuzza/legoandroid/plug/motors/TachoMotor.kt:39-46 | sends exactly the OUTPUT_CLR_COUNT command, with no reply |
| Motors.TachoMotor.IsBusy | legoandroid/src/main/java/com/github/giovanniandreuzza/legoandroid/plug/motors/TachoMotor.kt:52-59 | sends OUTPUT_TEST with a global reservation of 1, reads one reply, and reports its first payload byte |
| Motors.TachoMotor.WaitCompletion | legoandroid/src/main/java/com/github/giovanniandreuzza/legoandroid/plug/motors/TachoMotor.kt:78-86 | sends exactly the OUTPUT_READY command, with no reply |
| Motors.TachoMotor.ResetPosition | legoandroid/src/main/java/com/github/giovanniandreuzza/legoandroid/plug/motors/TachoMotor.kt:91-99 | sends exactly the OUTPUT_RESET command, with no reply |
| Motors.TachoMotor.SetSpeed | legoandroid/src/main/java/com/github/giovanniandreuzza/legoandroid/plug/motors/TachoMotor.kt:107-116 | sends OUTPUT_SPEED with the speed as a byte parameter |
| Motors.TachoMotor.SetPower | legoandroid/src/main/java/com/github/giovanniandreuzza/legoandroid/plug/motors/TachoMotor.kt:123-132 | sends OUTPUT_POWER with the power as a byte parameter |
| Motors.TachoMotor.Start | legoandroid/src/main/java/com/github/giovanniandreuzza/legoandroid/plug/motors/TachoMotor.kt:137-145 | sends exactly the OUTPUT_START command |
| Motors.TachoMotor.Brake | legoandroid/src/main/java/com/github/giovanniandreuzza/legoandroid/plug/motors/TachoMotor.kt:150-159 | sends OUTPUT_STOP with the level 0x01 |
| Motors.TachoMotor.Stop | legoandroid/src/main/java/com/github/giovanniandreuzza/legoandroid/plug/motors/TachoMotor.kt:164-173 | sends OUTPUT_STOP with the level 0x00 |
| Motors.TachoMotor.SetType | legoandroid/src/main/java/com/github/giovanniandreuzza/legoandroid/plug/motors/TachoMotor.kt:207-216 | sends OUTPUT_SET_TYPE with the port's number instead of its bit mask, then the type code (0x08 medium, 0x07 large) |
| Motors.MotorType.ToByte | legoandroid/src/main/java/com/github/giovanniandreuzza/legoandroid/plug/motors/TachoMotor.kt:194-197 | the two motor types get the two distinct type codes, 0x07 exactly for LARGE |
| Motors.Polarity.ToByte | legoandroid/src/main/java/com/github/giovanniandreuzza/legoandroid/plug/motors/TachoMotor.kt:242-246 | the code is -1, 0 or 1, its sign giving the direction: negative exactly for BACKWARDS, zero exactly for OPPOSITE |
| Motors.TachoMotor.SetPolarity | legoandroid/src/main/java/com/github/giovanniandreuzza/legoandroid/plug/motors/TachoMotor.kt:255-264 | sends OUTPUT_POLARITY with -1, 0 or 1 |
| Motors.TachoMotor.SetStepPower | legoandroid/src/main/java/com/github/giovanniandreuzza/legoandroid/plug/motors/TachoMotor.kt:277-292 | sends OUTPUT_STEP_POWER with the power byte, the three step Ints and the brake level |
| Motors.TachoMotor.SetTimePower | legoandroid/src/main/java/com/github/giovanniandreuzza/legoandroid/plug/motors/TachoMotor.kt:304-319 | sends OUTPUT_TIME_POWER with the power byte, the three time Ints and the brake level |
| Motors.TachoMotor.SetStepSpeed | legoandroid/src/main/java/com/github/giovanniandreuzza/legoandroid/plug/motors/TachoMotor.kt:341-356 | sends OUTPUT_STEP_SPEED with the speed byte, the three step Ints and the brake level |
| Motors.TachoMotor.SetTimeSpeed | legoandroid/src/main/java/com/github/giovanniandreuzza/legoandroid/plug/motors/TachoMotor.kt:369-384 | sends OUTPUT_TIME_SPEED with the speed byte, the three time Ints and the brake level |
| Motors.TachoMotor.SetStepSync | legoandroid/src/main/java/com/github/giovanniandreuzza/legoandroid/plug/motors/TachoMotor.kt:401-415 | sends OUTPUT_STEP_SYNC with the power byte, the turn ratio as a Short, the step Int and the brake level |
| Motors.TachoMotor.SetTimeSync | legoandroid/src/main/java/com/github/giovanniandreuzza/legoandroid/plug/motors/TachoMotor.kt:431-445 | sends OUTPUT_TIME_SYNC with the power byte, the turn ratio as a Short, the time Int and the brake level |

## Left out

- The recursive `execute` loops of FirstStep.kt:22-42 and SecondStep.kt:22-41 are not modelled.
  They wait on blocking sensor reads and recurse without bound. One call is modelled instead
  (`Step`), with the readings as parameters. The termination test is its result. A run of steps
  is covered by the pure `Run` function.
- MrRobot.kt (motor timing in floating point, sensor reads) is not part of this model. The
  MrRobotCallback interface becomes the `Robot` command log. `isAlreadyMoving`, `isBallCatchable`
  and `getColor` become the parameters of `Step`.
- `cellLength` is a `Double` in the source. Only its `toInt()` is ever used, so the model keeps an
  integer.
- Negative arena sizes are not modelled: `Field.Create` requires `m, n >= 0`.
- The unset `lateinit` headings are `None`. Reading one while it is unset would throw, so that is a
  precondition of the methods that read it.
- `printMatrix`, the Timber and Log calls, and the UI and Android lifecycle code are left out.
- The floating-point readings are left out: `EV3.getSiValue`, `TachoMotor.getPosition`,
  `getSpeed` and `getTachoMotorValue`, GyroSensor.kt, UltrasonicSensor.kt, and the light sensor's
  `getColor` and `getRgb`. The light sensor's `getReflected` and `getAmbient` are thin wrappers
  over `getPercentValue` and are left out with AbstractSensor.kt.
- `TachoMotor.waitUntilReady` is left out. It polls `isBusy` recursively against the device.
- AbstractSensor.kt, TouchSensor.kt and Plug.kt are thin wrappers and are left out.
- LegoChannel.kt, an interface, is left out; `LegoChannelService` is modelled directly.
- Packet.kt, a `(counter, data)` record, is folded into `Command` and `Reply`.
- Const.kt is not modelled as such. Its values that the encoders use are copied as constants.
- Blocking receives, `runBlocking` and coroutines are left out. A receive with nothing to read
  would suspend in the source; here the brick's bytes must already be there (`FrameReady`).
  Bluetooth I/O is represented only by the channel's byte sequences.
- Exceptions are not modelled as such: a rejected `Command` is `null`, and a reply too short to
  parse is `None`.
- `Command` keeps only the low bytes of the `reservationH` and `reservationL` fields, because only
  those reach the wire.
- The `toString` of the motor `Type` and `Polarity` enums is not modelled: it is only used in log
  messages.
- `Bytecode.getBytes` is not a separate member: the buffer's `bytes` field is what it returns.
- The Kotlin overloads `addParameter(Byte)`, `addParameter(Short)` and `addParameter(Int)` become
  `AddByteParameter`, `AddShortParameter` and `AddIntParameter`.
- Arena.Field.StartingPoint: requires an interior origin, the only kind any caller passes
  ((4, 1)). The source also accepts a bottom-ring origin (x, ROWS - 1) with 2 <= x <= m - 1: there
  the bottom-side branch overwrites the origin's own CURRENT_POSITION mark with SAFE_AVAILABLE,
  and the heading becomes TO_UP, the only way that branch is reached. Every other origin outside
  the interior makes a `setVal` throw (for (0, 0) the bottom-side branch writes x = -1). Neither
  the ring-origin behaviour nor the exception path is modelled.
- SecondStepMission.SecondStep.Step: requires `ballsInSafe < |ballList|` when a GO_TO_BALL step
  runs. In the source, `ballList[ballsInSafe]` (SecondStep.kt:45-46) throws
  IndexOutOfBoundsException on a shorter list. Mission.kt:15 passes `ballList.orEmpty()`, so
  with the default null list the first step throws. That exception path is not modelled.
- Arena.Field.BallReleased: requires the robot's position to lie inside the grid. Outside it, the
  source's `setVal` would throw; every call is made in the safe cell, a ring cell inside the grid.
- Light.ToRgb24: its value is stated only for components in 0..255. Outside that range the source's
  shifted ORs overlap, and the model leaves them unspecified.
- Light.Rgb24Components: stated only for components in 0..255, for the same reason.
- Light.ToArgb32: its bits are stated only for components in 0..255, for the same reason; its alpha byte is stated for all.
- Brick.PercentValuesOfReply: stated only for a counter in 0..65535, which is what two bytes
  carry, and for fewer than 128 values, the most a Byte `nvalue` can ask for.

=== FILE: bytecode.dfy ===
/**
 * The EV3 direct-command byte code builder: an append-only byte buffer with one operation per
 * kind of item (an op-code, a parameter in the long format of 1, 2 or 4 bytes, a global variable
 * index), as the LEGO MINDSTORMS EV3 Firmware Developer Kit lays them out. A decoder of the
 * parameter encoding is the partner every layout lemma is stated against.
 */
module Bytecodes {
  import opened Wrappers
  import opened Bytes

  /** The long-format parameter prefixes: one, two or four value bytes follow. */
  const ByteSize: u8 := 0x81
  const ShortSize: u8 := 0x82
  const IntSize: u8 := 0x83

  /** A global variable index `i` is the single byte `0x60 + i`. */
  const GlobalIndexBase := 0x60

  /** What addParameter(Byte) writes. */
  function ByteParam(b: i8): seq<u8>
  {
    [ByteSize, LowByte(b)]
  }

  /** What addParameter(Short) writes: the prefix, then the low and the high byte. */
  function ShortParam(v: i16): seq<u8>
  {
    [ShortSize] + Le16(v)
  }

  /** What addParameter(Int) writes: the prefix, then the four bytes, lowest first. */
  function IntParam(v: i32): seq<u8>
  {
    [IntSize] + Le32(v)
  }

  /** What addGlobalIndex writes: the Byte widened to Int, plus 0x60, low 8 bits. */
  function GlobalIndexByte(i: i8): u8
  {
    LowByte(i + GlobalIndexBase)
  }

  /** One parameter, of one of the three widths the builder can write. */
  datatype Arg = ByteArg(b: i8) | ShortArg(s: i16) | IntArg(i: i32)

  function Encode(a: Arg): seq<u8>
  {
    match a
    case ByteArg(b) => ByteParam(b)
    case ShortArg(s) => ShortParam(s)
    case IntArg(i) => IntParam(i)
  }

  function Value(a: Arg): int
  {
    match a
    case ByteArg(b) => b
    case ShortArg(s) => s
    case IntArg(i) => i
  }

  function Values(args: seq<Arg>): (vs: seq<int>)
    ensures |vs| == |args|
  {
    if args == [] then [] else [Value(args[0])] + Values(args[1..])
  }

  function EncodeAll(args: seq<Arg>): seq<u8>
  {
    if args == [] then [] else Encode(args[0]) + EncodeAll(args[1..])
  }

  /** A decoded parameter and the number of bytes it took. */
  datatype Param = Param(value: int, size: nat)

  /** Reads one long-format parameter at the head of `bs`. */
  function DecodeParam(bs: seq<u8>): (r: Option<Param>)
    ensures r.Some? ==> 2 <= r.value.size <= |bs|
    ensures r.Some? <==> |bs| >= 2 && (bs[0] == ByteSize || (bs[0] == ShortSize && |bs| >= 3) || (bs[0] == IntSize && |bs| >= 5))
  {
    if |bs| >= 2 && bs[0] == ByteSize then Some(Param(ToI8(bs[1]), 2))
    else if |bs| >= 3 && bs[0] == ShortSize then Some(Param(SignedLe16(bs[1], bs[2]), 3))
    else if |bs| >= 5 && bs[0] == IntSize then Some(Param(Wrap32(Unsigned32(bs[1..5])), 5))
    else None
  }

  /** Reads a whole run of parameters; fails unless the bytes are exactly a sequence of them. */
  function DecodeAll(bs: seq<u8>): Option<seq<int>>
    decreases |bs|
  {
    if bs == [] then Some([])
    else match DecodeParam(bs)
      case None => None
      case Some(p) =>
        match DecodeAll(bs[p.size..])
        case None => None
        case Some(vs) => Some([p.value] + vs)
  }

  /** Every parameter decodes back to its value, whatever follows it. */
  lemma DecodeEncoded(a: Arg, rest: seq<u8>)
    ensures DecodeParam(Encode(a) + rest) == Some(Param(Value(a), |Encode(a)|))
  {
    var bs := Encode(a) + rest;
    match a
    case ByteArg(b) =>
      assert bs[1] == LowByte(b);
    case ShortArg(s) =>
      Le16RoundTrip(s);
      assert bs[1] == Le16(s)[0] && bs[2] == Le16(s)[1];
    case IntArg(i) =>
      Le32RoundTrip(i);
      assert bs[1..5] == Le32(i);
  }

  /** Decoding peels one encoded parameter off the front of any byte run. */
  lemma DecodeAllPrefixed(a: Arg, rest: seq<u8>)
    ensures DecodeAll(Encode(a) + rest) ==
      if DecodeAll(rest).Some? then Some([Value(a)] + DecodeAll(rest).value) else None
  {
    DecodeEncoded(a, rest);
    assert (Encode(a) + rest)[|Encode(a)|..] == rest;
  }

  /** A parameter in front of a readable run adds its value in front of the run's values. */
  lemma DecodeArgThen(a: Arg, tail: seq<u8>, vs: seq<int>)
    requires DecodeAll(tail) == Some(vs)
    ensures DecodeAll(Encode(a) + tail) == Some([Value(a)] + vs)
  {
    DecodeAllPrefixed(a, tail);
  }

  /** Any run of encoded parameters decodes back to their values. */
  lemma {:induction false} DecodeEncodeAll(args: seq<Arg>)
    ensures DecodeAll(EncodeAll(args)) == Some(Values(args))
  {
    if args != [] {
      DecodeEncodeAll(args[1..]);
      DecodeAllPrefixed(args[0], EncodeAll(args[1..]));
    }
  }

  /** A single encoded parameter decodes to its value alone. */
  lemma DecodeOne(a: Arg)
    ensures DecodeAll(Encode(a)) == Some([Value(a)])
  {
    assert Encode(a) + [] == Encode(a);
    assert DecodeAll([]) == Some([]);
    DecodeAllPrefixed(a, []);
    assert [Value(a)] + [] == [Value(a)];
  }

  /** Decoding is compositional: two decodable runs side by side decode to both value lists. */
  lemma {:induction false} DecodeAllAppend(xs: seq<u8>, ys: seq<u8>)
    requires DecodeAll(xs).Some? && DecodeAll(ys).Some?
    ensures DecodeAll(xs + ys) == Some(DecodeAll(xs).value + DecodeAll(ys).value)
    decreases |xs|, 1
  {
    if xs == [] {
      assert xs + ys == ys;
      assert DecodeAll(xs).value == [];
      assert [] + DecodeAll(ys).value == DecodeAll(ys).value;
    } else {
      DecodeAllAppendCons(xs, ys);
    }
  }

  /** The inductive step of DecodeAllAppend: the first parameter of `xs` leads both runs. */
  lemma {:induction false} DecodeAllAppendCons(xs: seq<u8>, ys: seq<u8>)
    requires xs != [] && DecodeAll(xs).Some? && DecodeAll(ys).Some?
    ensures DecodeAll(xs + ys) == Some(DecodeAll(xs).value + DecodeAll(ys).value)
    decreases |xs|, 0
  {
    var p := DecodeParam(xs).value;
    var u, v := DecodeAll(xs[p.size..]).value, DecodeAll(ys).value;
    DecodeAllAppend(xs[p.size..], ys);
    DecodeAllCons(xs, p, u);
    DecodeAllConsAppend(xs, ys, p, u, v);
  }

  /** A run led by a parameter still reads that parameter first once more bytes follow it. */
  lemma DecodeAllConsAppend(xs: seq<u8>, ys: seq<u8>, p: Param, u: seq<int>, v: seq<int>)
    requires DecodeParam(xs) == Some(p) && DecodeAll(xs[p.size..] + ys) == Some(u + v)
    ensures DecodeAll(xs + ys) == Some(([p.value] + u) + v)
  {
    DecodeParamPrefix(xs, ys);
    assert (xs + ys)[p.size..] == xs[p.size..] + ys;
    DecodeAllCons(xs + ys, p, u + v);
    assert [p.value] + (u + v) == ([p.value] + u) + v;
  }

  /** One step of DecodeAll on a run that starts with a readable parameter and a decodable rest. */
  lemma DecodeAllCons(bs: seq<u8>, p: Param, w: seq<int>)
    requires DecodeParam(bs) == Some(p) && DecodeAll(bs[p.size..]) == Some(w)
    ensures DecodeAll(bs) == Some([p.value] + w)
  {
  }

  /** A parameter reads the same whatever follows it. */
  lemma DecodeParamPrefix(xs: seq<u8>, ys: seq<u8>)
    requires DecodeParam(xs).Some?
    ensures DecodeParam(xs + ys) == DecodeParam(xs)
  {
    assert (xs + ys)[..DecodeParam(xs).value.size] == xs[..DecodeParam(xs).value.size];
  }

  /** The global index byte of any index 0..31 is one of GV0's codes 0x60..0x7F. */
  lemma GlobalIndexInRange(i: i8)
    requires 0 <= i < 0x20
    ensures GlobalIndexByte(i) == 0x60 + i && 0x60 <= GlobalIndexByte(i) < 0x80
  {
  }

  /** Bytecode: the stream the builder writes to; `bytes` is what getBytes returns. */
  class Bytecode {
    var bytes: seq<u8>

    constructor ()
      ensures bytes == []
    {
      bytes := [];
    }

    /** addOpCode: the op-code's low 8 bits. */
    method AddOpCode(opcode: i8)
      modifies this
      ensures bytes == old(bytes) + [LowByte(opcode)]
    {
      bytes := bytes + [LowByte(opcode)];
    }

    /** addParameter(Byte) */
    method AddByteParameter(param: i8)
      modifies this
      ensures bytes == old(bytes) + ByteParam(param)
    {
      bytes := bytes + [ByteSize];
      bytes := bytes + [LowByte(param)];
    }

    /** addParameter(Short): `param shr 8` on the widened Int is the high byte. */
    method AddShortParameter(param: i16)
      modifies this
      ensures bytes == old(bytes) + ShortParam(param)
    {
      bytes := bytes + [ShortSize];
      bytes := bytes + [LowByte(param)];
      bytes := bytes + [LowByte(param / 0x100)];
    }

    /** addParameter(Int) */
    method AddIntParameter(param: i32)
      modifies this
      ensures bytes == old(bytes) + IntParam(param)
    {
      bytes := bytes + [IntSize];
      bytes := bytes + [LowByte(param)];
      bytes := bytes + [LowByte(param / 0x100)];
      bytes := bytes + [LowByte(param / 0x1_0000)];
      bytes := bytes + [LowByte(param / 0x100_0000)];
    }

    /** addGlobalIndex */
    method AddGlobalIndex(index: i8)
      modifies this
      ensures bytes == old(bytes) + [GlobalIndexByte(index)]
    {
      bytes := bytes + [GlobalIndexByte(index)];
    }

    /** append: the other buffer's bytes are read first, so appending a buffer to itself doubles it. */
    method Append(bc: Bytecode)
      modifies this
      ensures bytes == old(bytes) + old(bc.bytes)
    {
      var other := bc.bytes;
      bytes := bytes + other;
    }
  }
}

=== FILE: bytes.dfy ===
/**
 * The JVM's fixed-width integers and the byte-level conversions that the EV3 encoders use.
 * Wire bytes are unsigned (0..255); Kotlin's `Byte`, `Short` and `Int` are signed two's complement.
 */
module Bytes {

  type u8 = x: int | 0 <= x < 0x100
  type i8 = x: int | -0x80 <= x < 0x80
  type i16 = x: int | -0x8000 <= x < 0x8000
  type i32 = x: int | -0x8000_0000 <= x < 0x8000_0000

  /** The low 8 bits of `v`: what `DataOutputStream.writeByte` puts on the wire. */
  function LowByte(v: int): (b: u8)
    ensures (v - b) % 0x100 == 0
  {
    v % 0x100
  }

  /** Kotlin's `toByte()`: keep the low 8 bits and read them as a signed value. */
  function ToI8(v: int): (r: i8)
    ensures (v - r) % 0x100 == 0
    ensures -0x80 <= v < 0x80 ==> r == v
  {
    var w := v % 0x100;
    if w < 0x80 then w else w - 0x100
  }

  /** Kotlin's `toShort()`: keep the low 16 bits and read them as a signed value. */
  function ToI16(v: int): (r: i16)
    ensures (v - r) % 0x1_0000 == 0
    ensures -0x8000 <= v < 0x8000 ==> r == v
  {
    var w := v % 0x1_0000;
    if w < 0x8000 then w else w - 0x1_0000
  }

  /** 32-bit two's complement wrap-around of a Kotlin `Int` computation. */
  function Wrap32(v: int): (r: i32)
    ensures (v - r) % 0x1_0000_0000 == 0
    ensures -0x8000_0000 <= v < 0x8000_0000 ==> r == v
  {
    var w := v % 0x1_0000_0000;
    if w < 0x8000_0000 then w else w - 0x1_0000_0000
  }

  /** Little-endian bytes of the low 16 bits: `writeByte(v)`, `writeByte(v shr 8)`. */
  function Le16(v: int): (bs: seq<u8>)
    ensures |bs| == 2
  {
    [LowByte(v), LowByte(v / 0x100)]
  }

  /** Little-endian bytes of the low 32 bits: `writeByte(v shr k)` for k = 0, 8, 16, 24. */
  function Le32(v: int): (bs: seq<u8>)
    ensures |bs| == 4
  {
    [LowByte(v), LowByte(v / 0x100), LowByte(v / 0x1_0000), LowByte(v / 0x100_0000)]
  }

  /** The unsigned value of two little-endian bytes. */
  function Unsigned16(lo: u8, hi: u8): (v: int)
    ensures 0 <= v < 0x1_0000
  {
    lo as int + 0x100 * hi as int
  }

  /** The unsigned value of four little-endian bytes. */
  function Unsigned32(bs: seq<u8>): (v: int)
    requires |bs| == 4
    ensures 0 <= v < 0x1_0000_0000
  {
    bs[0] as int + 0x100 * (bs[1] as int + 0x100 * (bs[2] as int + 0x100 * bs[3] as int))
  }

  /** `ByteBuffer.order(LITTLE_ENDIAN).short` on two bytes. */
  function SignedLe16(lo: u8, hi: u8): i16
  {
    ToI16(Unsigned16(lo, hi))
  }

  /** The two bytes of a short decode back to the short. */
  lemma {:induction false} Le16RoundTrip(v: i16)
    ensures SignedLe16(Le16(v)[0], Le16(v)[1]) == v
  {
    var q := v / 0x100;
    assert v == v % 0x100 + 0x100 * q;
    assert Unsigned16(Le16(v)[0], Le16(v)[1]) == v - 0x1_0000 * (q / 0x100);
  }

  /** Two bytes read as an unsigned 16-bit value give back any value in 0..65535. */
  lemma {:induction false} Le16UnsignedRoundTrip(v: int)
    requires 0 <= v < 0x1_0000
    ensures Unsigned16(Le16(v)[0], Le16(v)[1]) == v
  {
    assert v == v % 0x100 + 0x100 * (v / 0x100);
  }

  /** The four bytes of an int decode back to the int. */
  lemma {:induction false} Le32RoundTrip(v: i32)
    ensures Wrap32(Unsigned32(Le32(v))) == v
  {
    var q1, q2, q3 := v / 0x100, v / 0x1_0000, v / 0x100_0000;
    assert q2 == q1 / 0x100 && q3 == q2 / 0x100;
    var q4 := if v < 0 then -1 else 0;
    assert -0x80 <= q3 < 0x80 && q3 / 0x100 == q4;
    assert Le32(v) == [LowByte(v), LowByte(q1), LowByte(q2), LowByte(q3)];
    assert Unsigned32(Le32(v)) == v - 0x1_0000_0000 * q4 by {
      assert v == v % 0x100 + 0x100 * q1;
      assert q1 == q1 % 0x100 + 0x100 * q2;
      assert q2 == q2 % 0x100 + 0x100 * q3;
      assert q3 == q3 % 0x100 + 0x100 * q4;
    }
  }


  /** `2^n`. */
  function Pow2(n: nat): (p: nat)
    ensures p >= 1
  {
    if n == 0 then 1 else 2 * Pow2(n - 1)
  }

  /** The bitwise OR of two non-negative integers, bit by bit from the lowest. */
  function BitOr(a: nat, b: nat): nat
    decreases a + b
  {
    if a == 0 then b
    else if b == 0 then a
    else 2 * BitOr(a / 2, b / 2) + (if a % 2 == 1 || b % 2 == 1 then 1 else 0)
  }

  /** OR-ing a multiple of `2^k` with a value below `2^k` is addition: their bits do not meet. */
  lemma {:induction false} BitOrDisjoint(q: nat, b: nat, k: nat)
    requires b < Pow2(k)
    ensures BitOr(Pow2(k) * q, b) == Pow2(k) * q + b
    decreases k
  {
    var a := Pow2(k) * q;
    if k == 0 || a == 0 || b == 0 {
    } else {
      var x := Pow2(k - 1) * q;
      assert a == 2 * x;
      assert a / 2 == x && a % 2 == 0;
      BitOrDisjoint(q, b / 2, k - 1);
    }
  }

  /** Powers of two multiply by adding exponents. */
  lemma {:induction false} PowAdd(m: nat, n: nat)
    ensures Pow2(m + n) == Pow2(m) * Pow2(n)
    decreases m
  {
    if m > 0 {
      PowAdd(m - 1, n);
    }
  }

  /** OR is symmetric. */
  lemma {:induction false} BitOrCommutes(a: nat, b: nat)
    ensures BitOr(a, b) == BitOr(b, a)
    decreases a + b
  {
    if a != 0 && b != 0 {
      BitOrCommutes(a / 2, b / 2);
    }
  }

  /** The powers of two that byte boundaries fall on. */
  lemma Pow2Bytes()
    ensures Pow2(4) == 0x10 && Pow2(8) == 0x100 && Pow2(16) == 0x1_0000
    ensures Pow2(24) == 0x100_0000 && Pow2(32) == 0x1_0000_0000
  {
    assert Pow2(4) == 0x10 by {
      assert Pow2(1) == 2 && Pow2(2) == 4 && Pow2(3) == 8;
    }
    assert Pow2(8) == 0x100 by {
      PowAdd(4, 4);
    }
    PowAdd(8, 8);
    PowAdd(16, 8);
    PowAdd(16, 16);
  }
}

=== FILE: channel.dfy ===
/**
 * LegoChannelService: every command goes out as one frame (a 2-byte little-endian length and the
 * marshalled command); a reply comes back the same way, read one byte at a time.
 */
module Channels {
  import opened Wrappers
  import opened Bytes
  import opened Bytecodes
  import opened Commands
  import opened Replies

  /** A frame: the length of `a` in two little-endian bytes, then `a`. */
  function Framed(a: seq<u8>): (f: seq<u8>)
    ensures |f| == 2 + |a| && f[2..] == a
  {
    Le16(|a|) + a
  }

  /** The size a frame announces. */
  function PayloadSize(bs: seq<u8>): nat
    requires |bs| >= 2
  {
    Unsigned16(bs[0], bs[1])
  }

  /** A frame of fewer than 65536 bytes announces its own length. */
  lemma FramedAnnouncesLength(a: seq<u8>)
    requires |a| < 0x1_0000
    ensures PayloadSize(Framed(a)) == |a|
  {
    Le16UnsignedRoundTrip(|a|);
  }

  /** The bytes the brick still has to send hold a whole frame: the two size bytes and the payload they announce. */
  predicate FrameReady(incoming: seq<u8>)
  {
    |incoming| >= 2 && |incoming| >= 2 + PayloadSize(incoming)
  }

  /** The byte streams of a Bluetooth connection: the frames sent so far, and the bytes the brick will send. */
  class Channel {
    var sent: seq<seq<u8>>
    var incoming: seq<u8>

    constructor (incoming: seq<u8>)
      ensures sent == [] && this.incoming == incoming
    {
      sent, this.incoming := [], incoming;
    }

    /** send */
    method Send(data: seq<u8>)
      modifies this
      ensures sent == old(sent) + [data] && incoming == old(incoming)
    {
      sent := sent + [data];
    }

    /** receive: the next byte from the brick. */
    method Receive() returns (b: u8)
      requires incoming != []
      modifies this
      ensures b == old(incoming)[0] && incoming == old(incoming)[1..] && sent == old(sent)
    {
      b := incoming[0];
      incoming := incoming[1..];
    }
  }

  /** The frame both send methods build: `l.copyOf(l.size + a.size)`, then `a` copied in after the two length bytes. */
  method Frame(a: array<u8>) returns (result: array<u8>)
    ensures fresh(result) && result[..] == Framed(a[..])
  {
    var l := Le16(a.Length);
    result := new u8[2 + a.Length](_ => 0);
    result[0] := l[0];
    result[1] := l[1];
    var i := 0;
    while i < a.Length
      invariant 0 <= i <= a.Length
      invariant result[..2] == l
      invariant forall k :: 0 <= k < i ==> result[2 + k] == a[k]
    {
      result[2 + i] := a[i];
      i := i + 1;
    }
    assert result[2..] == a[..];
    assert result[..] == result[..2] + result[2..];
  }

  class LegoChannelService {
    const channel: Channel
    /** The sequence counter every Command takes its number from. */
    const sequence: SequenceCounter

    constructor (channel: Channel, sequence: SequenceCounter)
      ensures this.channel == channel && this.sequence == sequence
    {
      this.channel, this.sequence := channel, sequence;
    }

    /**
     * send(cmd): one frame out, then exactly two size bytes and exactly the payload they announce
     * read back. The reply is built from those bytes alone; its counter is not compared with the
     * command's. A receive with nothing to read suspends in the source; here the brick's bytes
     * must be there.
     */
    method SendCommand(cmd: Command) returns (r: Option<Reply>)
      requires FrameReady(channel.incoming)
      modifies channel
      ensures channel.sent == old(channel.sent) + [Framed(Header(cmd.counter, cmd.hasReply, cmd.reservationL, cmd.reservationH) + cmd.data)]
      ensures var n := PayloadSize(old(channel.incoming));
        channel.incoming == old(channel.incoming)[2 + n..] && r == Parse(old(channel.incoming)[2..2 + n])
    {
      var a := cmd.Marshal();
      var result := Frame(a);
      var frame := result[..];
      channel.Send(frame);
      ghost var pending := channel.incoming;

      var contSize := 0;
      var sizeArr: seq<u8> := [];
      while contSize < 2
        invariant 0 <= contSize <= 2 && sizeArr == pending[..contSize]
        invariant channel.incoming == pending[contSize..] && channel.sent == old(channel.sent) + [frame]
      {
        var b := channel.Receive();
        sizeArr := sizeArr + [b];
        contSize := contSize + 1;
      }

      var payloadSize := Unsigned16(sizeArr[0], sizeArr[1]);
      var contPayload := 0;
      var payloadArr: seq<u8> := [];
      while contPayload < payloadSize
        invariant 0 <= contPayload <= payloadSize && payloadArr == pending[2..2 + contPayload]
        invariant channel.incoming == pending[2 + contPayload..] && channel.sent == old(channel.sent) + [frame]
      {
        var b := channel.Receive();
        payloadArr := payloadArr + [b];
        contPayload := contPayload + 1;
      }
      r := Parse(payloadArr);
    }

    /**
     * send(reservation, bc): a command that expects a reply, no local and `reservation` bytes of
     * global memory. A reservation above 1024 is rejected before anything is sent.
     */
    method Send(reservation: i32, bc: Bytecode) returns (r: Option<Reply>)
      requires reservation <= MaxGlobalReservation ==> FrameReady(channel.incoming)
      modifies channel, sequence
      ensures sequence.value == Wrap32(old(sequence.value) + 1)
      ensures reservation > MaxGlobalReservation ==> r.None? && channel.sent == old(channel.sent) && channel.incoming == old(channel.incoming)
      ensures reservation <= MaxGlobalReservation ==>
        channel.sent == old(channel.sent) + [Framed(Marshalled(old(sequence.value), true, 0, reservation, old(bc.bytes)))]
      ensures reservation <= MaxGlobalReservation ==> var n := PayloadSize(old(channel.incoming));
        channel.incoming == old(channel.incoming)[2 + n..] && r == Parse(old(channel.incoming)[2..2 + n])
    {
      var cmd := Command.Create(sequence, true, 0, reservation, bc.bytes);
      if cmd == null {
        return None;
      }
      r := SendCommand(cmd);
    }

    /** sendNoReply: a command with no reply and no reservations; nothing is read back. */
    method SendNoReply(bc: Bytecode)
      modifies channel, sequence
      ensures sequence.value == Wrap32(old(sequence.value) + 1)
      ensures channel.sent == old(channel.sent) + [Framed(Marshalled(old(sequence.value), false, 0, 0, old(bc.bytes)))]
      ensures channel.incoming == old(channel.incoming)
    {
      var cmd := Command.Create(sequence, false, 0, 0, bc.bytes);
      var a := cmd.Marshal();
      var result := Frame(a);
      channel.Send(result[..]);
    }
  }

  /**
   * What the brick sends back for a reply is read back as that reply: a frame around the reply's
   * counter, status and payload, followed by anything else.
   */
  lemma ReadsFramedReply(counter: int, status: u8, data: seq<u8>, rest: seq<u8>)
    requires 0 <= counter < 0x1_0000 && 3 + |data| < 0x1_0000
    ensures var incoming := Framed(ReplyBytes(counter, status, data)) + rest;
      FrameReady(incoming) && PayloadSize(incoming) == 3 + |data|
      && incoming[2..2 + PayloadSize(incoming)] == ReplyBytes(counter, status, data)
      && incoming[2 + PayloadSize(incoming)..] == rest
  {
    var rb := ReplyBytes(counter, status, data);
    FramedAnnouncesLength(rb);
    var incoming := Framed(rb) + rest;
    assert incoming[..2] == Framed(rb)[..2];
    assert incoming[2..2 + |rb|] == rb;
  }
}

=== FILE: command.dfy ===
/**
 * A direct command as it goes on the wire: a 5-byte header (the message counter, the command
 * type, the local and global memory reservations packed into two bytes) and the byte code.
 */
module Commands {
  import opened Wrappers
  import opened Bytes

  /** The command types of byte 2. */
  const DirectCommandReply: u8 := 0x00
  const DirectCommandNoReply: u8 := 0x80

  /** The largest reservations the constructor admits. */
  const MaxGlobalReservation := 1024
  const MaxLocalReservation := 64

  function TypeByte(hasReply: bool): u8
  {
    if hasReply then DirectCommandReply else DirectCommandNoReply
  }

  /**
   * reservationL: `global and 0xFF`. The bitwise operations of the source are written as
   * arithmetic on the two's complement value, which they agree with on every Int.
   */
  function ReservationLow(global: int): (b: u8)
    ensures (global - b) % 0x100 == 0
    ensures 0 <= global < 0x100 ==> b == global
  {
    LowByte(global)
  }

  /** The low byte of reservationH: `local shl 2`, with bits 8 and 9 of `global` in its two low bits. */
  function ReservationHigh(local: int, global: int): (b: u8)
    ensures b / 4 == local % MaxLocalReservation
    ensures b % 4 == (global / 0x100) % 4
  {
    4 * (local % 0x40) + (global / 0x100) % 4
  }

  /** The header marshal writes: the counter's two low bytes, lowest first, the type, then the reservations. */
  function Header(counter: int, hasReply: bool, low: u8, high: u8): seq<u8>
  {
    Le16(counter) + [TypeByte(hasReply), low, high]
  }

  /** What marshal returns for a command built from these arguments. */
  function Marshalled(counter: int, hasReply: bool, local: int, global: int, data: seq<u8>): (bs: seq<u8>)
    ensures |bs| == 5 + |data| && bs[5..] == data
  {
    Header(counter, hasReply, ReservationLow(global), ReservationHigh(local, global)) + data
  }

  /** The fields a receiving brick reads back from a command. */
  datatype Fields = Fields(counter: int, hasReply: bool, local: int, global: int, data: seq<u8>)

  /** The brick's reading of a command: none unless there is a whole header with a known type byte. */
  function Unmarshal(bs: seq<u8>): Option<Fields>
  {
    if |bs| < 5 || bs[2] !in {DirectCommandReply, DirectCommandNoReply} then None
    else Some(Fields(Unsigned16(bs[0], bs[1]), bs[2] == DirectCommandReply, bs[4] as int / 4, bs[3] as int + 0x100 * (bs[4] as int % 4), bs[5..]))
  }

  /**
   * Reservations below the limits come back exactly; the counter comes back modulo 65536, and the
   * byte code unchanged.
   */
  lemma UnmarshalMarshalled(counter: int, hasReply: bool, local: int, global: int, data: seq<u8>)
    requires 0 <= local < MaxLocalReservation && 0 <= global < MaxGlobalReservation
    ensures Unmarshal(Marshalled(counter, hasReply, local, global, data))
      == Some(Fields(counter % 0x1_0000, hasReply, local, global, data))
  {
    var bs := Marshalled(counter, hasReply, local, global, data);
    assert bs[0] == LowByte(counter) && bs[1] == LowByte(counter / 0x100) && bs[2] == TypeByte(hasReply);
    assert bs[3] == ReservationLow(global) && bs[4] == ReservationHigh(local, global);
    CounterBytes(counter);
    ReservationBytes(local, global);
  }

  /** The two low bytes of the counter read back as the counter modulo 65536. */
  lemma CounterBytes(counter: int)
    ensures Unsigned16(LowByte(counter), LowByte(counter / 0x100)) == counter % 0x1_0000
  {
    var q := counter / 0x100;
    assert counter == counter % 0x100 + 0x100 * q;
  }

  /** The two reservation bytes hold both reservations when they are below the limits. */
  lemma ReservationBytes(local: int, global: int)
    requires 0 <= local < MaxLocalReservation && 0 <= global < MaxGlobalReservation
    ensures ReservationHigh(local, global) as int / 4 == local
    ensures ReservationLow(global) as int + 0x100 * (ReservationHigh(local, global) as int % 4) == global
  {
  }

  /**
   * The packing keeps 6 bits of the local and 10 bits of the global reservation, so every admitted
   * value, the negative ones and the limits 64 and 1024 included, is sent as its residue: 64 and 1024
   * both go out as 0.
   */
  lemma ReservationsWrap(counter: int, hasReply: bool, local: int, global: int, data: seq<u8>)
    ensures Marshalled(counter, hasReply, local, global, data)
      == Marshalled(counter, hasReply, local % MaxLocalReservation, global % MaxGlobalReservation, data)
    ensures Marshalled(counter, hasReply, MaxLocalReservation, MaxGlobalReservation, data)
      == Marshalled(counter, hasReply, 0, 0, data)
  {
    ReservationResidues(local, global);
    SameReservationBytes(counter, hasReply, local, global, local % MaxLocalReservation, global % MaxGlobalReservation, data);
    assert ReservationLow(MaxGlobalReservation) == ReservationLow(0);
    assert ReservationHigh(MaxLocalReservation, MaxGlobalReservation) == ReservationHigh(0, 0);
    SameReservationBytes(counter, hasReply, MaxLocalReservation, MaxGlobalReservation, 0, 0, data);
  }

  /** Commands whose reservations give the same two bytes are marshalled alike. */
  lemma SameReservationBytes(counter: int, hasReply: bool, local: int, global: int, local': int, global': int, data: seq<u8>)
    requires ReservationLow(global) == ReservationLow(global')
    requires ReservationHigh(local, global) == ReservationHigh(local', global')
    ensures Marshalled(counter, hasReply, local, global, data) == Marshalled(counter, hasReply, local', global', data)
  {
  }

  /** The reservation bytes of the residues are those of the reservations. */
  lemma ReservationResidues(local: int, global: int)
    ensures ReservationLow(global) == ReservationLow(global % MaxGlobalReservation)
    ensures ReservationHigh(local, global) == ReservationHigh(local % MaxLocalReservation, global % MaxGlobalReservation)
  {
    GlobalResidue(global);
    assert local % MaxLocalReservation % 0x40 == local % 0x40;
  }

  /** The two reservation bytes see only the residue of the global reservation modulo 1024. */
  lemma GlobalResidue(global: int)
    ensures ReservationLow(global) == ReservationLow(global % MaxGlobalReservation)
    ensures (global / 0x100) % 4 == (global % MaxGlobalReservation) / 0x100
  {
    var q, r := global / MaxGlobalReservation, global % MaxGlobalReservation;
    assert global == 0x100 * (4 * q) + r;
    assert global / 0x100 == 4 * q + r / 0x100;
    assert global % 0x100 == r % 0x100;
  }

  /** Mission-wide: the companion object's sequenceCounter, shared by every command. */
  class SequenceCounter {
    var value: i32

    constructor ()
      ensures value == 0
    {
      value := 0;
    }
  }

  class Command {
    const hasReply: bool
    const counter: i32
    const data: seq<u8>
    /** Only the low bytes of the reservation fields reach the wire; those are kept. */
    var reservationH: u8
    var reservationL: u8

    constructor Init(hasReply: bool, counter: i32, localReservation: i32, globalReservation: i32, bytecode: seq<u8>)
      ensures this.hasReply == hasReply && this.counter == counter && data == bytecode
      ensures reservationL == ReservationLow(globalReservation)
      ensures reservationH == ReservationHigh(localReservation, globalReservation)
    {
      this.hasReply, this.counter, data := hasReply, counter, bytecode;
      reservationH := ReservationHigh(localReservation, globalReservation);
      reservationL := ReservationLow(globalReservation);
    }

    /**
     * The Command constructor. `sequenceCounter++` is evaluated for the superclass before the
     * init block's checks, so a rejected command (null here, an exception in the source) still
     * uses up a counter value; the counter is a 32-bit Int and wraps.
     */
    static method Create(sequence: SequenceCounter, hasReply: bool, localReservation: i32, globalReservation: i32, bytecode: seq<u8>)
      returns (c: Command?)
      modifies sequence
      ensures sequence.value == Wrap32(old(sequence.value) + 1)
      ensures c == null <==> globalReservation > MaxGlobalReservation || localReservation > MaxLocalReservation
      ensures c != null ==> fresh(c) && c.counter == old(sequence.value) && c.hasReply == hasReply && c.data == bytecode
      ensures c != null ==> c.reservationL == ReservationLow(globalReservation)
      ensures c != null ==> c.reservationH == ReservationHigh(localReservation, globalReservation)
    {
      var counter := sequence.value;
      sequence.value := Wrap32(counter as int + 1);
      if globalReservation > MaxGlobalReservation || localReservation > MaxLocalReservation {
        return null;
      }
      c := new Command.Init(hasReply, counter, localReservation, globalReservation, bytecode);
    }

    /** marshal: a fresh array of 5 + |data| bytes, the header slot by slot, then the byte code copied in. */
    method Marshal() returns (a: array<u8>)
      ensures fresh(a)
      ensures a[..] == Header(counter, hasReply, reservationL, reservationH) + data
    {
      a := new u8[5 + |data|](_ => 0);
      var header := Le16(counter);
      a[0] := header[0];
      a[1] := header[1];
      a[2] := TypeByte(hasReply);
      a[3] := reservationL;
      a[4] := reservationH;
      var i := 0;
      while i < |data|
        invariant 0 <= i <= |data|
        invariant a[..5] == Header(counter, hasReply, reservationL, reservationH)
        invariant forall k :: 0 <= k < i ==> a[5 + k] == data[k]
      {
        a[5 + i] := data[i];
        i := i + 1;
      }
      assert a[5..] == data;
      assert a[..] == a[..5] + a[5..];
    }
  }
}

=== FILE: decimal.dfy ===
/** Decimal text of integers, as Kotlin's string templates print an `Int`, with its parser. */
module Decimal {

  import opened Wrappers

  predicate IsDigit(c: char) { '0' <= c <= '9' }

  predicate AllDigits(s: string) { forall i :: 0 <= i < |s| ==> IsDigit(s[i]) }

  function DigitChar(d: nat): (c: char)
    requires d < 10
    ensures IsDigit(c)
  {
    "0123456789"[d]
  }

  function DigitValue(c: char): (d: nat)
    requires IsDigit(c)
    ensures d < 10 && DigitChar(d) == c
  {
    c as int - '0' as int
  }

  /** The shortest decimal text of `n`: at least one digit, no leading zero. */
  function NatText(n: nat): (s: string)
    ensures |s| >= 1 && AllDigits(s)
    ensures |s| > 1 ==> s[0] != '0'
    decreases n
  {
    if n < 10 then [DigitChar(n)] else NatText(n / 10) + [DigitChar(n % 10)]
  }

  /** The value of a string of decimal digits. */
  function ParseNat(s: string): nat
    requires AllDigits(s)
    decreases |s|
  {
    if |s| == 0 then 0 else 10 * ParseNat(s[..|s| - 1]) + DigitValue(s[|s| - 1])
  }

  /** Kotlin's `Int.toString()`: a minus sign in front of negative values. */
  function IntText(v: int): (s: string)
    ensures |s| >= 1
    ensures v < 0 <==> s[0] == '-'
    ensures forall i :: 0 <= i < |s| ==> IsDigit(s[i]) || (i == 0 && s[i] == '-')
  {
    if v < 0 then "-" + NatText(-v) else NatText(v)
  }

  /** Reads back the text of an integer; None for anything that is not one. */
  function ParseInt(s: string): Option<int>
  {
    if |s| >= 2 && s[0] == '-' && AllDigits(s[1..]) then Some(-(ParseNat(s[1..]) as int))
    else if |s| >= 1 && AllDigits(s) then Some(ParseNat(s))
    else None
  }

  /** Reading the digits of `n` back gives `n`. */
  lemma {:induction false} ParseNatText(n: nat)
    ensures ParseNat(NatText(n)) == n
    decreases n
  {
    if n >= 10 {
      var s := NatText(n);
      assert s[..|s| - 1] == NatText(n / 10);
      ParseNatText(n / 10);
    }
  }

  /** Every integer's text parses back to the integer, so distinct integers print differently. */
  lemma IntTextRoundTrip(v: int)
    ensures ParseInt(IntText(v)) == Some(v)
  {
    if v < 0 {
      ParseNatText(-v);
      assert IntText(v)[1..] == NatText(-v);
    } else {
      ParseNatText(v);
    }
  }
}

=== FILE: ev3.dfy ===
/**
 * EV3: the brick's command front end. It builds the byte code of an input-device read and of a
 * sound tone, and turns the payload of a percent-value reply into 16-bit values.
 */
module Brick {
  import opened Wrappers
  import opened Bytes
  import opened Bytecodes
  import opened Commands
  import opened Replies
  import opened Channels

  /** The op-codes and sub-codes the front end writes, as the signed Bytes the source declares. */
  const SoundControlOp: i8 := ToI8(0x94)
  const SoundToneOp: i8 := ToI8(0x01)
  const InputDeviceOp: i8 := ToI8(0x99)
  const ReadyPct: i8 := 0x1B
  const ReadySi: i8 := 0x1D
  const LayerMaster: i8 := 0x00

  /** The byte code soundTone sends: the op-code, its sub-code, then volume, frequency and duration. */
  function ToneCode(volume: int, freq: int, duration: int): seq<u8>
  {
    [LowByte(SoundControlOp), LowByte(SoundToneOp)]
      + ByteParam(ToI8(volume)) + ShortParam(ToI16(freq)) + ShortParam(ToI16(duration))
  }

  /** The byte code prefaceGetValue builds: the read op-code and sub-code, five byte parameters, global variable 0. */
  function PrefaceCode(ready: i8, port: i8, deviceType: i8, mode: i8, nvalue: i8): seq<u8>
  {
    [LowByte(InputDeviceOp), LowByte(ready)]
      + ByteParam(LayerMaster) + ByteParam(port) + ByteParam(deviceType) + ByteParam(mode) + ByteParam(nvalue)
      + [GlobalIndexByte(0)]
  }

  /** The signed little-endian shorts at the front of `data`: the loop body of getPercentValue, n times. */
  function Shorts(data: seq<u8>, n: nat): (vs: seq<i16>)
    requires 2 * n <= |data|
    ensures |vs| == n
    ensures forall i :: 0 <= i < n ==> vs[i] == SignedLe16(data[2 * i], data[2 * i + 1])
  {
    if n == 0 then [] else Shorts(data, n - 1) + [SignedLe16(data[2 * n - 2], data[2 * n - 1])]
  }

  /**
   * What getPercentValue returns for a reply. A missing reply, a negative count (the result array
   * cannot be allocated) and a payload shorter than two bytes per value (the copy throws) give none.
   */
  function PercentValues(reply: Option<Reply>, nvalue: int): (r: Option<seq<i16>>)
    ensures r.Some? <==> reply.Some? && 0 <= nvalue && 2 * nvalue <= |reply.value.data|
    ensures r.Some? ==> |r.value| == nvalue
  {
    if reply.None? || nvalue < 0 || |reply.value.data| < 2 * nvalue then None
    else Some(Shorts(reply.value.data, nvalue))
  }

  /** The bytes a brick sends for a run of shorts: each one's two bytes, lowest first. */
  function Le16s(vs: seq<i16>): (bs: seq<u8>)
    ensures |bs| == 2 * |vs|
  {
    if vs == [] then [] else Le16s(vs[..|vs| - 1]) + Le16(vs[|vs| - 1])
  }

  /** Reading shorts back from their bytes gives the shorts, whatever follows them. */
  lemma {:induction false} ShortsOfLe16s(vs: seq<i16>, rest: seq<u8>)
    ensures Shorts(Le16s(vs) + rest, |vs|) == vs
    decreases |vs|
  {
    if vs != [] {
      var n := |vs|;
      var init := vs[..n - 1];
      var bs := Le16s(vs) + rest;
      assert Le16s(vs) + rest == Le16s(init) + (Le16(vs[n - 1]) + rest);
      ShortsOfLe16s(init, Le16(vs[n - 1]) + rest);
      assert bs[2 * n - 2] == Le16(vs[n - 1])[0] && bs[2 * n - 1] == Le16(vs[n - 1])[1];
      Le16RoundTrip(vs[n - 1]);
      assert vs == init + [vs[n - 1]];
    }
  }

  /** A reply carrying `vs` after its status byte is read as exactly `vs`. */
  lemma PercentValuesOfReply(counter: int, status: u8, vs: seq<i16>, rest: seq<u8>)
    requires 0 <= counter < 0x1_0000 && |vs| < 0x80
    ensures PercentValues(Parse(ReplyBytes(counter, status, Le16s(vs) + rest)), |vs|) == Some(vs)
  {
    ParseReplyBytes(counter, status, Le16s(vs) + rest);
    ShortsOfLe16s(vs, rest);
  }

  /** Truncating to a Short before writing two bytes changes none of them. */
  lemma Le16OfToI16(v: int)
    ensures Le16(ToI16(v)) == Le16(v)
  {
    var r := ToI16(v);
    var k := (v - r) / 0x1_0000;
    assert v == r + 0x1_0000 * k;
    assert v / 0x100 == r / 0x100 + 0x100 * k;
  }

  /** Truncating to a Byte keeps the low byte. */
  lemma LowByteOfToI8(v: int)
    ensures LowByte(ToI8(v)) == LowByte(v)
  {
    var r := ToI8(v);
    var k := (v - r) / 0x100;
    assert v == r + 0x100 * k;
  }

  /**
   * soundTone's byte code is 0x94 0x01, then 0x81 and the volume's low byte, then 0x82 and the
   * two low bytes of frequency and of duration.
   */
  lemma ToneLayout(volume: int, freq: int, duration: int)
    ensures ToneCode(volume, freq, duration) == [0x94, 0x01, 0x81, LowByte(volume),
      0x82, LowByte(freq), LowByte(freq / 0x100), 0x82, LowByte(duration), LowByte(duration / 0x100)]
  {
    LowByteOfToI8(volume);
    Le16OfToI16(freq);
    Le16OfToI16(duration);
    assert ByteParam(ToI8(volume)) == [0x81, LowByte(volume)];
    assert ShortParam(ToI16(freq)) == [0x82, LowByte(freq), LowByte(freq / 0x100)];
    assert ShortParam(ToI16(duration)) == [0x82, LowByte(duration), LowByte(duration / 0x100)];
  }

  /** soundTone's parameters read back as the truncated volume, frequency and duration. */
  lemma ToneDecodes(volume: int, freq: int, duration: int)
    ensures DecodeAll(ToneCode(volume, freq, duration)[2..]) == Some([ToI8(volume), ToI16(freq), ToI16(duration)])
  {
    var args := [ByteArg(ToI8(volume)), ShortArg(ToI16(freq)), ShortArg(ToI16(duration))];
    assert args[2..][1..] == [] && args[1..][1..] == args[2..];
    assert EncodeAll(args[2..]) == Encode(args[2]) + EncodeAll(args[2..][1..]) == Encode(args[2]);
    assert Values(args[2..]) == [Value(args[2])] + Values(args[2..][1..]) == [Value(args[2])];
    assert EncodeAll(args[1..]) == Encode(args[1]) + EncodeAll(args[2..]);
    assert Values(args[1..]) == [Value(args[1])] + Values(args[2..]);
    assert EncodeAll(args) == ToneCode(volume, freq, duration)[2..];
    assert Values(args) == [ToI8(volume), ToI16(freq), ToI16(duration)];
    DecodeEncodeAll(args);
  }

  /**
   * prefaceGetValue's byte code is 0x99, the sub-code, five byte parameters (layer 0, port, type,
   * mode, count) and the global index byte 0x60.
   */
  lemma PrefaceLayout(ready: i8, port: i8, deviceType: i8, mode: i8, nvalue: i8)
    ensures PrefaceCode(ready, port, deviceType, mode, nvalue)
      == [0x99, LowByte(ready), 0x81, 0x00, 0x81, LowByte(port), 0x81, LowByte(deviceType),
        0x81, LowByte(mode), 0x81, LowByte(nvalue), 0x60]
  {
    assert LowByte(InputDeviceOp) == 0x99 && ByteParam(LayerMaster) == [0x81, 0x00];
    assert GlobalIndexByte(0) == 0x60;
  }

  /** The read request's five parameters read back as given: layer 0, port, type, mode, count. */
  lemma PrefaceDecodes(ready: i8, port: i8, deviceType: i8, mode: i8, nvalue: i8)
    ensures DecodeAll(PrefaceCode(ready, port, deviceType, mode, nvalue)[2..12]) == Some([0, port, deviceType, mode, nvalue])
  {
    var args := [ByteArg(LayerMaster), ByteArg(port), ByteArg(deviceType), ByteArg(mode), ByteArg(nvalue)];
    assert args[4..][1..] == [] && args[3..][1..] == args[4..] && args[2..][1..] == args[3..] && args[1..][1..] == args[2..];
    assert EncodeAll(args[4..]) == Encode(args[4]) + EncodeAll(args[4..][1..]) == Encode(args[4]);
    assert Values(args[4..]) == [Value(args[4])] + Values(args[4..][1..]) == [Value(args[4])];
    assert EncodeAll(args[3..]) == Encode(args[3]) + EncodeAll(args[4..]);
    assert Values(args[3..]) == [Value(args[3])] + Values(args[4..]);
    assert EncodeAll(args[2..]) == Encode(args[2]) + EncodeAll(args[3..]);
    assert Values(args[2..]) == [Value(args[2])] + Values(args[3..]);
    assert EncodeAll(args[1..]) == Encode(args[1]) + EncodeAll(args[2..]);
    assert Values(args[1..]) == [Value(args[1])] + Values(args[2..]);
    assert EncodeAll(args) == PrefaceCode(ready, port, deviceType, mode, nvalue)[2..12];
    assert Values(args) == [0, port, deviceType, mode, nvalue];
    DecodeEncodeAll(args);
  }

  class Ev3 {
    const service: LegoChannelService

    constructor (service: LegoChannelService)
      ensures this.service == service
    {
      this.service := service;
    }

    /** soundTone: the tone's byte code, sent without a reply. */
    method SoundTone(volume: i32, freq: i32, duration: i32)
      modifies service.channel, service.sequence
      ensures service.sequence.value == Wrap32(old(service.sequence.value) + 1)
      ensures service.channel.sent == old(service.channel.sent)
        + [Framed(Marshalled(old(service.sequence.value), false, 0, 0, ToneCode(volume, freq, duration)))]
      ensures service.channel.incoming == old(service.channel.incoming)
    {
      var bc := new Bytecode();
      bc.AddOpCode(SoundControlOp);
      bc.AddOpCode(SoundToneOp);
      bc.AddByteParameter(ToI8(volume));
      bc.AddShortParameter(ToI16(freq));
      bc.AddShortParameter(ToI16(duration));
      assert bc.bytes == ToneCode(volume, freq, duration);
      service.SendNoReply(bc);
    }

    /** prefaceGetValue: a fresh buffer holding the read request. */
    static method PrefaceGetValue(ready: i8, port: i8, deviceType: i8, mode: i8, nvalue: i8) returns (bc: Bytecode)
      ensures fresh(bc) && bc.bytes == PrefaceCode(ready, port, deviceType, mode, nvalue)
    {
      bc := new Bytecode();
      bc.AddOpCode(InputDeviceOp);
      bc.AddOpCode(ready);
      bc.AddByteParameter(LayerMaster);
      bc.AddByteParameter(port);
      bc.AddByteParameter(deviceType);
      bc.AddByteParameter(mode);
      bc.AddByteParameter(nvalue);
      bc.AddGlobalIndex(0);
    }

    /**
     * getPercentValue: a READY_PCT read reserving two bytes per value, whose reply payload is
     * decoded short by short into a fresh array.
     */
    method GetPercentValue(port: i8, deviceType: i8, mode: i8, nvalue: i8) returns (r: Option<seq<i16>>)
      requires FrameReady(service.channel.incoming)
      modifies service.channel, service.sequence
      ensures service.sequence.value == Wrap32(old(service.sequence.value) + 1)
      ensures service.channel.sent == old(service.channel.sent)
        + [Framed(Marshalled(old(service.sequence.value), true, 0, 2 * nvalue, PrefaceCode(ReadyPct, port, deviceType, mode, nvalue)))]
      ensures var n := PayloadSize(old(service.channel.incoming));
        service.channel.incoming == old(service.channel.incoming)[2 + n..]
        && r == PercentValues(Parse(old(service.channel.incoming)[2..2 + n]), nvalue)
    {
      var bc := PrefaceGetValue(ReadyPct, port, deviceType, mode, nvalue);
      var reply := service.Send(2 * nvalue, bc);
      if reply.None? || nvalue < 0 {
        return None;
      }
      r := ReadShorts(reply.value.data, nvalue as int);
    }

    /**
     * The loop of getPercentValue: each value's two bytes, lowest first, copied into a fresh array;
     * none when the payload runs out before the n-th value.
     */
    static method ReadShorts(data: seq<u8>, n: nat) returns (r: Option<seq<i16>>)
      ensures r.Some? <==> 2 * n <= |data|
      ensures r.Some? ==> r.value == Shorts(data, n)
    {
      var result := new i16[n](_ => 0);
      var i := 0;
      while i < n
        invariant 0 <= i <= n && 2 * i <= |data|
        invariant forall k :: 0 <= k < i ==> result[k] == SignedLe16(data[2 * k], data[2 * k + 1])
      {
        if 2 * i + 2 > |data| {
          return None;
        }
        result[i] := SignedLe16(data[2 * i], data[2 * i + 1]);
        i := i + 1;
      }
      assert result[..] == Shorts(data, n);
      r := Some(result[..]);
    }

    /** send: forwarded to the channel service unchanged. */
    method Send(reservation: i32, bc: Bytecode) returns (r: Option<Reply>)
      requires reservation <= MaxGlobalReservation ==> FrameReady(service.channel.incoming)
      modifies service.channel, service.sequence
      ensures service.sequence.value == Wrap32(old(service.sequence.value) + 1)
      ensures reservation > MaxGlobalReservation ==>
        r.None? && service.channel.sent == old(service.channel.sent) && service.channel.incoming == old(service.channel.incoming)
      ensures reservation <= MaxGlobalReservation ==>
        service.channel.sent == old(service.channel.sent) + [Framed(Marshalled(old(service.sequence.value), true, 0, reservation, old(bc.bytes)))]
      ensures reservation <= MaxGlobalReservation ==> var n := PayloadSize(old(service.channel.incoming));
        service.channel.incoming == old(service.channel.incoming)[2 + n..]
        && r == Parse(old(service.channel.incoming)[2..2 + n])
    {
      r := service.Send(reservation, bc);
    }

    /** sendNoReply: forwarded to the channel service unchanged. */
    method SendNoReply(bc: Bytecode)
      modifies service.channel, service.sequence
      ensures service.sequence.value == Wrap32(old(service.sequence.value) + 1)
      ensures service.channel.sent == old(service.channel.sent)
        + [Framed(Marshalled(old(service.sequence.value), false, 0, 0, old(bc.bytes)))]
      ensures service.channel.incoming == old(service.channel.incoming)
    {
      service.SendNoReply(bc);
    }
  }
}

=== FILE: field.dfy ===
/**
 * The arena of the robot: an (n+2) x (m+2) grid of cell states stored row-major as `grid[y, x]`,
 * whose outer ring is out of bounds, together with the robot's position, heading,
 * the pose at which it last grabbed a ball and the colours of the grabbed balls.
 */
module Arena {

  import opened Wrappers
  import opened Points
  import opened Headings
  import Decimal

  /** Field.CellType, in declaration order (the order gives the ordinal printed by getFinalMatrix). */
  datatype CellType = OutOfBounds | Ball | Hidden | Empty | CurrentPosition | SafeAvailable | SafeUnavailable
  {
    function Ordinal(): (k: nat)
      ensures k < 7
    {
      match this
      case OutOfBounds => 0
      case Ball => 1
      case Hidden => 2
      case Empty => 3
      case CurrentPosition => 4
      case SafeAvailable => 5
      case SafeUnavailable => 6
    }
  }

  /** The ball colours the robot tells apart (the app's Color enum). */
  datatype BallColor = Red | Yellow | Blue

  /** The rotations the arena can decide; each one names the method of Field that performs it. */
  datatype Rotation = Sweep | TowardSafe | TowardOrigin | TowardLastDirection | TowardBall

  /** Everything a Field holds besides its grid. */
  datatype Pose = Pose(
    started: bool,
    originPosition: Point,
    currentPosition: Point,
    lastPoint: Option<Point>,
    direction: Option<Direction>,
    lastDirection: Option<Direction>,
    ballMap: map<Point, BallColor>)

  /** The cells a robot can neither enter nor cross: the ring and the safe cells. */
  predicate IsBarrier(c: CellType)
  {
    c == OutOfBounds || c == SafeAvailable || c == SafeUnavailable
  }

  predicate InBounds(g: array2<CellType>, x: int, y: int)
  {
    0 <= y < g.Length0 && 0 <= x < g.Length1
  }

  /** getVal: the cell at column x and row y, OUT_OF_BOUNDS outside the grid. */
  function CellAt(g: array2<CellType>, x: int, y: int): (c: CellType)
    reads g
    ensures InBounds(g, x, y) ==> c == g[y, x]
    ensures x < 0 || y < 0 || x >= g.Length1 || y >= g.Length0 ==> c == OutOfBounds
  {
    if InBounds(g, x, y) then g[y, x] else OutOfBounds
  }

  /** setVal: writes the cell, or reports the IndexOutOfBoundsException by `ok == false`. */
  method SetVal(g: array2<CellType>, x: int, y: int, value: CellType) returns (ok: bool)
    modifies g
    ensures ok <==> InBounds(g, x, y)
    ensures forall j, i :: 0 <= j < g.Length0 && 0 <= i < g.Length1 ==>
      g[j, i] == if ok && j == y && i == x then value else old(g[j, i])
  {
    ok := InBounds(g, x, y);
    if ok {
      g[y, x] := value;
    }
  }

  predicate OnRing(rows: int, columns: int, x: int, y: int)
  {
    x == 0 || y == 0 || x == columns - 1 || y == rows - 1
  }

  /** The cell state after updateCurrentPosition: markers are cleared, then the new position is marked if it is HIDDEN or EMPTY. */
  function Remarked(c: CellType, here: bool): CellType
  {
    var cleared := if c == CurrentPosition then Empty else c;
    if here && (cleared == Hidden || cleared == Empty) then CurrentPosition else cleared
  }

  /** The three ring cells startingPoint marks SAFE_AVAILABLE, in the order it writes them. */
  function StartSafeCells(m: int, rows: int, columns: int, o: Point): (cells: seq<Point>)
    ensures |cells| == 3
  {
    if o == Point(1, 1) then [Point(1, 0), Point(0, 0), Point(0, 1)]
    else if o == Point(1, rows - 2) then [Point(1, rows - 1), Point(0, rows - 1), Point(0, rows - 2)]
    else if o == Point(columns - 2, 1) then [Point(columns - 2, 0), Point(columns - 1, 0), Point(columns - 1, 1)]
    else if o == Point(columns - 2, rows - 2) then
      [Point(columns - 2, rows - 1), Point(columns - 1, rows - 1), Point(columns - 1, rows - 2)]
    else if o.x == 1 then [Point(0, o.y - 1), Point(0, o.y), Point(0, o.y + 1)]
    else if o.y == 1 then [Point(o.x - 1, 0), Point(o.x, 0), Point(o.x + 1, 0)]
    else if o.x == m then [Point(columns - 1, o.y - 1), Point(columns - 1, o.y), Point(columns - 1, o.y + 1)]
    else [Point(o.x - 1, rows - 1), Point(o.x, rows - 1), Point(o.x + 1, rows - 1)]
  }

  /** The heading startingPoint chooses; None when no branch applies and the heading stays unset. */
  function StartHeading(rows: int, columns: int, o: Point): Option<Direction>
  {
    if o.y == 1 then Some(Bottom)
    else if o.y == rows - 1 then Some(Up)
    else if o.x == 1 then Some(Right)
    else if o.x == columns - 1 then Some(Left)
    else None
  }

  /** The first of two candidates that is SAFE_AVAILABLE, else the third whatever it holds. */
  function PickSafe(g: array2<CellType>, a: Point, b: Point, c: Point): (r: Point)
    reads g
    ensures r == a || r == b || r == c
    ensures r == a <== CellAt(g, a.x, a.y) == SafeAvailable
    ensures r != c ==> CellAt(g, r.x, r.y) == SafeAvailable
    ensures CellAt(g, a.x, a.y) != SafeAvailable && CellAt(g, b.x, b.y) != SafeAvailable ==> r == c
  {
    if CellAt(g, a.x, a.y) == SafeAvailable then a
    else if CellAt(g, b.x, b.y) == SafeAvailable then b
    else c
  }

  /** getAngle: the sweep rotation from the cells on the left, on the right and behind. */
  function SweepChoice(left: CellType, right: CellType, behind: CellType): Turn
  {
    if left == OutOfBounds then
      (if right == Hidden || behind == Empty then TurnRight else TurnAround)
    else if right == Hidden then TurnRight
    else TurnLeft
  }

  /** getAngleOrigin: turn toward an EMPTY side, left first, else turn around. */
  function OriginChoice(left: CellType, right: CellType): Turn
  {
    if left == Empty then TurnLeft
    else if right == Empty then TurnRight
    else TurnAround
  }

  /** getAngleBall: turn toward a side that is neither BALL nor OUT_OF_BOUNDS, left first, else turn around. */
  function BallChoice(left: CellType, right: CellType): Turn
  {
    if left != Ball && left != OutOfBounds then TurnLeft
    else if right != Ball && right != OutOfBounds then TurnRight
    else TurnAround
  }

  /** The ball map after setColorOfHoldingBall: the colour keyed by the grab cell, if there is one. */
  function Recolored(ballMap: map<Point, BallColor>, lastPoint: Option<Point>, color: BallColor): map<Point, BallColor>
  {
    if lastPoint.Some? then ballMap[lastPoint.value := color] else ballMap
  }

  /** The letter getFinalMatrix prints for a grabbed ball. */
  function ColorLetter(c: BallColor): char
  {
    match c
    case Blue => 'B'
    case Yellow => 'Y'
    case _ => 'R'
  }

  /** For a square arena and an interior origin, the three safe cells are distinct cells of the ring. */
  lemma StartSafeCellsOnRing(m: int, o: Point)
    requires 1 <= o.x <= m && 1 <= o.y <= m
    ensures var cells := StartSafeCells(m, m + 2, m + 2, o);
      && cells[0] != cells[1] && cells[1] != cells[2] && cells[0] != cells[2]
      && o !in cells
      && forall i :: 0 <= i < 3 ==>
        0 <= cells[i].x < m + 2 && 0 <= cells[i].y < m + 2 && OnRing(m + 2, m + 2, cells[i].x, cells[i].y)
  {
  }

  /** Field(4, 4, ...) started at (4, 1): the top-right corner, so the safe cells are (4, 0), (5, 0), (5, 1) and the heading is down. */
  lemma TopRightCornerStart()
    ensures StartSafeCells(4, 6, 6, Point(4, 1)) == [Point(4, 0), Point(5, 0), Point(5, 1)]
    ensures StartHeading(6, 6, Point(4, 1)) == Some(Bottom)
  {
  }

  /**
   * For an interior origin only the top and left edges set a heading: the other two tests
   * compare with ring coordinates an interior origin never has.
   */
  lemma StartHeadingOnlyTopOrLeft(m: int, o: Point)
    requires 1 <= o.x <= m && 1 <= o.y <= m
    ensures StartHeading(m + 2, m + 2, o) == if o.y == 1 then Some(Bottom) else if o.x == 1 then Some(Right) else None
  {
  }

  /** An origin on an edge of the arena gets three safe cells that touch it. */
  lemma StartSafeCellsTouchEdgeOrigin(m: int, o: Point)
    requires 1 <= o.x <= m && 1 <= o.y <= m
    requires o.x == 1 || o.y == 1 || o.x == m || o.y == m
    ensures forall c <- StartSafeCells(m, m + 2, m + 2, o) :: -1 <= c.x - o.x <= 1 && -1 <= c.y - o.y <= 1
  {
  }

  /** An origin away from every edge gets its safe cells on the bottom ring row, out of its reach. */
  lemma StartSafeCellsOfInnerOrigin(m: int, o: Point)
    requires 2 <= o.x <= m - 1 && 2 <= o.y <= m - 1
    ensures StartSafeCells(m, m + 2, m + 2, o) == [Point(o.x - 1, m + 1), Point(o.x, m + 1), Point(o.x + 1, m + 1)]
  {
  }

  /** updateCurrentPosition never writes HIDDEN. */
  lemma RemarkedKeepsRevealed(c: CellType, here: bool)
    ensures Remarked(c, here) == Hidden <==> c == Hidden && !here
  {
  }

  /** A row of the final matrix: each character preceded by a space. */
  function RowText(cs: seq<char>): string
    decreases |cs|
  {
    if |cs| == 0 then "" else RowText(cs[..|cs| - 1]) + [' ', cs[|cs| - 1]]
  }

  /** The final matrix: each row preceded by a line break. */
  function MatrixText(rs: seq<seq<char>>): string
    decreases |rs|
  {
    if |rs| == 0 then "" else MatrixText(rs[..|rs| - 1]) + "\n" + RowText(rs[|rs| - 1])
  }

  /** Where line y starts in the final matrix when each row has `width` cells. */
  function LineStart(y: nat, width: nat): nat
    decreases y
  {
    if y == 0 then 0 else LineStart(y - 1, width) + 1 + 2 * width
  }

  /** Each line of the final matrix is 1 + 2 * width characters long. */
  lemma {:induction false} LineStartIsProduct(y: nat, width: nat)
    ensures LineStart(y, width) == y * (1 + 2 * width)
    decreases y
  {
    if y > 0 {
      LineStartIsProduct(y - 1, width);
    }
  }

  lemma {:induction false} LineStartMonotone(a: nat, b: nat, width: nat)
    requires a <= b
    ensures LineStart(a, width) <= LineStart(b, width)
    decreases b
  {
    if a < b {
      LineStartMonotone(a, b - 1, width);
    }
  }

  /** A row prints as two characters per cell: a space, then the cell's character. */
  lemma {:induction false} RowLayout(cs: seq<char>)
    ensures |RowText(cs)| == 2 * |cs|
    ensures forall x :: 0 <= x < |cs| ==> RowText(cs)[2 * x] == ' ' && RowText(cs)[2 * x + 1] == cs[x]
    decreases |cs|
  {
    if |cs| > 0 {
      RowLayout(cs[..|cs| - 1]);
    }
  }

  /** The final matrix of rows of equal width is one line per row. */
  lemma {:induction false} MatrixLength(rs: seq<seq<char>>, width: nat)
    requires forall y :: 0 <= y < |rs| ==> |rs[y]| == width
    ensures |MatrixText(rs)| == LineStart(|rs|, width)
    decreases |rs|
  {
    if |rs| > 0 {
      MatrixLength(rs[..|rs| - 1], width);
      RowLayout(rs[|rs| - 1]);
    }
  }

  /** Line y of the final matrix is a line break, then a space and the character for each cell of row y. */
  lemma {:induction false} MatrixLayout(rs: seq<seq<char>>, width: nat, y: nat, x: nat)
    requires forall j :: 0 <= j < |rs| ==> |rs[j]| == width
    requires y < |rs| && x < width
    ensures |MatrixText(rs)| == LineStart(|rs|, width) && LineStart(y + 1, width) <= LineStart(|rs|, width)
    ensures MatrixText(rs)[LineStart(y, width)] == '\n'
    ensures MatrixText(rs)[LineStart(y, width) + 1 + 2 * x] == ' '
    ensures MatrixText(rs)[LineStart(y, width) + 2 + 2 * x] == rs[y][x]
    decreases |rs|
  {
    var k := |rs|;
    var prev := rs[..k - 1];
    MatrixLength(rs, width);
    MatrixLength(prev, width);
    LineStartMonotone(y + 1, k, width);
    assert MatrixText(rs) == MatrixText(prev) + "\n" + RowText(rs[k - 1]);
    var i := LineStart(y, width);
    if y < k - 1 {
      MatrixLayout(prev, width, y, x);
      LineStartMonotone(y + 1, k - 1, width);
      assert MatrixText(rs)[i] == MatrixText(prev)[i];
      assert MatrixText(rs)[i + 1 + 2 * x] == MatrixText(prev)[i + 1 + 2 * x];
      assert MatrixText(rs)[i + 2 + 2 * x] == MatrixText(prev)[i + 2 + 2 * x];
    } else {
      RowLayout(rs[k - 1]);
      assert MatrixText(rs)[i + 1 + 2 * x] == RowText(rs[k - 1])[2 * x];
      assert MatrixText(rs)[i + 2 + 2 * x] == RowText(rs[k - 1])[2 * x + 1];
    }
  }

  class Field {
    const m: int
    const rows: int
    const columns: int
    /** The side of a cell; only its integer part is ever used. */
    const cellLength: int
    const grid: array2<CellType>

    /** startingPoint has run: originPosition and currentPosition are initialised. */
    var started: bool
    var originPosition: Point
    var currentPosition: Point
    var lastPoint: Option<Point>
    var direction: Option<Direction>
    var lastDirection: Option<Direction>
    var ballMap: map<Point, BallColor>

    function Snapshot(): Pose
      reads this
    {
      Pose(started, originPosition, currentPosition, lastPoint, direction, lastDirection, ballMap)
    }

    /** Dimensions, an intact ring, and the bookkeeping startingPoint and ballGrabbed set up together. */
    ghost predicate Shaped()
      reads this, grid
    {
      m >= 0 && rows == m + 2 && columns == m + 2 && grid.Length0 == rows && grid.Length1 == columns
      && (forall y, x :: 0 <= y < rows && 0 <= x < columns && OnRing(rows, columns, x, y) ==> IsBarrier(grid[y, x]))
      && (started ==> Interior(originPosition))
      && (!started ==> lastPoint == None && direction == None && ballMap == map[])
      && (lastPoint.Some? <==> lastDirection.Some?)
    }

    /** Shaped, and the CURRENT_POSITION marker appears nowhere but at the current position. */
    ghost predicate Valid()
      reads this, grid
    {
      Shaped()
      && forall y, x :: 0 <= y < rows && 0 <= x < columns && grid[y, x] == CurrentPosition ==>
        started && currentPosition == Point(x, y)
    }

    /** The grid as built: ring OUT_OF_BOUNDS, interior HIDDEN. */
    ghost predicate Pristine()
      reads this, grid
    {
      forall y, x :: 0 <= y < grid.Length0 && 0 <= x < grid.Length1 ==>
        grid[y, x] == if OnRing(rows, columns, x, y) then OutOfBounds else Hidden
    }

    /** The dimensions of a constructed field. */
    predicate Square()
      reads this
    {
      rows == m + 2 && columns == m + 2 && grid.Length0 == rows && grid.Length1 == columns
    }

    predicate Interior(p: Point)
      reads this
    {
      1 <= p.x <= m && 1 <= p.y <= rows - 2
    }

    function Look(p: Point): CellType
      reads this, grid
    {
      CellAt(grid, p.x, p.y)
    }

    constructor FromGrid(m: int, cellLength: int, grid: array2<CellType>)
      requires m >= 0 && grid.Length0 == m + 2 && grid.Length1 == m + 2
      ensures this.m == m && rows == m + 2 && columns == m + 2
      ensures this.cellLength == cellLength && this.grid == grid
      ensures !started && lastPoint == None && direction == None && lastDirection == None && ballMap == map[]
    {
      this.m := m;
      rows := m + 2;
      columns := m + 2;
      this.cellLength := cellLength;
      this.grid := grid;
      started := false;
      originPosition := Point(0, 0);
      currentPosition := Point(0, 0);
      lastPoint := None;
      direction := None;
      lastDirection := None;
      ballMap := map[];
    }

    /**
     * `Field(m, n, cellLength)`: an all-HIDDEN grid whose ring is then written OUT_OF_BOUNDS.
     * The first ring loop runs over the rows but writes them as x at y = 0 and y = COLUMNS - 1,
     * so it throws unless the arena is square; null stands for that exception.
     */
    static method Create(m: int, n: int, cellLength: int) returns (f: Field?)
      requires m >= 0 && n >= 0
      ensures f != null <==> m == n
      ensures f != null ==> fresh(f) && fresh(f.grid) && f.Valid() && f.Pristine() && !f.started
      ensures f != null ==> f.m == m && f.rows == n + 2 && f.columns == m + 2 && f.cellLength == cellLength
    {
      var rows, columns := n + 2, m + 2;
      var g := new CellType[rows, columns]((y, x) => Hidden);
      var i := 0;
      while i < rows
        invariant 0 <= i <= rows && i <= columns
        invariant i > 0 ==> columns - 1 < rows
        invariant forall y, x :: 0 <= y < rows && 0 <= x < columns ==>
          g[y, x] == if (y == 0 || y == columns - 1) && x < i then OutOfBounds else Hidden
      {
        var ok := SetVal(g, i, 0, OutOfBounds);
        if !ok {
          return null;
        }
        ok := SetVal(g, i, columns - 1, OutOfBounds);
        if !ok {
          return null;
        }
        i := i + 1;
      }
      assert rows == columns;
      var j := 1;
      while j < columns - 1
        invariant 1 <= j <= columns - 1
        invariant forall y, x :: 0 <= y < rows && 0 <= x < columns ==>
          g[y, x] == if y == 0 || y == rows - 1 || ((x == 0 || x == columns - 1) && y < j) then OutOfBounds else Hidden
      {
        var ok := SetVal(g, 0, j, OutOfBounds);
        ok := SetVal(g, rows - 1, j, OutOfBounds);
        j := j + 1;
      }
      f := new Field.FromGrid(m, cellLength, g);
    }

    /**
     * startingPoint: the origin becomes the current position (originPosition is a copy),
     * its cell is marked CURRENT_POSITION, three ring cells become SAFE_AVAILABLE,
     * and the heading is set when one of the four edge tests applies.
     */
    method StartingPoint(origin: Point)
      requires Valid() && !started && Interior(origin)
      modifies this, grid
      ensures Valid()
      ensures started && originPosition == origin && currentPosition == origin
      ensures direction == StartHeading(rows, columns, origin)
      ensures lastPoint == old(lastPoint) && lastDirection == old(lastDirection) && ballMap == old(ballMap)
      ensures forall y, x :: 0 <= y < rows && 0 <= x < columns ==>
        grid[y, x] == if Point(x, y) == origin then CurrentPosition
                      else if Point(x, y) in StartSafeCells(m, rows, columns, origin) then SafeAvailable
                      else old(grid[y, x])
    {
      assert forall y, x :: 0 <= y < rows && 0 <= x < columns ==> grid[y, x] != CurrentPosition;
      var cells := StartSafeCells(m, rows, columns, origin);
      StartCellsOnRing(origin);
      originPosition := Point(origin.x, origin.y);
      currentPosition := origin;
      started := true;
      var heading := StartHeading(rows, columns, origin);
      if heading.Some? {
        direction := heading;
      }
      MarkStart(origin, cells);
    }

    /** The safe cells of an interior origin are distinct ring cells of this grid. */
    lemma StartCellsOnRing(origin: Point)
      requires Square() && Interior(origin)
      ensures var cells := StartSafeCells(m, rows, columns, origin);
        && origin !in cells
        && forall i :: 0 <= i < 3 ==>
          InBounds(grid, cells[i].x, cells[i].y) && OnRing(rows, columns, cells[i].x, cells[i].y)
    {
      StartSafeCellsOnRing(m, origin);
    }

    /** The grid writes of startingPoint: the origin marker, then three SAFE_AVAILABLE ring cells. */
    method MarkStart(origin: Point, cells: seq<Point>)
      requires Shaped() && started && currentPosition == origin && Interior(origin)
      requires forall y, x :: 0 <= y < rows && 0 <= x < columns ==> grid[y, x] != CurrentPosition
      requires |cells| == 3 && origin !in cells
      requires forall i :: 0 <= i < 3 ==>
        InBounds(grid, cells[i].x, cells[i].y) && OnRing(rows, columns, cells[i].x, cells[i].y)
      modifies grid
      ensures Valid()
      ensures forall y, x :: 0 <= y < rows && 0 <= x < columns ==>
        grid[y, x] == if Point(x, y) == origin then CurrentPosition
                      else if Point(x, y) in cells then SafeAvailable
                      else old(grid[y, x])
    {
      var ok := SetVal(grid, origin.x, origin.y, CurrentPosition);
      MarkSafe(cells);
    }

    /** The three SAFE_AVAILABLE writes of startingPoint. */
    method MarkSafe(cells: seq<Point>)
      requires |cells| == 3
      requires forall i :: 0 <= i < 3 ==> InBounds(grid, cells[i].x, cells[i].y)
      modifies grid
      ensures forall y, x :: 0 <= y < grid.Length0 && 0 <= x < grid.Length1 ==>
        grid[y, x] == if Point(x, y) in cells then SafeAvailable else old(grid[y, x])
    {
      var ok := SetVal(grid, cells[0].x, cells[0].y, SafeAvailable);
      ok := SetVal(grid, cells[1].x, cells[1].y, SafeAvailable);
      ok := SetVal(grid, cells[2].x, cells[2].y, SafeAvailable);
    }

    /** isOriginInCorner */
    predicate OriginInCorner(): (b: bool)
      reads this
      ensures b <==>
        (originPosition.x == 1 || originPosition.x == columns - 2) && (originPosition.y == 1 || originPosition.y == rows - 2)
    {
      originPosition == Point(1, 1) || originPosition == Point(columns - 2, 1)
      || originPosition == Point(1, rows - 2) || originPosition == Point(columns - 2, rows - 2)
    }

    /**
     * getSafeToGo: one of the three cells startingPoint marked SAFE_AVAILABLE,
     * the first still available in a fixed order, else the last candidate.
     */
    function SafeToGo(): (r: Point)
      reads this, grid
      requires started && Square()
      ensures r in StartSafeCells(m, rows, columns, originPosition)
      ensures (exists i :: 0 <= i < 3 && Look(StartSafeCells(m, rows, columns, originPosition)[i]) == SafeAvailable)
        ==> Look(r) == SafeAvailable
    {
      var o := originPosition;
      if OriginInCorner() then
        if o == Point(1, 1) then PickSafe(grid, Point(0, 0), Point(1, 0), Point(0, 1))
        else if o == Point(columns - 2, 1) then PickSafe(grid, Point(columns - 1, 0), Point(columns - 2, 0), Point(columns - 1, 1))
        else if o == Point(1, rows - 2) then PickSafe(grid, Point(0, rows - 1), Point(1, rows - 1), Point(0, rows - 2))
        else PickSafe(grid, Point(columns - 1, rows - 1), Point(columns - 2, rows - 1), Point(columns - 1, rows - 2))
      else if o.x == 1 then PickSafe(grid, Point(0, o.y - 1), Point(0, o.y + 1), Point(0, o.y))
      else if o.y == 1 then PickSafe(grid, Point(o.x - 1, 0), Point(o.x + 1, 0), Point(o.x, 0))
      else if o.x == columns - 2 then PickSafe(grid, Point(columns - 1, o.y - 1), Point(columns - 1, o.y + 1), Point(columns - 1, o.y))
      else PickSafe(grid, Point(o.x - 1, rows - 1), Point(o.x + 1, rows - 1), Point(o.x, rows - 1))
    }

    /** canMove: the cell ahead is not the ring and not a safe cell. */
    function CanMove(): (r: bool)
      reads this, grid
      requires started && direction.Some?
      ensures r <==> !IsBarrier(Look(Ahead(currentPosition, direction.value)))
    {
      var p := currentPosition;
      match direction.value
      case Up => !IsBarrier(CellAt(grid, p.x, p.y - 1))
      case Left => !IsBarrier(CellAt(grid, p.x - 1, p.y))
      case Right => !IsBarrier(CellAt(grid, p.x + 1, p.y))
      case Bottom => !IsBarrier(CellAt(grid, p.x, p.y + 1))
    }

    /**
     * canMoveToSafe: the safe cell lies ahead on the heading's axis and the cell ahead is SAFE_AVAILABLE.
     * The explicit grid-edge guards of the source never change the answer.
     */
    function CanMoveToSafe(): (r: bool)
      reads this, grid
      requires started && direction.Some? && Square()
      ensures r <==> Toward(currentPosition, SafeToGo(), direction.value)
                     && Look(Ahead(currentPosition, direction.value)) == SafeAvailable
    {
      var safe := SafeToGo();
      var p := currentPosition;
      var diffX := p.x - safe.x;
      var diffY := p.y - safe.y;
      match direction.value
      case Up => if p.y - 1 < 0 then false else diffY > 0 && CellAt(grid, p.x, p.y - 1) == SafeAvailable
      case Left => if p.x - 1 < 0 then false else diffX > 0 && CellAt(grid, p.x - 1, p.y) == SafeAvailable
      case Right => if p.x + 1 == columns then false else diffX < 0 && CellAt(grid, p.x + 1, p.y) == SafeAvailable
      case Bottom => if p.y + 1 == rows then false else diffY < 0 && CellAt(grid, p.x, p.y + 1) == SafeAvailable
    }

    /** The shared shape of canMoveToOrigin and canMoveToLastPoint: target ahead on the axis, next cell EMPTY. */
    function CanMoveToward(target: Point): (r: bool)
      reads this, grid
      requires started && direction.Some?
      ensures r <==> Toward(currentPosition, target, direction.value)
                     && Look(Ahead(currentPosition, direction.value)) == Empty
    {
      var p := currentPosition;
      var diffX := p.x - target.x;
      var diffY := p.y - target.y;
      match direction.value
      case Up => diffY > 0 && CellAt(grid, p.x, p.y - 1) == Empty
      case Left => diffX > 0 && CellAt(grid, p.x - 1, p.y) == Empty
      case Right => diffX < 0 && CellAt(grid, p.x + 1, p.y) == Empty
      case Bottom => diffY < 0 && CellAt(grid, p.x, p.y + 1) == Empty
    }

    /** canMoveToOrigin */
    function CanMoveToOrigin(): (r: bool)
      reads this, grid
      requires started && direction.Some?
      ensures r <==> Toward(currentPosition, originPosition, direction.value)
                     && Look(Ahead(currentPosition, direction.value)) == Empty
    {
      CanMoveToward(originPosition)
    }

    /** canMoveToLastPoint: `lastPoint!!` throws when no ball was grabbed yet. */
    function CanMoveToLastPoint(): (r: bool)
      reads this, grid
      requires started && direction.Some? && lastPoint.Some?
      ensures r <==> Toward(currentPosition, lastPoint.value, direction.value)
                     && Look(Ahead(currentPosition, direction.value)) == Empty
    {
      CanMoveToward(lastPoint.value)
    }

    /** canMoveToBall: the ball lies ahead on the axis and the next cell is neither BALL nor OUT_OF_BOUNDS. */
    function CanMoveToBall(ball: Point): (r: bool)
      reads this, grid
      requires started && direction.Some?
      ensures r <==> Toward(currentPosition, ball, direction.value)
                     && Look(Ahead(currentPosition, direction.value)) !in {Ball, OutOfBounds}
    {
      var p := currentPosition;
      var diffX := p.x - ball.x;
      var diffY := p.y - ball.y;
      match direction.value
      case Up => diffY > 0 && CellAt(grid, p.x, p.y - 1) != Ball && CellAt(grid, p.x, p.y - 1) != OutOfBounds
      case Left => diffX > 0 && CellAt(grid, p.x - 1, p.y) != Ball && CellAt(grid, p.x - 1, p.y) != OutOfBounds
      case Right => diffX < 0 && CellAt(grid, p.x + 1, p.y) != Ball && CellAt(grid, p.x + 1, p.y) != OutOfBounds
      case Bottom => diffY < 0 && CellAt(grid, p.x, p.y + 1) != Ball && CellAt(grid, p.x, p.y + 1) != OutOfBounds
    }

    /** hasReachedNewLine: the cell ahead is still HIDDEN. */
    function HasReachedNewLine(): (r: bool)
      reads this, grid
      requires started && direction.Some?
      ensures r <==> Look(Ahead(currentPosition, direction.value)) == Hidden
    {
      var p := currentPosition;
      match direction.value
      case Up => CellAt(grid, p.x, p.y - 1) == Hidden
      case Left => CellAt(grid, p.x - 1, p.y) == Hidden
      case Right => CellAt(grid, p.x + 1, p.y) == Hidden
      case Bottom => CellAt(grid, p.x, p.y + 1) == Hidden
    }

    /** hasToRotate: one of the two forward diagonals is still HIDDEN. */
    function HasToRotate(): (r: bool)
      reads this, grid
      requires started && direction.Some?
      ensures var a := Ahead(currentPosition, direction.value);
        r <==> Look(LeftHand(a, direction.value)) == Hidden || Look(RightHand(a, direction.value)) == Hidden
    {
      var p := currentPosition;
      match direction.value
      case Up => CellAt(grid, p.x - 1, p.y - 1) == Hidden || CellAt(grid, p.x + 1, p.y - 1) == Hidden
      case Left => CellAt(grid, p.x - 1, p.y + 1) == Hidden || CellAt(grid, p.x - 1, p.y - 1) == Hidden
      case Right => CellAt(grid, p.x + 1, p.y - 1) == Hidden || CellAt(grid, p.x + 1, p.y + 1) == Hidden
      case Bottom => CellAt(grid, p.x + 1, p.y + 1) == Hidden || CellAt(grid, p.x - 1, p.y + 1) == Hidden
    }

    /** getAngleToRotate's choice: the probed cells are the robot's left, right and rear neighbours. */
    function SweepTurn(): (t: Turn)
      reads this, grid
      requires started && direction.Some?
      ensures var p, d := currentPosition, direction.value;
        t == SweepChoice(Look(LeftHand(p, d)), Look(RightHand(p, d)), Look(Behind(p, d)))
      ensures t != Keep
    {
      var p := currentPosition;
      match direction.value
      case Up => SweepChoice(CellAt(grid, p.x - 1, p.y), CellAt(grid, p.x + 1, p.y), CellAt(grid, p.x, p.y + 1))
      case Left => SweepChoice(CellAt(grid, p.x, p.y + 1), CellAt(grid, p.x, p.y - 1), CellAt(grid, p.x + 1, p.y))
      case Right => SweepChoice(CellAt(grid, p.x, p.y - 1), CellAt(grid, p.x, p.y + 1), CellAt(grid, p.x - 1, p.y))
      case Bottom => SweepChoice(CellAt(grid, p.x + 1, p.y), CellAt(grid, p.x - 1, p.y), CellAt(grid, p.x, p.y - 1))
    }

    /** getAngleToRotateOrigin's choice, from the robot's left and right neighbours. */
    function OriginTurn(): (t: Turn)
      reads this, grid
      requires started && direction.Some?
      ensures var p, d := currentPosition, direction.value;
        t == OriginChoice(Look(LeftHand(p, d)), Look(RightHand(p, d)))
      ensures t != Keep
    {
      var p := currentPosition;
      match direction.value
      case Up => OriginChoice(CellAt(grid, p.x - 1, p.y), CellAt(grid, p.x + 1, p.y))
      case Left => OriginChoice(CellAt(grid, p.x, p.y + 1), CellAt(grid, p.x, p.y - 1))
      case Right => OriginChoice(CellAt(grid, p.x, p.y - 1), CellAt(grid, p.x, p.y + 1))
      case Bottom => OriginChoice(CellAt(grid, p.x + 1, p.y), CellAt(grid, p.x - 1, p.y))
    }

    /** getAngleToRotateBall's choice, from the robot's left and right neighbours. */
    function BallTurn(): (t: Turn)
      reads this, grid
      requires started && direction.Some?
      ensures var p, d := currentPosition, direction.value;
        t == BallChoice(Look(LeftHand(p, d)), Look(RightHand(p, d)))
      ensures t != Keep
    {
      var p := currentPosition;
      match direction.value
      case Up => BallChoice(CellAt(grid, p.x - 1, p.y), CellAt(grid, p.x + 1, p.y))
      case Left => BallChoice(CellAt(grid, p.x, p.y + 1), CellAt(grid, p.x, p.y - 1))
      case Right => BallChoice(CellAt(grid, p.x, p.y - 1), CellAt(grid, p.x, p.y + 1))
      case Bottom => BallChoice(CellAt(grid, p.x + 1, p.y), CellAt(grid, p.x - 1, p.y))
    }

    /** getAngleToRotateSafe's choice: a quarter turn, to the left exactly when the safe cell is strictly on the robot's left. */
    function SafeTurn(): (t: Turn)
      reads this, grid
      requires started && direction.Some? && Square()
      ensures t == TurnLeft || t == TurnRight
      ensures t == TurnLeft <==> Toward(currentPosition, SafeToGo(), direction.value.ToLeft())
    {
      var safe := SafeToGo();
      var p := currentPosition;
      match direction.value
      case Up => if safe.x < p.x then TurnLeft else TurnRight
      case Left => if safe.y > p.y then TurnLeft else TurnRight
      case Right => if safe.y < p.y then TurnLeft else TurnRight
      case Bottom => if safe.x > p.x then TurnLeft else TurnRight
    }

    /** getAngleToRotateLastDirection's choice: the rotation that restores the heading saved at the grab. */
    function LastDirectionTurn(): (t: Turn)
      reads this
      requires direction.Some? && lastDirection.Some?
      ensures t.Apply(direction.value) == lastDirection.value
      ensures t == Keep <==> direction == lastDirection
    {
      match (direction.value, lastDirection.value)
      case (Up, Up) => Keep
      case (Up, Left) => TurnLeft
      case (Up, Right) => TurnRight
      case (Up, Bottom) => TurnAround
      case (Left, Up) => TurnRight
      case (Left, Left) => Keep
      case (Left, Right) => TurnAround
      case (Left, Bottom) => TurnLeft
      case (Right, Up) => TurnLeft
      case (Right, Left) => TurnAround
      case (Right, Right) => Keep
      case (Right, Bottom) => TurnRight
      case (Bottom, Up) => TurnAround
      case (Bottom, Left) => TurnRight
      case (Bottom, Right) => TurnLeft
      case (Bottom, Bottom) => Keep
    }

    /** What a rotation of the given kind would choose now. */
    function TurnFor(r: Rotation): Turn
      reads this, grid
      requires started && direction.Some? && Square()
      requires r == TowardLastDirection ==> lastDirection.Some?
    {
      match r
      case Sweep => SweepTurn()
      case TowardSafe => SafeTurn()
      case TowardOrigin => OriginTurn()
      case TowardLastDirection => LastDirectionTurn()
      case TowardBall => BallTurn()
    }

    /** Recording a ball's colour changes none of the rotation decisions. */
    twostate lemma RecolorKeepsTurn(r: Rotation)
      requires old(started && direction.Some? && Square())
      requires r == TowardLastDirection ==> old(lastDirection.Some?)
      requires Snapshot() == old(Snapshot()).(ballMap := ballMap) && unchanged(grid)
      ensures started && direction.Some? && Square()
      ensures TurnFor(r) == old(TurnFor(r))
    {
      match r
      case Sweep =>
        assert SweepTurn() == old(SweepTurn());
      case TowardSafe =>
        assert SafeToGo() == old(SafeToGo());
        assert SafeTurn() == old(SafeTurn());
      case TowardOrigin =>
        assert OriginTurn() == old(OriginTurn());
      case TowardLastDirection =>
        assert LastDirectionTurn() == old(LastDirectionTurn());
      case TowardBall =>
        assert BallTurn() == old(BallTurn());
    }

    /** Recording a ball's colour leaves the safe cell where it was. */
    twostate lemma RecolorKeepsSafe()
      requires old(started && Square())
      requires Snapshot() == old(Snapshot()).(ballMap := ballMap) && unchanged(grid)
      ensures started && Square() && SafeToGo() == old(SafeToGo())
    {
    }

    /** The heading changes by the turn; nothing else changes. */
    twostate predicate Rotated(t: Turn)
      reads this
    {
      old(direction).Some? && Snapshot() == old(Snapshot()).(direction := Some(t.Apply(old(direction).value)))
    }

    /** Commits a rotation decided from the current state and reports its angle code. */
    method Commit(t: Turn) returns (angle: int)
      requires Valid() && direction.Some?
      modifies this
      ensures Valid() && Rotated(t)
      ensures angle == t.Angle()
    {
      direction := Some(t.Apply(direction.value));
      angle := t.Angle();
    }

    /** getAngleToRotate: the sweep rotation at the end of a line. */
    method GetAngleToRotate() returns (angle: int)
      requires Valid() && started && direction.Some?
      modifies this
      ensures Valid() && Rotated(old(SweepTurn()))
      ensures angle == old(SweepTurn()).Angle()
    {
      angle := Commit(SweepTurn());
    }

    /** getAngleToRotateOrigin */
    method GetAngleToRotateOrigin() returns (angle: int)
      requires Valid() && started && direction.Some?
      modifies this
      ensures Valid() && Rotated(old(OriginTurn()))
      ensures angle == old(OriginTurn()).Angle()
    {
      angle := Commit(OriginTurn());
    }

    /** getAngleToRotateBall */
    method GetAngleToRotateBall() returns (angle: int)
      requires Valid() && started && direction.Some?
      modifies this
      ensures Valid() && Rotated(old(BallTurn()))
      ensures angle == old(BallTurn()).Angle()
    {
      angle := Commit(BallTurn());
    }

    /** getAngleToRotateSafe: always a quarter turn, -8 exactly when the safe cell is on the robot's left. */
    method GetAngleToRotateSafe() returns (angle: int)
      requires Valid() && started && direction.Some?
      modifies this
      ensures Valid() && Rotated(old(SafeTurn()))
      ensures angle == old(SafeTurn()).Angle()
      ensures angle == -8 || angle == 8
    {
      angle := Commit(SafeTurn());
    }

    /** getAngleToRotateLastDirection: afterwards the heading is the one saved at the grab. */
    method GetAngleToRotateLastDirection() returns (angle: int)
      requires Valid() && started && direction.Some? && lastDirection.Some?
      modifies this
      ensures Valid() && Rotated(old(LastDirectionTurn()))
      ensures angle == old(LastDirectionTurn()).Angle()
      ensures direction == lastDirection
    {
      angle := Commit(LastDirectionTurn());
    }

    /** Calls the getAngleToRotate method that decides a rotation of the given kind. */
    method RotateFor(r: Rotation) returns (angle: int)
      requires Valid() && started && direction.Some? && Square()
      requires r == TowardLastDirection ==> lastDirection.Some?
      modifies this
      ensures Valid() && Rotated(old(TurnFor(r)))
      ensures angle == old(TurnFor(r)).Angle()
    {
      match r
      case Sweep => angle := GetAngleToRotate();
      case TowardSafe => angle := GetAngleToRotateSafe();
      case TowardOrigin => angle := GetAngleToRotateOrigin();
      case TowardLastDirection => angle := GetAngleToRotateLastDirection();
      case TowardBall => angle := GetAngleToRotateBall();
    }

    /** The robot stands on `p` and the markers are redrawn by updateCurrentPosition; nothing else changes. */
    twostate predicate Moved(p: Point)
      reads this, grid
    {
      Snapshot() == old(Snapshot()).(currentPosition := p)
      && forall y, x :: 0 <= y < grid.Length0 && 0 <= x < grid.Length1 ==>
        grid[y, x] == Remarked(old(grid[y, x]), Point(x, y) == p)
    }

    /**
     * updateCurrentPosition: every CURRENT_POSITION cell becomes EMPTY, then the cell under the
     * robot is marked if it is HIDDEN or EMPTY.
     */
    method UpdateCurrentPosition()
      requires Shaped() && started
      modifies grid
      ensures Valid()
      ensures forall y, x :: 0 <= y < rows && 0 <= x < columns ==>
        grid[y, x] == Remarked(old(grid[y, x]), Point(x, y) == currentPosition)
    {
      var i := 0;
      while i < columns
        invariant 0 <= i <= columns
        invariant forall y, x :: 0 <= y < rows && 0 <= x < columns ==>
          grid[y, x] == if x < i then Remarked(old(grid[y, x]), false) else old(grid[y, x])
      {
        var j := 0;
        while j < rows
          invariant 0 <= j <= rows
          invariant forall y, x :: 0 <= y < rows && 0 <= x < columns ==>
            grid[y, x] == if x < i || (x == i && y < j) then Remarked(old(grid[y, x]), false) else old(grid[y, x])
        {
          if CellAt(grid, i, j) == CurrentPosition {
            grid[j, i] := Empty;
          }
          j := j + 1;
        }
        i := i + 1;
      }
      var cellValue := CellAt(grid, currentPosition.x, currentPosition.y);
      if cellValue == Hidden || cellValue == Empty {
        grid[currentPosition.y, currentPosition.x] := CurrentPosition;
      }
    }

    /** getDistanceToMove: one cell along the heading; returns the cell length truncated to an integer. */
    method GetDistanceToMove() returns (distance: int)
      requires Valid() && started && direction.Some?
      modifies this, grid
      ensures Valid() && Moved(old(Ahead(currentPosition, direction.value)))
      ensures distance == cellLength
    {
      var p := currentPosition;
      match direction.value {
        case Up => currentPosition := Point(p.x, p.y - 1);
        case Left => currentPosition := Point(p.x - 1, p.y);
        case Right => currentPosition := Point(p.x + 1, p.y);
        case Bottom => currentPosition := Point(p.x, p.y + 1);
      }
      UpdateCurrentPosition();
      distance := cellLength;
    }

    /** moveBack: one cell against the heading; returns the negated cell length. */
    method MoveBack() returns (distance: int)
      requires Valid() && started && direction.Some?
      modifies this, grid
      ensures Valid() && Moved(old(Behind(currentPosition, direction.value)))
      ensures distance == -cellLength
    {
      var p := currentPosition;
      match direction.value {
        case Up => currentPosition := Point(p.x, p.y + 1);
        case Left => currentPosition := Point(p.x + 1, p.y);
        case Right => currentPosition := Point(p.x - 1, p.y);
        case Bottom => currentPosition := Point(p.x, p.y - 1);
      }
      UpdateCurrentPosition();
      distance := -cellLength;
    }

    /** No cell is HIDDEN any more. */
    ghost predicate Finished()
      reads this, grid
    {
      forall y, x :: 0 <= y < grid.Length0 && 0 <= x < grid.Length1 ==> grid[y, x] != Hidden
    }

    /** isFieldFinished: scans every column and row for a HIDDEN cell. */
    method IsFieldFinished() returns (finished: bool)
      requires Square()
      ensures finished <==> Finished()
    {
      finished := true;
      var i := 0;
      while i < columns
        invariant 0 <= i <= columns
        invariant finished <==> forall y, x :: 0 <= y < rows && 0 <= x < i ==> grid[y, x] != Hidden
      {
        var j := 0;
        while j < rows
          invariant 0 <= j <= rows
          invariant finished <==>
            (forall y, x :: 0 <= y < rows && 0 <= x < i ==> grid[y, x] != Hidden)
            && (forall y :: 0 <= y < j ==> grid[y, i] != Hidden)
        {
          if CellAt(grid, i, j) == Hidden {
            finished := false;
          }
          j := j + 1;
        }
        i := i + 1;
      }
    }

    /** ballGrabbed: remembers a copy of the grab cell and the heading at the grab. */
    method BallGrabbed()
      requires Valid() && started && direction.Some?
      modifies this
      ensures Valid()
      ensures Snapshot() == old(Snapshot()).(lastPoint := Some(old(currentPosition)), lastDirection := old(direction))
    {
      lastPoint := Some(Point(currentPosition.x, currentPosition.y));
      lastDirection := direction;
    }

    /** setColorOfHoldingBall: the colour is keyed by the grab cell; nothing happens before the first grab. */
    method SetColorOfHoldingBall(color: BallColor)
      requires Valid() && started
      modifies this
      ensures Valid()
      ensures Snapshot() == old(Snapshot()).(ballMap := Recolored(old(ballMap), old(lastPoint), color))
    {
      if lastPoint.Some? {
        ballMap := ballMap[lastPoint.value := color];
      }
    }

    /** ballReleased: the cell under the robot becomes SAFE_UNAVAILABLE (setVal throws outside the grid). */
    method BallReleased()
      requires Valid() && started && InBounds(grid, currentPosition.x, currentPosition.y)
      modifies grid
      ensures Valid()
      ensures forall y, x :: 0 <= y < rows && 0 <= x < columns ==>
        grid[y, x] == if Point(x, y) == currentPosition then SafeUnavailable else old(grid[y, x])
    {
      var ok := SetVal(grid, currentPosition.x, currentPosition.y, SafeUnavailable);
    }

    /** isInOrigin */
    predicate InOrigin(): (b: bool)
      reads this
      ensures b <==> Equals(originPosition, PointObject(currentPosition))
    {
      originPosition == currentPosition
    }

    /** isInSafe */
    predicate InSafe(): (b: bool)
      reads this, grid
      requires started && Square()
      ensures b ==> currentPosition in StartSafeCells(m, rows, columns, originPosition)
    {
      SafeToGo() == currentPosition
    }

    /** isOnLastPoint: false while no ball was grabbed. */
    predicate OnLastPoint(): (b: bool)
      reads this
      ensures b <==> lastPoint.Some? && Equals(lastPoint.value, PointObject(currentPosition))
    {
      lastPoint == Some(currentPosition)
    }

    /** inRightPosition: both headings are lateinit and must be set. */
    predicate InRightPosition(): (b: bool)
      reads this
      requires direction.Some? && lastDirection.Some?
      ensures b <==> LastDirectionTurn() == Keep
    {
      direction == lastDirection
    }

    /** isAtBall */
    predicate AtBall(ball: Point): (b: bool)
      reads this
      ensures b <==> Equals(ball, PointObject(currentPosition))
    {
      ball == currentPosition
    }

    /** The character getFinalMatrix prints for a cell: the ball's colour letter at a grab cell, else the cell's ordinal. */
    function CellText(x: int, y: int): char
      reads this, grid
      requires InBounds(grid, x, y)
    {
      if Point(x, y) in ballMap then ColorLetter(ballMap[Point(x, y)]) else Decimal.DigitChar(grid[y, x].Ordinal())
    }

    /** The characters getFinalMatrix prints for row y, one per cell. */
    function RowChars(y: int): (cs: seq<char>)
      reads this, grid
      requires 0 <= y < grid.Length0
      ensures |cs| == grid.Length1
      ensures forall x :: 0 <= x < grid.Length1 ==> cs[x] == CellText(x, y)
    {
      seq(grid.Length1, x reads this, grid requires 0 <= x < grid.Length1 => CellText(x, y))
    }

    /** The characters getFinalMatrix prints, row by row. */
    function CharRows(): (rs: seq<seq<char>>)
      reads this, grid
      ensures |rs| == grid.Length0
      ensures forall y :: 0 <= y < grid.Length0 ==> rs[y] == RowChars(y)
    {
      seq(grid.Length0, y reads this, grid requires 0 <= y < grid.Length0 => RowChars(y))
    }

    /** getFinalMatrix: the grid row by row, grab cells shown by their ball's colour. */
    method GetFinalMatrix() returns (matrix: string)
      ensures matrix == MatrixText(CharRows())
    {
      ghost var rs := CharRows();
      matrix := "";
      var i := 0;
      while i < grid.Length0
        invariant 0 <= i <= grid.Length0
        invariant matrix == MatrixText(rs[..i])
      {
        var rowString := "";
        var j := 0;
        while j < grid.Length1
          invariant 0 <= j <= grid.Length1
          invariant rowString == RowText(rs[i][..j])
        {
          if Point(j, i) in ballMap {
            rowString := rowString + [' ', ColorLetter(ballMap[Point(j, i)])];
          } else {
            rowString := rowString + [' ', Decimal.DigitChar(grid[i, j].Ordinal())];
          }
          assert rs[i][..j + 1][..j] == rs[i][..j];
          j := j + 1;
        }
        assert rs[i][..grid.Length1] == rs[i];
        assert rs[..i + 1][..i] == rs[..i];
        matrix := matrix + "\n" + rowString;
        i := i + 1;
      }
      assert rs[..grid.Length0] == rs;
    }

    /** In the final matrix, the character for column x of row y sits at offset 2 + 2x of line y. */
    lemma FinalMatrixCell(y: nat, x: nat)
      requires y < grid.Length0 && x < grid.Length1
      ensures |MatrixText(CharRows())| == LineStart(grid.Length0, grid.Length1)
      ensures LineStart(y, grid.Length1) + 2 + 2 * x < LineStart(grid.Length0, grid.Length1)
      ensures MatrixText(CharRows())[LineStart(y, grid.Length1) + 2 + 2 * x] == CellText(x, y)
    {
      MatrixLayout(CharRows(), grid.Length1, y, x);
    }

    /** Under the invariant, a robot that can move stays inside the arena: the ring is never entered. */
    lemma CanMoveStaysInside()
      requires Valid() && started && direction.Some? && CanMove()
      ensures Interior(Ahead(currentPosition, direction.value))
    {
      var a := Ahead(currentPosition, direction.value);
      assert InBounds(grid, a.x, a.y);
      assert !OnRing(rows, columns, a.x, a.y);
    }

    /** The safe cell chosen by getSafeToGo is a ring cell inside the grid, so releasing a ball there cannot throw. */
    lemma SafeToGoOnRing()
      requires Valid() && started
      ensures InBounds(grid, SafeToGo().x, SafeToGo().y)
      ensures OnRing(rows, columns, SafeToGo().x, SafeToGo().y)
    {
      StartCellsOnRing(originPosition);
    }

    /** isInSafe holds only on the ring. */
    lemma InSafeOnRing()
      requires Valid() && started && InSafe()
      ensures InBounds(grid, currentPosition.x, currentPosition.y)
      ensures OnRing(rows, columns, currentPosition.x, currentPosition.y)
    {
      SafeToGoOnRing();
    }

    /** A move never makes a revealed cell HIDDEN again, so a finished field stays finished. */
    twostate lemma MoveKeepsFinished(p: Point)
      requires Moved(p) && old(Finished())
      ensures Finished()
    {
      forall y, x | 0 <= y < grid.Length0 && 0 <= x < grid.Length1
        ensures grid[y, x] != Hidden
      {
        RemarkedKeepsRevealed(old(grid[y, x]), Point(x, y) == p);
      }
    }
  }
}

=== FILE: first_step.dfy ===
/**
 * FirstStep: the robot sweeps the arena line by line; when it catches a ball it carries it to the
 * origin, then to the safe cell, releases it, and returns to where it grabbed it to sweep on.
 */
module FirstStepMission {
  import opened Wrappers
  import opened Points
  import opened Headings
  import opened Arena
  import opened Mission

  datatype State = Search | GoToSafe | GoToLastPoint | GoToOrigin

  /** The phases of a line change during the sweep. */
  datatype Action = MovingOnLine | RotatingFirst | ChangingLine | RotatingSecond

  /** The step's own variables. */
  datatype Control = Control(state: State, action: Action, holding: bool, balls: nat, moveBack: bool, colorCaught: bool)

  /** Everything one execute call observes, all of it before the handler changes anything. */
  datatype Sight = Sight(
    catchable: bool,
    canMove: bool,
    finished: bool,
    reachedNewLine: bool,
    hasToRotate: bool,
    canMoveToSafe: bool,
    inSafe: bool,
    canMoveToLastPoint: bool,
    onLastPoint: bool,
    inRightPosition: bool,
    canMoveToOrigin: bool,
    inOrigin: bool)

  /** What one execute call does: the call on the robot, whether the ball's colour is recorded, the next variables. */
  datatype Plan = Plan(act: Act, recolor: bool, next: Control)

  const Initial := Control(Search, MovingOnLine, false, 0, false, false)

  /** The relations between the step's variables that every execute call keeps. */
  predicate Consistent(c: Control)
  {
    c.balls <= NumberOfBalls
    && (c.holding ==> c.balls < NumberOfBalls && c.state in {GoToOrigin, GoToSafe})
    && (c.moveBack ==> !c.holding && c.state == GoToSafe)
    && (c.state in {Search, GoToLastPoint} ==> c.balls < NumberOfBalls)
    && (c.state == GoToLastPoint ==> c.balls > 0)
    && (c.state == GoToSafe ==> c.holding || c.balls > 0)
  }

  /** changeLine: leave the line, turn, advance until a hidden cell is ahead, turn again if needed. */
  function ChangeLinePlan(c: Control, reachedNewLine: bool, hasToRotate: bool): (p: Plan)
    ensures p.next == c.(action := p.next.action) && !p.recolor
    ensures p.act in {Idle, Drive, Rotate(Sweep, AsIs)}
    ensures p.act == Drive <==> c.action == ChangingLine
    ensures p.act.Rotate? <==> c.action in {RotatingFirst, RotatingSecond}
  {
    match c.action
    case MovingOnLine => Plan(Idle, false, c.(action := RotatingFirst))
    case RotatingFirst => Plan(Rotate(Sweep, AsIs), false, c.(action := ChangingLine))
    case ChangingLine =>
      var next := if !reachedNewLine then ChangingLine else if hasToRotate then RotatingSecond else MovingOnLine;
      Plan(Drive, false, c.(action := next))
    case RotatingSecond => Plan(Rotate(Sweep, AsIs), false, c.(action := MovingOnLine))
  }

  /** move: advance along the line, give up once the field is finished, grab a catchable ball, or change line. */
  function SearchPlan(c: Control, catchable: bool, canMove: bool, finished: bool, reachedNewLine: bool, hasToRotate: bool): (p: Plan)
    ensures !p.recolor && p.next.balls == c.balls && p.next.moveBack == c.moveBack
    ensures p.act in {Idle, Drive, Grab, Rotate(Sweep, AsIs)}
    ensures p.next.holding == (c.holding || p.act == Grab)
    ensures p.act == Grab <==> catchable && !finished
    ensures p.next.state in {c.state, GoToOrigin}
    ensures p.next.state != c.state ==> finished || catchable
  {
    if canMove && c.action == MovingOnLine && !catchable then Plan(Drive, false, c)
    else if finished then Plan(Idle, false, c.(state := GoToOrigin))
    else if catchable then Plan(Grab, false, c.(state := GoToOrigin, holding := true, colorCaught := false))
    else ChangeLinePlan(c, reachedNewLine, hasToRotate)
  }

  /** moveToSafe, with the hand-over to GO_TO_LAST_POINT. */
  function SafePlan(c: Control, canMoveToSafe: bool, inSafe: bool): (p: Plan)
    ensures !p.recolor && p.next.action == c.action && p.next.colorCaught == c.colorCaught
    ensures p.act in {Drive, Rotate(TowardSafe, Quarter), Release, Reverse, Idle}
    ensures p.next.balls == if p.act == Release then c.balls + 1 else c.balls
    ensures p.next.holding == (c.holding && p.act != Release)
    ensures p.act == Release ==> c.holding && inSafe
    ensures p.next.state != GoToSafe ==> !c.holding && !c.moveBack
    ensures p.next.state in {GoToSafe, GoToOrigin, GoToLastPoint}
    ensures p.next.state == GoToOrigin <==> !c.holding && !c.moveBack && c.balls == NumberOfBalls
  {
    var m := SafeStep(Carry(c.holding, c.balls, c.moveBack), canMoveToSafe, inSafe);
    var state := match m.exit case Stay => GoToSafe case ToOrigin => GoToOrigin case Onward => GoToLastPoint;
    Plan(m.act, false, c.(state := state, holding := m.carry.holding, balls := m.carry.balls, moveBack := m.carry.moveBack))
  }

  /** moveToLastPoint: drive back to the grab cell (turning as toward the origin), face the saved heading, resume the search. */
  function LastPointPlan(c: Control, canMoveToLastPoint: bool, onLastPoint: bool, inRightPosition: bool): (p: Plan)
    ensures p.next == c.(state := p.next.state) && !p.recolor
    ensures p.act in {Drive, Rotate(TowardOrigin, AsIs), Rotate(TowardLastDirection, AsIs), Idle}
    ensures p.next.state == (if !canMoveToLastPoint && onLastPoint && inRightPosition then Search else c.state)
  {
    if canMoveToLastPoint then Plan(Drive, false, c)
    else if !onLastPoint then Plan(Rotate(TowardOrigin, AsIs), false, c)
    else if !inRightPosition then Plan(Rotate(TowardLastDirection, AsIs), false, c)
    else Plan(Idle, false, c.(state := Search))
  }

  /** moveToOrigin: record the colour of the held ball once, then the shared origin handler. */
  function OriginPlan(c: Control, canMoveToOrigin: bool, inOrigin: bool): (p: Plan)
    ensures p.next == c.(colorCaught := true, state := p.next.state)
    ensures p.recolor <==> !c.colorCaught
    ensures p.act !in {Grab, Release, Reverse}
    ensures p.act == Stop ==> inOrigin && !c.holding
    ensures p.next.state == if c.holding && inOrigin && !canMoveToOrigin then GoToSafe else GoToOrigin
  {
    var o := OriginStep(c.holding, canMoveToOrigin, inOrigin);
    Plan(o.act, !c.colorCaught, c.(colorCaught := true, state := if o.toSafe then GoToSafe else GoToOrigin))
  }

  /** One execute call: nothing while the robot is still moving, else the handler of the current state. */
  function Tick(isMoving: bool, c: Control, s: Sight): Plan
  {
    if isMoving then Plan(Idle, false, c)
    else match c.state
      case Search => SearchPlan(c, s.catchable, s.canMove, s.finished, s.reachedNewLine, s.hasToRotate)
      case GoToSafe => SafePlan(c, s.canMoveToSafe, s.inSafe)
      case GoToLastPoint => LastPointPlan(c, s.canMoveToLastPoint, s.onLastPoint, s.inRightPosition)
      case GoToOrigin => OriginPlan(c, s.canMoveToOrigin, s.inOrigin)
  }

  /** Every execute call keeps the step's variables consistent. */
  lemma TickKeepsConsistent(isMoving: bool, c: Control, s: Sight)
    requires Consistent(c)
    ensures Consistent(Tick(isMoving, c, s).next)
  {
    var p := Tick(isMoving, c, s);
    if !isMoving {
      match c.state
      case Search =>
        assert p == SearchPlan(c, s.catchable, s.canMove, s.finished, s.reachedNewLine, s.hasToRotate);
      case GoToSafe =>
        assert p == SafePlan(c, s.canMoveToSafe, s.inSafe);
      case GoToLastPoint =>
        assert p == LastPointPlan(c, s.canMoveToLastPoint, s.onLastPoint, s.inRightPosition);
      case GoToOrigin =>
        assert p == OriginPlan(c, s.canMoveToOrigin, s.inOrigin);
    }
  }

  /** The ball count grows by one at a release and never changes otherwise. */
  lemma TickCountsRelease(isMoving: bool, c: Control, s: Sight)
    ensures Tick(isMoving, c, s).next.balls == if Tick(isMoving, c, s).act == Release then c.balls + 1 else c.balls
  {
  }

  /** The robot starts or stops holding a ball exactly when it grabs or releases one. */
  lemma TickChangesHoldingOnlyAtGrabOrRelease(isMoving: bool, c: Control, s: Sight)
    requires Consistent(c)
    ensures Tick(isMoving, c, s).next.holding != c.holding <==> Tick(isMoving, c, s).act in {Grab, Release}
  {
  }

  /**
   * A ball is grabbed only while searching, when the sensor says it is catchable and the field is
   * not finished yet; it is released only in GO_TO_SAFE, on the safe cell.
   */
  lemma TickGrabsAndReleasesWhere(isMoving: bool, c: Control, s: Sight)
    requires Consistent(c)
    ensures Tick(isMoving, c, s).act == Grab ==> !isMoving && c.state == Search && s.catchable && !s.finished && !c.holding
    ensures Tick(isMoving, c, s).act == Release ==> !isMoving && c.state == GoToSafe && s.inSafe && c.holding
  {
  }

  /** The engine is stopped only at the origin, with no ball on board. */
  lemma TickStopsOnlyAtOrigin(isMoving: bool, c: Control, s: Sight)
    ensures Tick(isMoving, c, s).act == Stop ==> c.state == GoToOrigin && s.inOrigin && !c.holding
  {
  }

  /** The colour is recorded at most once per trip to the origin: never twice in a row. */
  lemma TickRecolorsOnce(isMoving: bool, c: Control, s: Sight)
    ensures Tick(isMoving, c, s).recolor ==> c.state == GoToOrigin && !c.colorCaught && Tick(isMoving, c, s).next.colorCaught
  {
  }

  /** The variables after a run of execute calls, one per observation; `moving[i]` says whether the robot was still moving. */
  function Run(c: Control, moving: seq<bool>, ss: seq<Sight>): Control
    requires |moving| == |ss|
    decreases |ss|
  {
    if ss == [] then c else Run(Tick(moving[0], c, ss[0]).next, moving[1..], ss[1..])
  }

  /** How many balls a run of execute calls releases. */
  function Releases(c: Control, moving: seq<bool>, ss: seq<Sight>): nat
    requires |moving| == |ss|
    decreases |ss|
  {
    if ss == [] then 0
    else
      var p := Tick(moving[0], c, ss[0]);
      (if p.act == Release then 1 else 0) + Releases(p.next, moving[1..], ss[1..])
  }

  /**
   * Over any run the ball count is exactly the number of releases, and the variables stay
   * consistent; so from the start no run ever puts more than NUMBER_OF_BALLS balls in the safe zone.
   */
  lemma {:induction false} RunCountsReleases(c: Control, moving: seq<bool>, ss: seq<Sight>)
    requires |moving| == |ss| && Consistent(c)
    ensures Consistent(Run(c, moving, ss))
    ensures Run(c, moving, ss).balls == c.balls + Releases(c, moving, ss)
    ensures Releases(c, moving, ss) <= NumberOfBalls - c.balls
    decreases |ss|
  {
    if ss != [] {
      var p := Tick(moving[0], c, ss[0]);
      RunCountsReleases(p.next, moving[1..], ss[1..]);
    }
  }

  /** Along a line the robot only turns when the sweep is at a line change. */
  lemma SweepTurnsOnlyAtLineChange(c: Control, s: Sight)
    requires c.state == Search
    ensures Tick(false, c, s).act.Rotate? ==>
      c.action in {RotatingFirst, RotatingSecond} && Tick(false, c, s).act == Rotate(Sweep, AsIs) && !s.finished && !s.catchable
  {
  }

  /** The grab cell is set from the first grab on, so it is there whenever a ball is held or in the safe zone. */
  lemma LastPointKept(c: Control, p: Plan, before: Pose, paint: Option<BallColor>, turn: Turn)
    requires before.direction.Some? && (c.holding || c.balls > 0 ==> before.lastPoint.Some?)
    requires p.next.holding != c.holding ==> p.act in {Grab, Release}
    requires p.act == Release ==> c.holding
    requires p.next.balls == if p.act == Release then c.balls + 1 else c.balls
    ensures p.next.holding || p.next.balls > 0 ==> PoseAfter(Painted(before, paint), p.act, turn).lastPoint.Some?
  {
  }

  class FirstStep {
    const field: Field
    const robot: Robot
    var state: State
    var action: Action
    var holdingBall: bool
    var ballsInSafe: nat
    var hasToMoveBack: bool
    var isColorCaught: bool

    function Vars(): Control
      reads this
    {
      Control(state, action, holdingBall, ballsInSafe, hasToMoveBack, isColorCaught)
    }

    /** A ready arena, consistent variables, and a grab cell once a ball has been seen. */
    ghost predicate Valid()
      reads this, field, field.grid
    {
      Ready(field) && Consistent(Vars())
      && (holdingBall || ballsInSafe > 0 ==> field.lastPoint.Some?)
    }

    constructor (field: Field, robot: Robot)
      requires Ready(field)
      ensures this.field == field && this.robot == robot && Vars() == Initial
      ensures Valid()
    {
      this.field, this.robot := field, robot;
      state, action := Search, MovingOnLine;
      holdingBall, ballsInSafe := false, 0;
      hasToMoveBack, isColorCaught := false, false;
    }

    /** What execute observes now. The lateinit and `!!` reads are only made where they are set. */
    ghost function SightOf(catchable: bool): Sight
      reads this, field, field.grid
      requires Valid()
    {
      Sight(
        catchable,
        field.CanMove(),
        field.Finished(),
        field.HasReachedNewLine(),
        field.HasToRotate(),
        field.CanMoveToSafe(),
        field.InSafe(),
        field.lastPoint.Some? && field.CanMoveToLastPoint(),
        field.OnLastPoint(),
        field.lastDirection.Some? && field.InRightPosition(),
        field.CanMoveToOrigin(),
        field.InOrigin())
    }

    /** The step's variables are the plan's, and the arena and the robot took the plan's act. */
    twostate predicate Stepped(p: Plan, turn: Turn, paint: Option<BallColor>)
      reads this, field, field.grid, robot
    {
      Vars() == p.next && Performed(field, robot, paint, p.act, turn)
    }

    /** The plan of the handler the current state selects, from the observations that handler makes. */
    ghost function Planned(isMoving: bool, catchable: bool): Plan
      reads this, field, field.grid
      requires Valid()
    {
      if isMoving then Plan(Idle, false, Vars())
      else match state
        case Search => SearchPlan(Vars(), catchable, field.CanMove(), field.Finished(), field.HasReachedNewLine(), field.HasToRotate())
        case GoToSafe => SafePlan(Vars(), field.CanMoveToSafe(), field.InSafe())
        case GoToLastPoint => LastPointPlan(Vars(), field.CanMoveToLastPoint(), field.OnLastPoint(), field.InRightPosition())
        case GoToOrigin => OriginPlan(Vars(), field.CanMoveToOrigin(), field.InOrigin())
    }

    /** Each handler reads only its part of the observations: the per-state plan is the Tick of all of them. */
    lemma PlannedIsTick(isMoving: bool, catchable: bool)
      requires Valid()
      ensures Planned(isMoving, catchable) == Tick(isMoving, Vars(), SightOf(catchable))
    {
    }

    /** The termination test of execute. */
    ghost predicate Done()
      reads this, field, field.grid
    {
      (ballsInSafe == NumberOfBalls || field.Finished()) && field.InOrigin()
    }

    /** One execute call, without the recursion: act on the observations, then test for the end. */
    method Step(isMoving: bool, catchable: bool, color: BallColor) returns (done: bool)
      requires Valid()
      modifies this, field, field.grid, robot
      ensures Valid()
      ensures var p := old(Tick(isMoving, Vars(), SightOf(catchable)));
        Stepped(p, old(TurnOf(field, p.act)), if p.recolor then Some(color) else None)
      ensures old(field.Finished()) ==> field.Finished()
      ensures done <==> Done()
    {
      Handle(isMoving, catchable, color);
      done := IsDone();
    }

    /** The act of one execute call, with the invariant it keeps. */
    method Handle(isMoving: bool, catchable: bool, color: BallColor)
      requires Valid()
      modifies this, field, field.grid, robot
      ensures Valid()
      ensures var p := old(Tick(isMoving, Vars(), SightOf(catchable)));
        Stepped(p, old(TurnOf(field, p.act)), if p.recolor then Some(color) else None)
    {
      ghost var c, s := Vars(), SightOf(catchable);
      PlannedIsTick(isMoving, catchable);
      ghost var p := Planned(isMoving, catchable);
      Dispatch(isMoving, catchable, color);
      TickKeepsConsistent(isMoving, c, s);
      TickCountsRelease(isMoving, c, s);
      TickChangesHoldingOnlyAtGrabOrRelease(isMoving, c, s);
      TickGrabsAndReleasesWhere(isMoving, c, s);
      LastPointKept(c, p, old(field.Snapshot()), if p.recolor then Some(color) else None, old(TurnOf(field, p.act)));
    }

    /** The end test of execute: all balls in the safe cell or the arena explored, and the robot back at the origin. */
    method IsDone() returns (done: bool)
      requires Valid()
      ensures done <==> Done()
    {
      var finished := field.IsFieldFinished();
      done := (ballsInSafe == NumberOfBalls || finished) && field.InOrigin();
    }

    /** Makes the act's call (recording the colour first when asked) and sets the step's variables to `next`. */
    method Apply(act: Act, paint: Option<BallColor>, next: Control)
      requires Ready(field)
      requires act == Release ==> field.InSafe()
      requires act.Rotate? && act.rotation == TowardLastDirection ==> field.lastDirection.Some?
      modifies this, field, field.grid, robot
      ensures Ready(field)
      ensures Stepped(Plan(act, paint.Some?, next), old(TurnOf(field, act)), paint)
    {
      Perform(field, robot, paint, act);
      Advance(next);
    }

    /** Takes over the variables a handler leaves. */
    method Advance(next: Control)
      modifies this
      ensures Vars() == next
    {
      state, action, holdingBall := next.state, next.action, next.holding;
      ballsInSafe, hasToMoveBack, isColorCaught := next.balls, next.moveBack, next.colorCaught;
    }

    /** The handler the current state selects; nothing while the robot is still moving. */
    method Dispatch(isMoving: bool, catchable: bool, color: BallColor)
      requires Valid()
      modifies this, field, field.grid, robot
      ensures Ready(field)
      ensures var p := old(Planned(isMoving, catchable));
        Stepped(p, old(TurnOf(field, p.act)), if p.recolor then Some(color) else None)
    {
      if !isMoving {
        match state
        case Search => Move(catchable);
        case GoToSafe => MoveToSafe();
        case GoToLastPoint => MoveToLastPoint();
        case GoToOrigin => MoveToOrigin(color);
      } else {
        Apply(Idle, None, Vars());
      }
    }

    /** move */
    method Move(catchable: bool)
      requires Valid() && state == Search
      modifies this, field, field.grid, robot
      ensures Ready(field)
      ensures var p := old(SearchPlan(Vars(), catchable, field.CanMove(), field.Finished(), field.HasReachedNewLine(), field.HasToRotate()));
        !p.recolor && Stepped(p, old(TurnOf(field, p.act)), None)
    {
      ghost var p := SearchPlan(Vars(), catchable, field.CanMove(), field.Finished(), field.HasReachedNewLine(), field.HasToRotate());
      ghost var turn := TurnOf(field, p.act);
      var finished := field.IsFieldFinished();
      if field.CanMove() && action == MovingOnLine && !catchable {
        Apply(Drive, None, Vars());
      } else if finished {
        Apply(Idle, None, Vars().(state := GoToOrigin));
      } else if catchable {
        Apply(Grab, None, Vars().(state := GoToOrigin, holding := true, colorCaught := false));
      } else {
        assert p == ChangeLinePlan(Vars(), field.HasReachedNewLine(), field.HasToRotate());
        ChangeLine();
      }
    }

    /** changeLine */
    method ChangeLine()
      requires Valid() && state == Search
      modifies this, field, field.grid, robot
      ensures Ready(field)
      ensures var p := old(ChangeLinePlan(Vars(), field.HasReachedNewLine(), field.HasToRotate()));
        !p.recolor && Stepped(p, old(TurnOf(field, p.act)), None)
    {
      match action
      case MovingOnLine =>
        Apply(Idle, None, Vars().(action := RotatingFirst));
      case RotatingFirst =>
        Apply(Rotate(Sweep, AsIs), None, Vars().(action := ChangingLine));
      case ChangingLine =>
        var next := action;
        if field.HasReachedNewLine() {
          next := if field.HasToRotate() then RotatingSecond else MovingOnLine;
        }
        Apply(Drive, None, Vars().(action := next));
      case RotatingSecond =>
        Apply(Rotate(Sweep, AsIs), None, Vars().(action := MovingOnLine));
    }

    /** moveToSafe; the angle rewriting is the Quarter widening. */
    method MoveToSafe()
      requires Valid() && state == GoToSafe
      modifies this, field, field.grid, robot
      ensures Ready(field)
      ensures var p := old(SafePlan(Vars(), field.CanMoveToSafe(), field.InSafe()));
        !p.recolor && Stepped(p, old(TurnOf(field, p.act)), None)
    {
      if field.CanMoveToSafe() && holdingBall {
        Apply(Drive, None, Vars());
      } else if !field.InSafe() && holdingBall {
        Apply(Rotate(TowardSafe, Quarter), None, Vars());
      } else if field.InSafe() && holdingBall {
        Apply(Release, None, Vars().(balls := ballsInSafe + 1, holding := false, moveBack := true));
      } else if !holdingBall && hasToMoveBack {
        Apply(Reverse, None, Vars().(moveBack := false));
      } else if ballsInSafe == NumberOfBalls {
        Apply(Idle, None, Vars().(state := GoToOrigin));
      } else {
        Apply(Idle, None, Vars().(state := GoToLastPoint));
      }
    }

    /** moveToLastPoint */
    method MoveToLastPoint()
      requires Valid() && state == GoToLastPoint
      modifies this, field, field.grid, robot
      ensures Ready(field)
      ensures var p := old(LastPointPlan(Vars(), field.CanMoveToLastPoint(), field.OnLastPoint(), field.InRightPosition()));
        !p.recolor && Stepped(p, old(TurnOf(field, p.act)), None)
    {
      if field.CanMoveToLastPoint() {
        Apply(Drive, None, Vars());
      } else if !field.OnLastPoint() {
        Apply(Rotate(TowardOrigin, AsIs), None, Vars());
      } else if !field.InRightPosition() {
        Apply(Rotate(TowardLastDirection, AsIs), None, Vars());
      } else {
        Apply(Idle, None, Vars().(state := Search));
      }
    }

    /**
     * moveToOrigin: the colour of the held ball is recorded on the first call, then the robot
     * drives, turns (with the Loaded widening while holding a ball), hands over to GO_TO_SAFE or stops.
     */
    method MoveToOrigin(color: BallColor)
      requires Valid() && state == GoToOrigin
      modifies this, field, field.grid, robot
      ensures Ready(field)
      ensures var p := old(OriginPlan(Vars(), field.CanMoveToOrigin(), field.InOrigin()));
        Stepped(p, old(TurnOf(field, p.act)), if p.recolor then Some(color) else None)
    {
      var paint := if isColorCaught then None else Some(color);
      if field.CanMoveToOrigin() {
        Apply(Drive, paint, Vars().(colorCaught := true));
      } else if !field.InOrigin() {
        Apply(Rotate(TowardOrigin, if holdingBall then Loaded else AsIs), paint, Vars().(colorCaught := true));
      } else if holdingBall {
        Apply(Idle, paint, Vars().(colorCaught := true, state := GoToSafe));
      } else {
        Apply(Stop, paint, Vars().(colorCaught := true));
      }
    }
  }
}

=== FILE: headings.dfy ===
/**
 * Headings of the robot on the arena grid and the quarter turns between them.
 * Screen coordinates: x grows to the right, y grows downwards, so "up" is y - 1.
 */
module Headings {

  import opened Points

  /** Field.Direction: TO_UP, TO_LEFT, TO_RIGHT, TO_BOTTOM. */
  datatype Direction = Up | Left | Right | Bottom
  {
    /** A quarter turn clockwise: on the screen grid the unit step (dx, dy) becomes (-dy, dx). */
    function ToRight(): (d: Direction)
      ensures d.Dx() == -Dy() && d.Dy() == Dx()
    {
      match this
      case Up => Right
      case Left => Up
      case Right => Bottom
      case Bottom => Left
    }

    /** A quarter turn counter-clockwise: the unit step (dx, dy) becomes (dy, -dx). */
    function ToLeft(): (d: Direction)
      ensures d.Dx() == Dy() && d.Dy() == -Dx()
    {
      match this
      case Up => Left
      case Left => Bottom
      case Right => Up
      case Bottom => Right
    }

    /** A half turn: the unit step is reversed. */
    function ToBottom(): (d: Direction)
      ensures d.Dx() == -Dx() && d.Dy() == -Dy()
    {
      match this
      case Up => Bottom
      case Left => Right
      case Right => Left
      case Bottom => Up
    }

    /** The x offset of one cell along the heading. */
    function Dx(): int
    {
      match this
      case Left => -1
      case Right => 1
      case _ => 0
    }

    /** The y offset of one cell along the heading. */
    function Dy(): int
    {
      match this
      case Up => -1
      case Bottom => 1
      case _ => 0
    }
  }

  /** A rotation the robot performs, and the angle code it reports for it. */
  datatype Turn = Keep | TurnLeft | TurnRight | TurnAround
  {
    /** The angle code of the rotation: -8 left, 8 right, 16 half turn, 0 none. */
    function Angle(): int
    {
      match this
      case Keep => 0
      case TurnLeft => -8
      case TurnRight => 8
      case TurnAround => 16
    }

    /** The heading after the rotation. */
    function Apply(d: Direction): Direction
    {
      match this
      case Keep => d
      case TurnLeft => d.ToLeft()
      case TurnRight => d.ToRight()
      case TurnAround => d.ToBottom()
    }
  }

  /** The cell one step along `d`. */
  function Ahead(p: Point, d: Direction): Point
  {
    Point(p.x + d.Dx(), p.y + d.Dy())
  }

  /** The cell one step against `d`. */
  function Behind(p: Point, d: Direction): Point
  {
    Point(p.x - d.Dx(), p.y - d.Dy())
  }

  /** The neighbour on the robot's left. */
  function LeftHand(p: Point, d: Direction): Point
  {
    Ahead(p, d.ToLeft())
  }

  /** The neighbour on the robot's right. */
  function RightHand(p: Point, d: Direction): Point
  {
    Ahead(p, d.ToRight())
  }

  /** `t` lies strictly ahead of `p` along the axis of `d`. */
  predicate Toward(p: Point, t: Point, d: Direction)
  {
    (t.x - p.x) * d.Dx() + (t.y - p.y) * d.Dy() > 0
  }

  function Abs(v: int): nat
  {
    if v < 0 then -v else v
  }

  /** Grid distance between two cells. */
  function Manhattan(p: Point, q: Point): nat
  {
    Abs(p.x - q.x) + Abs(p.y - q.y)
  }

  /** toLeft undoes toRight and toRight undoes toLeft. */
  lemma LeftRightInverse(d: Direction)
    ensures d.ToRight().ToLeft() == d && d.ToLeft().ToRight() == d
  {
  }

  /** A half turn is two right turns, and also two left turns. */
  lemma HalfTurnIsTwoQuarters(d: Direction)
    ensures d.ToBottom() == d.ToRight().ToRight()
    ensures d.ToBottom() == d.ToLeft().ToLeft()
  {
  }

  /** toRight rotates the step vector (dx, dy) to (-dy, dx) in screen coordinates. */
  lemma ToRightRotatesStep(d: Direction)
    ensures d.ToRight().Dx() == -d.Dy() && d.ToRight().Dy() == d.Dx()
  {
  }

  /** Each angle code names exactly one rotation. */
  lemma AngleIdentifiesTurn(t: Turn, u: Turn)
    requires t.Angle() == u.Angle()
    ensures t == u
  {
  }

  /** Every quarter-turn combination is reached by one of the four rotations. */
  lemma TurnReaches(d: Direction, e: Direction)
    ensures exists t: Turn :: t.Apply(d) == e
  {
    if e == d {
      assert Keep.Apply(d) == e;
    } else if e == d.ToLeft() {
      assert TurnLeft.Apply(d) == e;
    } else if e == d.ToRight() {
      assert TurnRight.Apply(d) == e;
    } else {
      assert TurnAround.Apply(d) == e;
    }
  }

  /** A step back cancels a step forward. */
  lemma BehindCancelsAhead(p: Point, d: Direction)
    ensures Behind(Ahead(p, d), d) == p && Ahead(Behind(p, d), d) == p
  {
  }

  /** A step along `d` brings `p` one closer to `t` exactly when `t` lies ahead on that axis, else one farther. */
  lemma TowardShrinksDistance(p: Point, t: Point, d: Direction)
    ensures Manhattan(Ahead(p, d), t) == if Toward(p, t, d) then Manhattan(p, t) - 1 else Manhattan(p, t) + 1
  {
  }
}

=== FILE: light.dfy ===
/**
 * The colour encodings of the light sensor: a raw RGB triple packed into a 24-bit value and an
 * opaque 32-bit ARGB value, and the fixed ARGB value of each colour the sensor reports. Kotlin's
 * `shl` and `or` act on 32-bit two's complement Ints; they are written out on the unsigned bit
 * pattern of the Int.
 */
module Light {
  import opened Bytes

  /** The bit pattern of an Int, read as an unsigned number. */
  function Bits32(v: int): (u: nat)
    ensures u < 0x1_0000_0000 && (v - u) % 0x1_0000_0000 == 0
  {
    v % 0x1_0000_0000
  }

  /** Kotlin's `a or b` on Ints. */
  function Or32(a: int, b: int): i32
  {
    Wrap32(BitOr(Bits32(a), Bits32(b)))
  }

  /** Kotlin's `v shl n` on an Int, for a shift distance below 32. */
  function Shl32(v: int, n: nat): i32
    requires n < 32
  {
    Wrap32(v * Pow2(n))
  }

  /** `n` halvings: Kotlin's `ushr n` on a bit pattern. */
  function Shr(x: nat, n: nat): nat
  {
    if n == 0 then x else Shr(x / 2, n - 1)
  }

  /** The alpha channel of an ARGB value: its top 8 bits. */
  function Alpha(argb: int): nat
  {
    Shr(Bits32(argb), 24)
  }

  /** LightSensor.Rgb: three Int components, meant to be 8-bit. */
  datatype Rgb = Rgb(r: int, g: int, b: int)

  predicate InRange(c: Rgb)
  {
    0 <= c.r < 0x100 && 0 <= c.g < 0x100 && 0 <= c.b < 0x100
  }

  /**
   * toRGB24: `R shl 16 or (G shl 8) or B`. For components in 0..255 the shifts and ORs add up to
   * `R*65536 + G*256 + B`, a 24-bit value.
   */
  function ToRgb24(c: Rgb): (v: i32)
    ensures InRange(c) ==> v == 0x1_0000 * c.r + 0x100 * c.g + c.b && 0 <= v < 0x100_0000
  {
    Packed(c);
    Or32(Or32(Shl32(c.r, 16), Shl32(c.g, 8)), c.b)
  }

  /**
   * toARGB32: `-0x1000000 or toRGB24()`. Whatever the components, every alpha bit is set; for
   * components in 0..255 the bits are the RGB value under the alpha byte 0xFF.
   */
  function ToArgb32(c: Rgb): (v: i32)
    ensures Alpha(v) == 0xFF
    ensures InRange(c) ==> Bits32(v) == 0xFF00_0000 + ToRgb24(c)
  {
    OpaqueOr(ToRgb24(c));
    OpaqueBits(ToRgb24(c));
    Or32(-0x100_0000, ToRgb24(c))
  }

  /**
   * The components `(v shr 16) and 0xFF`, `(v shr 8) and 0xFF` and `v and 0xFF`: an arithmetic
   * shift right floors, and masking with 0xFF keeps the non-negative residue modulo 256.
   */
  function RedComponent(v: int): int { (v / 0x1_0000) % 0x100 }
  function GreenComponent(v: int): int { (v / 0x100) % 0x100 }
  function BlueComponent(v: int): int { v % 0x100 }

  /** The OR of two numbers below `2^k` stays below `2^k`. */
  lemma {:induction false} BitOrBound(a: nat, b: nat, k: nat)
    requires a < Pow2(k) && b < Pow2(k)
    ensures BitOr(a, b) < Pow2(k)
    decreases k
  {
    if k > 0 && a != 0 && b != 0 {
      BitOrBound(a / 2, b / 2, k - 1);
    }
  }

  /** Shifting right distributes over OR. */
  lemma {:induction false} ShrBitOr(a: nat, b: nat, n: nat)
    ensures Shr(BitOr(a, b), n) == BitOr(Shr(a, n), Shr(b, n))
    decreases n
  {
    if n > 0 {
      assert BitOr(a, b) / 2 == BitOr(a / 2, b / 2);
      ShrBitOr(a / 2, b / 2, n - 1);
    }
  }

  /** What is below `2^(n+m)` is below `2^m` after `n` halvings. */
  lemma {:induction false} ShrBound(x: nat, n: nat, m: nat)
    requires x < Pow2(n + m)
    ensures Shr(x, n) < Pow2(m)
    decreases n
  {
    if n > 0 {
      ShrBound(x / 2, n - 1, m);
    }
  }

  /** `n` halvings of `2^n * q + r`, with `r` below `2^n`, leave `q`. */
  lemma {:induction false} ShrMultiple(q: nat, r: nat, n: nat)
    requires r < Pow2(n)
    ensures Shr(Pow2(n) * q + r, n) == q
    decreases n
  {
    if n > 0 {
      var x := Pow2(n - 1) * q;
      assert Pow2(n) * q + r == 2 * (x + r / 2) + r % 2;
      ShrMultiple(q, r / 2, n - 1);
    }
  }

  /** OR with an all-ones value absorbs anything no wider. */
  lemma {:induction false} BitOrOnes(b: nat, n: nat)
    requires b < Pow2(n)
    ensures BitOr(Pow2(n) - 1, b) == Pow2(n) - 1
    decreases n
  {
    if n > 0 && b != 0 {
      BitOrOnes(b / 2, n - 1);
    }
  }

  /** For components in 0..255 the shifts and ORs of toRGB24 are `R*65536 + G*256 + B`. */
  lemma Packed(c: Rgb)
    ensures InRange(c) ==> Or32(Or32(Shl32(c.r, 16), Shl32(c.g, 8)), c.b) == 0x1_0000 * c.r + 0x100 * c.g + c.b
  {
    if InRange(c) {
      PackedInRange(c);
    }
  }

  lemma PackedInRange(c: Rgb)
    requires InRange(c)
    ensures Or32(Or32(Shl32(c.r, 16), Shl32(c.g, 8)), c.b) == 0x1_0000 * c.r + 0x100 * c.g + c.b
  {
    Pow2Bytes();
    var s1, s2 := Shl32(c.r, 16), Shl32(c.g, 8);
    assert s1 == Pow2(16) * c.r by {
      ShlSmall(c.r, 16);
    }
    assert s2 == 0x100 * c.g by {
      ShlSmall(c.g, 8);
    }
    assert Or32(s1, s2) == Pow2(8) * (0x100 * c.r + c.g) by {
      OrBelow(c.r, 0x100 * c.g, 16);
      assert Pow2(16) * c.r + 0x100 * c.g == Pow2(8) * (0x100 * c.r + c.g);
    }
    OrBelow(0x100 * c.r + c.g, c.b, 8);
  }

  /** A shift that stays below 2^31 is a multiplication. */
  lemma ShlSmall(v: nat, n: nat)
    requires n < 32 && v * Pow2(n) < 0x8000_0000
    ensures Shl32(v, n) == Pow2(n) * v
  {
  }

  /** OR-ing a multiple of 2^k with a value below 2^k is their sum, as long as it stays below 2^31. */
  lemma OrBelow(q: nat, lo: nat, k: nat)
    requires lo < Pow2(k) && Pow2(k) * q + lo < 0x8000_0000
    ensures Or32(Pow2(k) * q, lo) == Pow2(k) * q + lo
  {
    var hi := Pow2(k) * q;
    assert Bits32(hi) == hi;
    OrPattern(hi, q, lo, k);
    WrapOfBits(Or32(hi, lo));
  }

  /**
   * OR-ing an Int whose bit pattern is a multiple of 2^k with a value below 2^k adds the value
   * to the bit pattern.
   */
  lemma OrPattern(x: int, q: nat, lo: nat, k: nat)
    requires Bits32(x) == Pow2(k) * q && lo < Pow2(k) && Pow2(k) * q + lo < 0x1_0000_0000
    ensures Bits32(Or32(x, lo)) == Pow2(k) * q + lo
  {
    var hi := Pow2(k) * q;
    assert Bits32(lo) == lo by {
      assert 0 <= hi;
    }
    assert BitOr(Bits32(x), Bits32(lo)) == hi + lo by {
      BitOrDisjoint(q, lo, k);
    }
    BitsOfWrap(hi + lo);
  }



  /** The packed value gives each component back: `shr` and `and 0xFF` invert the packing. */
  lemma Rgb24Components(c: Rgb)
    requires InRange(c)
    ensures RedComponent(ToRgb24(c)) == c.r && GreenComponent(ToRgb24(c)) == c.g && BlueComponent(ToRgb24(c)) == c.b
  {
    Unpack(ToRgb24(c), c.r, c.g, c.b);
  }

  /** The arithmetic of unpacking `R*65536 + G*256 + B`. */
  lemma Unpack(v: int, r: int, g: int, b: int)
    requires 0 <= r < 0x100 && 0 <= g < 0x100 && 0 <= b < 0x100 && v == 0x1_0000 * r + 0x100 * g + b
    ensures RedComponent(v) == r && GreenComponent(v) == g && BlueComponent(v) == b
  {
    assert v / 0x1_0000 == r;
    assert v / 0x100 == 0x100 * r + g;
  }

  /** OR-ing any Int into -0x1000000 leaves its top byte all ones. */
  lemma OpaqueOr(v: int)
    ensures Alpha(Or32(-0x100_0000, v)) == 0xFF
  {
    Pow2Bytes();
    var hi, lo := Bits32(-0x100_0000), Bits32(v);
    assert hi == 0xFF00_0000;
    BitOrBound(hi, lo, 32);
    BitsOfWrap(BitOr(hi, lo));
    TopByteOnes(lo);
  }

  /** A bit pattern wrapped to an Int reads back as the same pattern. */
  lemma BitsOfWrap(w: nat)
    requires w < 0x1_0000_0000
    ensures Bits32(Wrap32(w)) == w
  {
    assert w % 0x1_0000_0000 == w;
    assert Wrap32(w) as int == (if w < 0x8000_0000 then w as int else w as int - 0x1_0000_0000);
  }

  /** The top byte of `0xFF000000 or lo` is 0xFF for any 32-bit pattern `lo`. */
  lemma TopByteOnes(lo: nat)
    requires lo < 0x1_0000_0000
    ensures Shr(BitOr(0xFF00_0000, lo), 24) == 0xFF
  {
    Pow2Bytes();
    ShrBitOr(0xFF00_0000, lo, 24);
    ShrMultiple(0xFF, 0, 24);
    ShrBound(lo, 24, 8);
    BitOrOnes(Shr(lo, 24), 8);
  }

  /** OR-ing a 24-bit value into -0x1000000 adds 0xFF000000 to it; nothing is said of other values. */
  lemma OpaqueBits(v: int)
    ensures 0 <= v < 0x100_0000 ==> Bits32(Or32(-0x100_0000, v)) == 0xFF00_0000 + v
  {
    if 0 <= v < 0x100_0000 {
      OpaqueOrSmall(v);
    }
  }

  /** OR-ing a 24-bit value into -0x1000000 adds 0xFF000000 to it. */
  lemma OpaqueOrSmall(v: int)
    requires 0 <= v < 0x100_0000
    ensures Bits32(Or32(-0x100_0000, v)) == 0xFF00_0000 + v
  {
    Pow2Bytes();
    var hi := Bits32(-0x100_0000);
    assert hi == Pow2(24) * 0xFF;
    assert Bits32(v) == v;
    BitOrDisjoint(0xFF, v, 24);
    var w := BitOr(hi, Bits32(v));
    assert w == 0xFF00_0000 + v;
    assert w % 0x1_0000_0000 == w;
    assert Wrap32(w) as int == w as int - 0x1_0000_0000;
  }

  /** LightSensor.Color */
  datatype Color = Transparent | Black | Blue | Green | Yellow | Red | White | Brown

  /**
   * Color.toARGB32: a table. Brown's entry is written in the source as an expression; the table
   * holds its value, and BrownArgb proves the two equal.
   */
  function ColorArgb32(c: Color): (v: i32)
    ensures v == 0 <==> c == Transparent
    ensures c != Transparent ==> v < 0
  {
    match c
    case Transparent => 0
    case Black => -0x100_0000
    case Blue => -0xFF_FF01
    case Green => -0xFF_0100
    case Yellow => -0x100
    case Red => -0x1_0000
    case White => -1
    case Brown => -0x4B_71A4 // the value of BrownExpression, by BrownArgb
  }

  /** The components each opaque colour stands for. */
  function ColorRgb(c: Color): Rgb
  {
    match c
    case Transparent => Rgb(0, 0, 0)
    case Black => Rgb(0, 0, 0)
    case Blue => Rgb(0, 0, 0xFF)
    case Green => Rgb(0, 0xFF, 0)
    case Yellow => Rgb(0xFF, 0xFF, 0)
    case Red => Rgb(0xFF, 0, 0)
    case White => Rgb(0xFF, 0xFF, 0xFF)
    case Brown => Rgb(180, 142, 92)
  }

  /**
   * The table agrees with Rgb.toARGB32 on every opaque colour: black is 0xFF000000, blue
   * 0xFF0000FF, green 0xFF00FF00, yellow 0xFFFFFF00, red 0xFFFF0000, white 0xFFFFFFFF and brown
   * 0xFFB48E5C.
   */
  lemma ColorTableIsArgb(c: Color)
    requires c != Transparent
    ensures ColorArgb32(c) == ToArgb32(ColorRgb(c))
  {
    TableWrapped(c);
    TableEntry(c, ColorRgb(c));
  }

  /** Each opaque entry of the table is the Int with the bit pattern 0xFF, R, G, B of its colour. */
  lemma TableWrapped(c: Color)
    requires c != Transparent
    ensures var rgb := ColorRgb(c);
      InRange(rgb) && ColorArgb32(c) == Wrap32(0xFF00_0000 + 0x1_0000 * rgb.r + 0x100 * rgb.g + rgb.b)
  {
  }

  /** One row of the table: an entry holding the wrapped pattern 0xFF, R, G, B is toARGB32 of (R, G, B). */
  lemma TableEntry(c: Color, rgb: Rgb)
    requires ColorRgb(c) == rgb && InRange(rgb)
    requires ColorArgb32(c) == Wrap32(0xFF00_0000 + 0x1_0000 * rgb.r + 0x100 * rgb.g + rgb.b)
    ensures ColorArgb32(c) == ToArgb32(ColorRgb(c))
  {
    ArgbWrapped(rgb);
  }

  /** Transparent is the one colour whose alpha channel is clear; every other is fully opaque. */
  lemma OnlyTransparentIsClear(c: Color)
    ensures c == Transparent <==> Alpha(ColorArgb32(c)) == 0
    ensures c != Transparent ==> Alpha(ColorArgb32(c)) == 0xFF
  {
    if c == Transparent {
      ShrMultiple(0, 0, 24);
    } else {
      ColorTableIsArgb(c);
    }
  }

  /** For components in 0..255, toARGB32 is the Int whose bit pattern is 0xFF, R, G, B. */
  lemma ArgbWrapped(c: Rgb)
    requires InRange(c)
    ensures ToArgb32(c) == Wrap32(0xFF00_0000 + 0x1_0000 * c.r + 0x100 * c.g + c.b)
  {
    WrapOfBits(ToArgb32(c));
  }

  /** An Int is the wrap of its own bit pattern. */
  lemma WrapOfBits(x: i32)
    ensures Wrap32(Bits32(x)) == x
  {
    if x < 0 {
      assert Bits32(x) == x + 0x1_0000_0000;
    }
  }

  /** The source's entry for brown: `-0x1000000 or (180 shl 16) or (142 shl 8) or 92`. */
  function BrownExpression(): i32
  {
    Or32(Or32(Or32(-0x100_0000, Shl32(180, 16)), Shl32(142, 8)), 92)
  }

  /** Brown's expression is the Int with bit pattern 0xFFB48E5C, the value the table holds. */
  lemma BrownArgb()
    ensures BrownExpression() == ColorArgb32(Brown) == Wrap32(0xFFB4_8E5C)
  {
    BrownBits();
    WrapOfBits(BrownExpression());
  }

  /** The three ORs of brown's expression, one at a time. */
  lemma BrownBits()
    ensures Bits32(BrownExpression()) == 0xFFB4_8E5C
  {
    Pow2Bytes();
    var x1 := Or32(-0x100_0000, Shl32(180, 16));
    var x2 := Or32(x1, Shl32(142, 8));
    assert Shl32(180, 16) == 0xB4_0000 && Shl32(142, 8) == 0x8E00;
    OpaqueOrSmall(0xB4_0000);
    OrPattern(x1, 0xFFB4, 0x8E00, 16);
    OrPattern(x2, 0xFF_B48E, 0x5C, 8);
  }
}

=== FILE: mission.dfy ===
/**
 * What the two mission steps share: the calls they make on the robot, the way they rewrite the
 * angle codes a Field returns, the effect of each kind of call on the arena, and the GO_TO_SAFE and
 * GO_TO_ORIGIN handlers, which FirstStep and SecondStep spell out identically.
 */
module Mission {
  import opened Wrappers
  import opened Points
  import opened Headings
  import opened Arena

  /** Mission.NUMBER_OF_BALLS: the step ends once this many balls lie in the safe zone. */
  const NumberOfBalls := 3

  /** The calls a step makes on the robot. */
  datatype RobotCommand = CoverDistance(distance: int) | RotateByAngle(angle: int) | CloseClaws | OpenClaws | StopEngine

  /** How a step rewrites an angle code before passing it to the robot. */
  datatype Widening =
    | AsIs     // passed on unchanged
    | Quarter  // GO_TO_SAFE: 8 becomes 9, -8 becomes -9, anything else 19
    | Loaded   // GO_TO_ORIGIN with a ball: 8 becomes 9 and 16 becomes 19, while -8 stays -8

  /**
   * The rewrite of the three turn codes keeps the side of the turn and adds at most 3 to its
   * size; AsIs changes nothing.
   */
  function Widen(w: Widening, angle: int): (r: int)
    ensures w == AsIs ==> r == angle
    ensures angle == 8 || angle == -8 || angle == 16 ==>
      Sign(r) == Sign(angle) && Abs(angle) <= Abs(r) <= Abs(angle) + 3
  {
    match w
    case AsIs => angle
    case Quarter => if angle == 8 then 9 else if angle == -8 then -9 else 19
    case Loaded => if angle == 8 then 9 else if angle == 16 then 19 else angle
  }

  function Sign(v: int): int
  {
    if v > 0 then 1 else if v < 0 then -1 else 0
  }

  /**
   * Widening never changes the side a turn goes to and never shortens it, except that a
   * GO_TO_SAFE rewrite of "no turn" would become a half turn (getAngleToRotateSafe never says "no turn").
   */
  lemma WidenKeepsSense(w: Widening, t: Turn)
    requires w == Quarter ==> t != Keep
    ensures Sign(Widen(w, t.Angle())) == Sign(t.Angle())
    ensures Abs(Widen(w, t.Angle())) >= Abs(t.Angle())
  {
  }

  /** The rotations GO_TO_SAFE sends are the two quarter turns, widened to 9 and -9. */
  lemma SafeRotationWidened(t: Turn)
    requires t == TurnLeft || t == TurnRight
    ensures Widen(Quarter, t.Angle()) == if t == TurnLeft then -9 else 9
  {
  }

  /**
   * With a ball on board a left turn toward the origin is passed on as -8, unlike the right and
   * half turns: the source compares the angle with -9 where it evidently meant to assign it.
   */
  lemma LoadedLeftTurnNotWidened()
    ensures Widen(Loaded, TurnLeft.Angle()) == TurnLeft.Angle()
    ensures Widen(Loaded, TurnRight.Angle()) != TurnRight.Angle()
    ensures Widen(Loaded, TurnAround.Angle()) != TurnAround.Angle()
  {
  }

  /** One handler's call on the robot, with the Field method it goes with. */
  datatype Act =
    | Idle                                            // no call; only the step's own state changes
    | Drive                                           // coverDistance(getDistanceToMove())
    | Reverse                                         // coverDistance(moveBack())
    | Rotate(rotation: Rotation, widening: Widening)  // rotateByAngle of a widened getAngleToRotate...()
    | Grab                                            // closeClaws() and ballGrabbed()
    | Release                                         // openClaws() and ballReleased()
    | Stop                                            // stopEngine()

  /** The calls an act makes on the robot, given the angle code the Field returned and the cell length. */
  function Emitted(act: Act, angle: int, cellLength: int): (cs: seq<RobotCommand>)
    ensures |cs| <= 1
    ensures cs == [] <==> act == Idle
    ensures act.Rotate? ==> cs == [RotateByAngle(Widen(act.widening, angle))]
  {
    match act
    case Idle => []
    case Drive => [CoverDistance(cellLength)]
    case Reverse => [CoverDistance(-cellLength)]
    case Rotate(_, w) => [RotateByAngle(Widen(w, angle))]
    case Grab => [CloseClaws]
    case Release => [OpenClaws]
    case Stop => [StopEngine]
  }

  /** setColorOfHoldingBall, when a colour is given, on the bookkeeping of a Field. */
  function Painted(p: Pose, paint: Option<BallColor>): (q: Pose)
    ensures q.(ballMap := p.ballMap) == p
  {
    if paint.Some? then p.(ballMap := Recolored(p.ballMap, p.lastPoint, paint.value)) else p
  }

  /** The bookkeeping of a Field after an act; `turn` is what the rotation decided. */
  function PoseAfter(p: Pose, act: Act, turn: Turn): (q: Pose)
    requires p.direction.Some?
    ensures q.started == p.started && q.originPosition == p.originPosition && q.ballMap == p.ballMap
    ensures q.direction.Some?
    ensures q.currentPosition != p.currentPosition ==> act == Drive || act == Reverse
    ensures q.lastPoint == if act == Grab then Some(p.currentPosition) else p.lastPoint
  {
    var d := p.direction.value;
    match act
    case Drive => p.(currentPosition := Ahead(p.currentPosition, d))
    case Reverse => p.(currentPosition := Behind(p.currentPosition, d))
    case Rotate(_, _) => p.(direction := Some(turn.Apply(d)))
    case Grab => p.(lastPoint := Some(p.currentPosition), lastDirection := p.direction)
    case _ => p
  }

  /** A cell of the grid after an act, from its value before and the robot's position and heading before. */
  function CellAfter(c: CellType, cell: Point, at: Point, d: Direction, act: Act): (r: CellType)
    ensures r != c ==> act == Drive || act == Reverse || (act == Release && cell == at)
    ensures r == Hidden ==> c == Hidden
  {
    match act
    case Drive => Remarked(c, cell == Ahead(at, d))
    case Reverse => Remarked(c, cell == Behind(at, d))
    case Release => if cell == at then SafeUnavailable else c
    case _ => c
  }

  /** The part of a step's state that GO_TO_SAFE reads and writes. */
  datatype Carry = Carry(holding: bool, balls: nat, moveBack: bool)

  /** Where GO_TO_SAFE hands over: stay, go to the origin, or go on (to the last point or the next ball). */
  datatype Exit = Stay | ToOrigin | Onward

  datatype SafeMove = SafeMove(act: Act, carry: Carry, exit: Exit)

  /**
   * moveToSafe: drive toward the safe cell while holding a ball, turn toward it, release the ball
   * there, back out once, and then leave: for the origin once all balls are in, else onward.
   */
  function SafeStep(k: Carry, canMoveToSafe: bool, inSafe: bool): (s: SafeMove)
    ensures s.act == Release <==> k.holding && inSafe && !canMoveToSafe
    ensures s.carry.balls == if s.act == Release then k.balls + 1 else k.balls
    ensures s.carry.holding <==> k.holding && s.act != Release
    ensures s.act == Release ==> s.carry.moveBack
    ensures s.act == Reverse <==> !k.holding && k.moveBack
    ensures s.exit != Stay <==> !k.holding && !k.moveBack
    ensures s.exit == ToOrigin <==> !k.holding && !k.moveBack && k.balls == NumberOfBalls
    ensures s.act in {Drive, Rotate(TowardSafe, Quarter), Release, Reverse, Idle}
  {
    if canMoveToSafe && k.holding then SafeMove(Drive, k, Stay)
    else if !inSafe && k.holding then SafeMove(Rotate(TowardSafe, Quarter), k, Stay)
    else if inSafe && k.holding then SafeMove(Release, Carry(false, k.balls + 1, true), Stay)
    else if !k.holding && k.moveBack then SafeMove(Reverse, k.(moveBack := false), Stay)
    else if k.balls == NumberOfBalls then SafeMove(Idle, k, ToOrigin)
    else SafeMove(Idle, k, Onward)
  }

  datatype OriginMove = OriginMove(act: Act, toSafe: bool)

  /**
   * moveToOrigin after the colour bookkeeping: drive toward the origin, turn (widened while
   * holding a ball), and once there either head for the safe cell with the ball or stop.
   */
  function OriginStep(holding: bool, canMoveToOrigin: bool, inOrigin: bool): (o: OriginMove)
    ensures o.toSafe <==> holding && inOrigin && !canMoveToOrigin
    ensures o.act == Stop <==> !holding && inOrigin && !canMoveToOrigin
    ensures o.act == Drive <==> canMoveToOrigin
    ensures o.act.Rotate? <==> !canMoveToOrigin && !inOrigin
    ensures o.act.Rotate? ==> o.act.rotation == TowardOrigin && (o.act.widening == Loaded <==> holding)
    ensures o.act !in {Grab, Release, Reverse}
  {
    if canMoveToOrigin then OriginMove(Drive, false)
    else if !inOrigin then OriginMove(Rotate(TowardOrigin, if holding then Loaded else AsIs), false)
    else if holding then OriginMove(Idle, true)
    else OriginMove(Stop, false)
  }

  /** The robot a step drives: the calls made on it so far, oldest first. */
  class Robot {
    var commands: seq<RobotCommand>

    constructor ()
      ensures commands == []
    {
      commands := [];
    }

    method Send(c: RobotCommand)
      modifies this
      ensures commands == old(commands) + [c]
    {
      commands := commands + [c];
    }
  }

  /** A started square arena with a heading: what every handler needs. */
  ghost predicate Ready(field: Field)
    reads field, field.grid
  {
    field.Valid() && field.started && field.direction.Some? && field.Square()
  }

  /** The turn a Rotate act would decide now; Keep for every other act. */
  function TurnOf(field: Field, act: Act): Turn
    reads field, field.grid
    requires field.started && field.direction.Some? && field.Square()
  {
    if act.Rotate? && (act.rotation != TowardLastDirection || field.lastDirection.Some?) then field.TurnFor(act.rotation) else Keep
  }

  /** The arena and the robot's log after an act, as the pure model says. */
  twostate predicate Performed(field: Field, robot: Robot, paint: Option<BallColor>, act: Act, turn: Turn)
    reads field, field.grid, robot
  {
    old(field.direction).Some?
    && field.Snapshot() == PoseAfter(Painted(old(field.Snapshot()), paint), act, turn)
    && (forall y, x :: 0 <= y < field.grid.Length0 && 0 <= x < field.grid.Length1 ==>
          field.grid[y, x] == CellAfter(old(field.grid[y, x]), Point(x, y), old(field.currentPosition), old(field.direction.value), act))
    && robot.commands == old(robot.commands) + Emitted(act, turn.Angle(), field.cellLength)
  }

  /**
   * Records the held ball's colour when asked, then makes the act's call on the robot with the
   * distance or the widened angle the Field returns.
   */
  method Perform(field: Field, robot: Robot, paint: Option<BallColor>, act: Act)
    requires Ready(field)
    requires act == Release ==> field.InSafe()
    requires act.Rotate? && act.rotation == TowardLastDirection ==> field.lastDirection.Some?
    modifies field, field.grid, robot
    ensures Ready(field)
    ensures Performed(field, robot, paint, act, old(TurnOf(field, act)))
  {
    if paint.Some? {
      field.SetColorOfHoldingBall(paint.value);
      if act.Rotate? && (act.rotation != TowardLastDirection || field.lastDirection.Some?) {
        field.RecolorKeepsTurn(act.rotation);
      }
      if act == Release {
        field.RecolorKeepsSafe();
      }
    }
    Execute(field, robot, act);
  }

  /** The act alone: its call on the robot and the Field method that goes with it. */
  method Execute(field: Field, robot: Robot, act: Act)
    requires Ready(field)
    requires act == Release ==> field.InSafe()
    requires act.Rotate? && act.rotation == TowardLastDirection ==> field.lastDirection.Some?
    modifies field, field.grid, robot
    ensures Ready(field)
    ensures Performed(field, robot, None, act, old(TurnOf(field, act)))
  {
    match act
    case Idle =>
    case Drive => DriveOn(field, robot);
    case Reverse => BackOff(field, robot);
    case Rotate(r, w) => TurnBy(field, robot, r, w);
    case Grab => GrabBall(field, robot);
    case Release => ReleaseBall(field, robot);
    case Stop => robot.Send(StopEngine);
  }

  /** coverDistance(getDistanceToMove()) */
  method DriveOn(field: Field, robot: Robot)
    requires Ready(field)
    modifies field, field.grid, robot
    ensures Ready(field)
    ensures Performed(field, robot, None, Drive, Keep)
  {
    var d := field.GetDistanceToMove();
    robot.Send(CoverDistance(d));
  }

  /** coverDistance(moveBack()) */
  method BackOff(field: Field, robot: Robot)
    requires Ready(field)
    modifies field, field.grid, robot
    ensures Ready(field)
    ensures Performed(field, robot, None, Reverse, Keep)
  {
    var d := field.MoveBack();
    robot.Send(CoverDistance(d));
  }

  /** rotateByAngle of the widened angle code of a rotation. */
  method TurnBy(field: Field, robot: Robot, r: Rotation, w: Widening)
    requires Ready(field)
    requires r == TowardLastDirection ==> field.lastDirection.Some?
    modifies field, robot
    ensures Ready(field)
    ensures Performed(field, robot, None, Rotate(r, w), old(field.TurnFor(r)))
  {
    var angle := field.RotateFor(r);
    robot.Send(RotateByAngle(Widen(w, angle)));
  }

  /** closeClaws() and ballGrabbed() */
  method GrabBall(field: Field, robot: Robot)
    requires Ready(field)
    modifies field, robot
    ensures Ready(field)
    ensures Performed(field, robot, None, Grab, Keep)
  {
    robot.Send(CloseClaws);
    field.BallGrabbed();
  }

  /** openClaws() and ballReleased(); the robot stands on the safe cell, which lies inside the grid. */
  method ReleaseBall(field: Field, robot: Robot)
    requires Ready(field) && field.InSafe()
    modifies field.grid, robot
    ensures Ready(field)
    ensures Performed(field, robot, None, Release, Keep)
  {
    robot.Send(OpenClaws);
    field.InSafeOnRing();
    field.BallReleased();
  }

}

=== FILE: point.dfy ===
/**
 * The arena coordinate `Point(x, y)`: a data class whose `equals` compares components,
 * whose `hashCode` is `31 * hash(x) + hash(y)` and whose text is "(x, y)".
 */
module Points {

  import opened Wrappers
  import opened Bytes
  import opened Decimal

  datatype Point = Point(x: int, y: int)

  /** What `equals(other: Any?)` may be handed: a point, null, or an object of another class. */
  datatype Other = PointObject(p: Point) | NullObject | ForeignObject(id: int)

  /** `equals`: true exactly for another point with the same components. */
  function Equals(p: Point, other: Other): (r: bool)
    ensures r <==> other == PointObject(p)
  {
    match other
    case PointObject(q) => p.x == q.x && p.y == q.y
    case _ => false
  }

  /** Kotlin's `Int.hashCode()` is the value itself. */
  function HashInt(v: int): i32
  {
    Wrap32(v)
  }

  /** `hashCode`: `31 * hash(x) + hash(y)` in 32-bit arithmetic. */
  function HashCode(p: Point): (h: i32)
    ensures (h - (31 * HashInt(p.x) + HashInt(p.y))) % 0x1_0000_0000 == 0
  {
    Wrap32(31 * HashInt(p.x) + HashInt(p.y))
  }

  /** `toString`: "(x, y)". */
  function ToString(p: Point): (s: string)
    ensures |s| >= 6 && s[0] == '(' && s[|s| - 1] == ')'
  {
    "(" + IntText(p.x) + ", " + IntText(p.y) + ")"
  }

  /** The index of the first `c` in `s`, or `|s|` when there is none. */
  function IndexOf(s: string, c: char): (k: nat)
    ensures k <= |s|
    ensures forall i :: 0 <= i < k ==> s[i] != c
    ensures k < |s| ==> s[k] == c
  {
    if |s| == 0 then 0 else if s[0] == c then 0 else 1 + IndexOf(s[1..], c)
  }

  /** `IndexOf` finds the first occurrence. */
  lemma {:induction false} IndexOfFirst(s: string, c: char, k: nat)
    requires k < |s| && s[k] == c
    requires forall i :: 0 <= i < k ==> s[i] != c
    ensures IndexOf(s, c) == k
  {
    if k > 0 {
      IndexOfFirst(s[1..], c, k - 1);
    }
  }

  /** Reads "(x, y)" back into a point. */
  function ParsePoint(s: string): Option<Point>
  {
    if |s| < 2 || s[0] != '(' || s[|s| - 1] != ')' then None
    else
      var inner := s[1..|s| - 1];
      var k := IndexOf(inner, ',');
      if k + 1 >= |inner| || inner[k + 1] != ' ' then None
      else
        match (ParseInt(inner[..k]), ParseInt(inner[k + 2..]))
        case (Some(x), Some(y)) => Some(Point(x, y))
        case _ => None
  }

  /** equals is reflexive. */
  lemma EqualsReflexive(p: Point)
    ensures Equals(p, PointObject(p))
  {
  }

  /** equals is symmetric between points. */
  lemma EqualsSymmetric(p: Point, q: Point)
    ensures Equals(p, PointObject(q)) == Equals(q, PointObject(p))
  {
  }

  /** equals is transitive between points. */
  lemma EqualsTransitive(p: Point, q: Point, r: Point)
    requires Equals(p, PointObject(q)) && Equals(q, PointObject(r))
    ensures Equals(p, PointObject(r))
  {
  }

  /** Equal points have equal hash codes, as the `hashCode` contract requires. */
  lemma EqualsHashCode(p: Point, other: Point)
    requires Equals(p, PointObject(other))
    ensures HashCode(p) == HashCode(other)
  {
  }

  /** A fresh copy `Point(p.x, p.y)` equals `p`, so copying the current position keeps it findable. */
  lemma CopyEquals(p: Point)
    ensures Equals(Point(p.x, p.y), PointObject(p))
  {
  }

  /** The text of a point reads back as the point, so distinct points print differently. */
  lemma ToStringRoundTrip(p: Point)
    ensures ParsePoint(ToString(p)) == Some(p)
  {
    var a, b := IntText(p.x), IntText(p.y);
    var s := ToString(p);
    var inner := s[1..|s| - 1];
    assert inner == a + ", " + b;
    assert forall i :: 0 <= i < |a| ==> inner[i] == a[i] && inner[i] != ',';
    IndexOfFirst(inner, ',', |a|);
    assert inner[..|a|] == a;
    assert inner[|a| + 2..] == b;
    IntTextRoundTrip(p.x);
    IntTextRoundTrip(p.y);
  }

  /** Distinct points print differently. */
  lemma ToStringInjective(p: Point, q: Point)
    requires ToString(p) == ToString(q)
    ensures p == q
  {
    ToStringRoundTrip(p);
    ToStringRoundTrip(q);
  }
}

=== FILE: ports.dfy ===
/**
 * The four output ports A..D and the four input ports 1..4 of the EV3 brick, with the byte
 * encodings direct commands address them by.
 */
module Ports {
  import opened Wrappers
  import opened Bytes
  import opened Decimal

  /** EV3OutputPort */
  datatype OutputPort = A | B | C | D {

    /** toByte: the port's number. */
    function ToByte(): (b: i8)
      ensures 0 <= b < 4
    {
      match this
      case A => 0
      case B => 1
      case C => 2
      case D => 3
    }

    /** toBitmask: `1 shl toByte()`, truncated to a Byte: one bit per port. */
    function Bitmask(): (m: i8)
      ensures m == Pow2(ToByte()) && m in {1, 2, 4, 8}
    {
      ToI8(Pow2(ToByte()))
    }

    /** toByteAsRead: `toByte() or 0x10`, the code by which an output port is read like an input. */
    function ByteAsRead(): (b: i8)
      ensures b == ToByte() + 0x10 && 0x10 <= b <= 0x13
    {
      BitOrDisjoint(1, ToByte(), 4);
      BitOr(0x10, ToByte())
    }

    /** The enum constant's name. */
    function Name(): string
    {
      match this
      case A => "A"
      case B => "B"
      case C => "C"
      case D => "D"
    }

    /** toString: "Out/" and the name. */
    function ToString(): (s: string)
      ensures |s| == 5 && s[..4] == "Out/" && s[4..] == Name()
    {
      "Out/" + Name()
    }
  }

  /** The output port a number names: the inverse of toByte. */
  function OutputPortOf(b: int): (p: Option<OutputPort>)
    ensures p.Some? <==> 0 <= b < 4
    ensures p.Some? ==> p.value.ToByte() == b
  {
    if b == 0 then Some(A) else if b == 1 then Some(B) else if b == 2 then Some(C)
    else if b == 3 then Some(D) else None
  }

  /** Every output port is found again from its number, so toByte is injective onto 0..3. */
  lemma OutputPortOfToByte(p: OutputPort)
    ensures OutputPortOf(p.ToByte()) == Some(p)
  {
  }

  /**
   * Distinct ports have disjoint bitmasks, and each is a single bit: clearing its lowest set bit
   * leaves nothing, so masks of several ports can be OR-ed together and told apart.
   */
  lemma BitmasksDisjoint(p: OutputPort, q: OutputPort)
    ensures BitOr(p.Bitmask(), q.Bitmask()) == p.Bitmask() + q.Bitmask() <== p != q
    ensures p.Bitmask() != q.Bitmask() <== p != q
    ensures (p.Bitmask() as bv8) & (p.Bitmask() as bv8 - 1) == 0
  {
    if p != q {
      if p.ToByte() < q.ToByte() {
        OrOfMasks(p, q);
        BitOrCommutes(q.Bitmask(), p.Bitmask());
      } else {
        OrOfMasks(q, p);
      }
    }
    SingleBit(p.Bitmask());
  }

  /** The mask of a lower port ORed with the mask of a higher one is their sum. */
  lemma OrOfMasks(lo: OutputPort, hi: OutputPort)
    requires lo.ToByte() < hi.ToByte()
    ensures BitOr(hi.Bitmask(), lo.Bitmask()) == hi.Bitmask() + lo.Bitmask()
  {
    var k := lo.ToByte() as nat + 1;
    PowAdd(k, hi.ToByte() as nat - k);
    BitOrDisjoint(Pow2(hi.ToByte() as nat - k), lo.Bitmask(), k);
  }

  /** Each of the four masks is a single bit. */
  lemma SingleBit(m: i8)
    requires m in {1, 2, 4, 8}
    ensures (m as bv8) & (m as bv8 - 1) == 0
  {
  }

  /** Every output port's read code is distinct from every other's. */
  lemma ByteAsReadInjective(p: OutputPort, q: OutputPort)
    ensures p.ByteAsRead() == q.ByteAsRead() <==> p == q
  {
    OutputPortOfToByte(p);
    OutputPortOfToByte(q);
  }

  /** EV3InputPort: the source's constants `_1`.. `_4`. */
  datatype InputPort = In1 | In2 | In3 | In4 {

    /** toByte: port n is numbered n - 1. */
    function ToByte(): (b: i8)
      ensures 0 <= b < 4
    {
      match this
      case In1 => 0
      case In2 => 1
      case In3 => 2
      case In4 => 3
    }

    /** toString: "In/" and the port's number as `%d` prints it. */
    function ToString(): (s: string)
      ensures s == "In/" + [DigitChar(ToByte())]
    {
      "In/" + IntText(ToByte())
    }
  }

  /** The input port a number names: the inverse of toByte. */
  function InputPortOf(b: int): (p: Option<InputPort>)
    ensures p.Some? <==> 0 <= b < 4
    ensures p.Some? ==> p.value.ToByte() == b
  {
    if b == 0 then Some(In1) else if b == 1 then Some(In2) else if b == 2 then Some(In3)
    else if b == 3 then Some(In4) else None
  }

  /** toByte is injective and its range is exactly 0..3. */
  lemma InputPortOfToByte(p: InputPort)
    ensures InputPortOf(p.ToByte()) == Some(p)
  {
  }

  /** Distinct input ports print differently; port 1 prints "In/0". */
  lemma InputToStringInjective(p: InputPort, q: InputPort)
    ensures p.ToString() == q.ToString() <==> p == q
    ensures In1.ToString() == "In/0"
  {
    if p.ToString() == q.ToString() {
      assert p.ToString()[3] == q.ToString()[3];
      assert DigitValue(DigitChar(p.ToByte())) == DigitValue(DigitChar(q.ToByte()));
      InputPortOfToByte(p);
      InputPortOfToByte(q);
    }
  }

  /** Distinct output ports print differently. */
  lemma OutputToStringInjective(p: OutputPort, q: OutputPort)
    ensures p.ToString() == q.ToString() <==> p == q
  {
    if p.ToString() == q.ToString() {
      assert p.ToString()[4] == q.ToString()[4];
    }
  }
}

=== FILE: reply.dfy ===
/**
 * A reply from the brick: the message counter, a status byte and the payload that follows them.
 */
module Replies {
  import opened Wrappers
  import opened Bytes
  import opened Commands

  /** The status bytes a brick sends. */
  const DirectCommandSuccess: u8 := 0x02
  const DirectCommandFail: u8 := 0x04

  datatype Reply = Reply(counter: int, error: bool, data: seq<u8>)

  /**
   * The Reply constructor. With fewer than 2 bytes reading `bytes[1]` throws, and with exactly 2
   * the payload array would have a negative size: both are the None case.
   */
  function Parse(bytes: seq<u8>): (r: Option<Reply>)
    ensures r.Some? <==> |bytes| >= 3
    ensures r.Some? ==> 0 <= r.value.counter < 0x1_0000 && |r.value.data| == |bytes| - 3
  {
    if |bytes| < 3 then None
    else Some(Reply(Unsigned16(bytes[0], bytes[1]), bytes[2] != DirectCommandSuccess, bytes[3..]))
  }

  /** The bytes a brick sends for a reply with this counter, status byte and payload. */
  function ReplyBytes(counter: int, status: u8, data: seq<u8>): seq<u8>
  {
    Le16(counter) + [status] + data
  }

  /** A reply is read back exactly, and only the success status reads as no error. */
  lemma ParseReplyBytes(counter: int, status: u8, data: seq<u8>)
    requires 0 <= counter < 0x1_0000
    ensures Parse(ReplyBytes(counter, status, data)) == Some(Reply(counter, status != DirectCommandSuccess, data))
  {
    Le16UnsignedRoundTrip(counter);
    assert ReplyBytes(counter, status, data)[3..] == data;
  }

  /** Conversely, every byte run of 3 or more is the reply it parses to, with its own status byte. */
  lemma ReplyBytesOfParse(bytes: seq<u8>)
    requires |bytes| >= 3
    ensures ReplyBytes(Parse(bytes).value.counter, bytes[2], Parse(bytes).value.data) == bytes
  {
    var c := Unsigned16(bytes[0], bytes[1]);
    assert c / 0x100 == bytes[1];
  }

  /** The failure status, like every other status byte but 0x02, is reported as an error. */
  lemma FailIsError(bytes: seq<u8>)
    requires |bytes| >= 3
    ensures Parse(bytes).value.error <==> bytes[2] != DirectCommandSuccess
    ensures bytes[2] == DirectCommandFail ==> Parse(bytes).value.error
  {
  }

  /** The counter a reply is read with inverts the counter encoding of a command, modulo 65536. */
  lemma CounterMatchesCommand(counter: int, hasReply: bool, local: int, global: int, data: seq<u8>)
    ensures Parse(Marshalled(counter, hasReply, local, global, data)).value.counter == counter % 0x1_0000
  {
    var q := counter / 0x100;
    assert counter == counter % 0x100 + 0x100 * q;
  }
}

=== FILE: second_step.dfy ===
/**
 * SecondStep: the ball positions are known in advance; the robot drives to the next one, grabs it,
 * carries it to the origin and then to the safe cell, and heads for the next ball.
 */
module SecondStepMission {
  import opened Wrappers
  import opened Points
  import opened Headings
  import opened Arena
  import opened Mission

  datatype State = GoToBall | GoToSafe | GoToOrigin

  /** The step's own variables. */
  datatype Control = Control(state: State, holding: bool, balls: nat, moveBack: bool, colorCaught: bool)

  /** Everything one execute call observes, all of it before the handler changes anything; the ball ones are about the next ball of the list. */
  datatype Sight = Sight(
    canMoveToBall: bool,
    atBall: bool,
    canMoveToSafe: bool,
    inSafe: bool,
    canMoveToOrigin: bool,
    inOrigin: bool)

  /** What one execute call does: the call on the robot, whether the ball's colour is recorded, the next variables. */
  datatype Plan = Plan(act: Act, recolor: bool, next: Control)

  const Initial := Control(GoToBall, false, 0, false, false)

  /** The relations between the step's variables that every execute call keeps. */
  predicate Consistent(c: Control)
  {
    c.balls <= NumberOfBalls
    && (c.holding ==> c.balls < NumberOfBalls && c.state in {GoToOrigin, GoToSafe})
    && (c.moveBack ==> !c.holding && c.state == GoToSafe)
    && (c.state == GoToBall ==> c.balls < NumberOfBalls)
    && (c.state == GoToSafe ==> c.holding || c.balls > 0)
  }

  /** moveToBall: drive toward the ball while the way is clear, else turn, and grab it once on its cell. */
  function BallPlan(c: Control, canMoveToBall: bool, atBall: bool): (p: Plan)
    ensures !p.recolor && p.next.balls == c.balls && p.next.moveBack == c.moveBack
    ensures p.act in {Drive, Rotate(TowardBall, AsIs), Grab}
    ensures p.act == Grab <==> !canMoveToBall && atBall
    ensures p.act == Grab ==> p.next == c.(state := GoToOrigin, holding := true, colorCaught := false)
    ensures p.act != Grab ==> p.next == c
  {
    if canMoveToBall then Plan(Drive, false, c)
    else if !atBall then Plan(Rotate(TowardBall, AsIs), false, c)
    else Plan(Grab, false, c.(state := GoToOrigin, holding := true, colorCaught := false))
  }

  /** moveToSafe, with the hand-over to GO_TO_BALL for the next ball. */
  function SafePlan(c: Control, canMoveToSafe: bool, inSafe: bool): (p: Plan)
    ensures !p.recolor && p.next.colorCaught == c.colorCaught
    ensures p.act in {Drive, Rotate(TowardSafe, Quarter), Release, Reverse, Idle}
    ensures p.next.balls == if p.act == Release then c.balls + 1 else c.balls
    ensures p.next.holding == (c.holding && p.act != Release)
    ensures p.act == Release ==> c.holding && inSafe
    ensures p.next.state != GoToSafe ==> !c.holding && !c.moveBack
    ensures p.next.state == GoToOrigin <==> !c.holding && !c.moveBack && c.balls == NumberOfBalls
  {
    var m := SafeStep(Carry(c.holding, c.balls, c.moveBack), canMoveToSafe, inSafe);
    var state := match m.exit case Stay => GoToSafe case ToOrigin => GoToOrigin case Onward => GoToBall;
    Plan(m.act, false, c.(state := state, holding := m.carry.holding, balls := m.carry.balls, moveBack := m.carry.moveBack))
  }

  /** moveToOrigin: record the colour of the held ball once, then the shared origin handler. */
  function OriginPlan(c: Control, canMoveToOrigin: bool, inOrigin: bool): (p: Plan)
    ensures p.next == c.(colorCaught := true, state := p.next.state)
    ensures p.recolor <==> !c.colorCaught
    ensures p.act !in {Grab, Release, Reverse}
    ensures p.act == Stop ==> inOrigin && !c.holding
    ensures p.next.state == if c.holding && inOrigin && !canMoveToOrigin then GoToSafe else GoToOrigin
  {
    var o := OriginStep(c.holding, canMoveToOrigin, inOrigin);
    Plan(o.act, !c.colorCaught, c.(colorCaught := true, state := if o.toSafe then GoToSafe else GoToOrigin))
  }

  /** One execute call: nothing while the robot is still moving, else the handler of the current state. */
  function Tick(isMoving: bool, c: Control, s: Sight): Plan
  {
    if isMoving then Plan(Idle, false, c)
    else match c.state
      case GoToBall => BallPlan(c, s.canMoveToBall, s.atBall)
      case GoToSafe => SafePlan(c, s.canMoveToSafe, s.inSafe)
      case GoToOrigin => OriginPlan(c, s.canMoveToOrigin, s.inOrigin)
  }

  /** Every execute call keeps the step's variables consistent. */
  lemma TickKeepsConsistent(isMoving: bool, c: Control, s: Sight)
    requires Consistent(c)
    ensures Consistent(Tick(isMoving, c, s).next)
  {
    var p := Tick(isMoving, c, s);
    if !isMoving {
      match c.state
      case GoToBall =>
        assert p == BallPlan(c, s.canMoveToBall, s.atBall);
      case GoToSafe =>
        assert p == SafePlan(c, s.canMoveToSafe, s.inSafe);
      case GoToOrigin =>
        assert p == OriginPlan(c, s.canMoveToOrigin, s.inOrigin);
    }
  }

  /** The ball count grows by one at a release and never changes otherwise. */
  lemma TickCountsRelease(isMoving: bool, c: Control, s: Sight)
    ensures Tick(isMoving, c, s).next.balls == if Tick(isMoving, c, s).act == Release then c.balls + 1 else c.balls
  {
  }

  /** The robot starts or stops holding a ball exactly when it grabs or releases one. */
  lemma TickChangesHoldingOnlyAtGrabOrRelease(isMoving: bool, c: Control, s: Sight)
    requires Consistent(c)
    ensures Tick(isMoving, c, s).next.holding != c.holding <==> Tick(isMoving, c, s).act in {Grab, Release}
  {
  }

  /**
   * A ball is grabbed only in GO_TO_BALL, standing on the ball's cell; it is released only in
   * GO_TO_SAFE, on the safe cell.
   */
  lemma TickGrabsAndReleasesWhere(isMoving: bool, c: Control, s: Sight)
    requires Consistent(c)
    ensures Tick(isMoving, c, s).act == Grab ==> !isMoving && c.state == GoToBall && s.atBall && !c.holding
    ensures Tick(isMoving, c, s).act == Release ==> !isMoving && c.state == GoToSafe && s.inSafe && c.holding
  {
  }

  /** The engine is stopped only at the origin, with no ball on board. */
  lemma TickStopsOnlyAtOrigin(isMoving: bool, c: Control, s: Sight)
    ensures Tick(isMoving, c, s).act == Stop ==> c.state == GoToOrigin && s.inOrigin && !c.holding
  {
  }

  /** After a release the robot backs off the safe cell and then makes for the next ball, unless all are in. */
  lemma TickAfterRelease(c: Control, s: Sight)
    requires Consistent(c) && c.state == GoToSafe && !c.holding
    ensures c.moveBack ==> Tick(false, c, s).act == Reverse && Tick(false, c, s).next == c.(moveBack := false)
    ensures !c.moveBack ==> Tick(false, c, s).act == Idle
    ensures !c.moveBack ==> Tick(false, c, s).next.state == if c.balls == NumberOfBalls then GoToOrigin else GoToBall
  {
  }

  /** The variables after a run of execute calls, one per observation; `moving[i]` says whether the robot was still moving. */
  function Run(c: Control, moving: seq<bool>, ss: seq<Sight>): Control
    requires |moving| == |ss|
    decreases |ss|
  {
    if ss == [] then c else Run(Tick(moving[0], c, ss[0]).next, moving[1..], ss[1..])
  }

  /** How many balls a run of execute calls releases. */
  function Releases(c: Control, moving: seq<bool>, ss: seq<Sight>): nat
    requires |moving| == |ss|
    decreases |ss|
  {
    if ss == [] then 0
    else
      var p := Tick(moving[0], c, ss[0]);
      (if p.act == Release then 1 else 0) + Releases(p.next, moving[1..], ss[1..])
  }

  /**
   * Over any run the ball count is exactly the number of releases, the variables stay consistent,
   * and in GO_TO_BALL the count is below NUMBER_OF_BALLS, so a ball list of NUMBER_OF_BALLS points
   * is never indexed past its end.
   */
  lemma {:induction false} RunCountsReleases(c: Control, moving: seq<bool>, ss: seq<Sight>)
    requires |moving| == |ss| && Consistent(c)
    ensures Consistent(Run(c, moving, ss))
    ensures Run(c, moving, ss).balls == c.balls + Releases(c, moving, ss)
    ensures Releases(c, moving, ss) <= NumberOfBalls - c.balls
    ensures Run(c, moving, ss).state == GoToBall ==> Run(c, moving, ss).balls < NumberOfBalls
    decreases |ss|
  {
    if ss != [] {
      var p := Tick(moving[0], c, ss[0]);
      TickKeepsConsistent(moving[0], c, ss[0]);
      RunCountsReleases(p.next, moving[1..], ss[1..]);
    }
  }

  class SecondStep {
    const field: Field
    const robot: Robot
    const ballList: seq<Point>
    var state: State
    var holdingBall: bool
    var ballsInSafe: nat
    var hasToMoveBack: bool
    var isColorCaught: bool

    function Vars(): Control
      reads this
    {
      Control(state, holdingBall, ballsInSafe, hasToMoveBack, isColorCaught)
    }

    /** A ready arena and consistent variables. */
    ghost predicate Valid()
      reads this, field, field.grid
    {
      Ready(field) && Consistent(Vars())
    }

    constructor (field: Field, robot: Robot, ballList: seq<Point>)
      requires Ready(field)
      ensures this.field == field && this.robot == robot && this.ballList == ballList && Vars() == Initial
      ensures Valid()
    {
      this.field, this.robot, this.ballList := field, robot, ballList;
      state, holdingBall, ballsInSafe := GoToBall, false, 0;
      hasToMoveBack, isColorCaught := false, false;
    }

    /** `ballList[ballsInSafe]` is read only in GO_TO_BALL; elsewhere any point will do. */
    function Target(): Point
      reads this
    {
      if ballsInSafe < |ballList| then ballList[ballsInSafe] else Point(0, 0)
    }

    /** What execute observes now. */
    ghost function SightOf(): Sight
      reads this, field, field.grid
      requires Valid()
    {
      Sight(
        field.CanMoveToBall(Target()),
        field.AtBall(Target()),
        field.CanMoveToSafe(),
        field.InSafe(),
        field.CanMoveToOrigin(),
        field.InOrigin())
    }

    /** The step's variables are the plan's, and the arena and the robot took the plan's act. */
    twostate predicate Stepped(p: Plan, turn: Turn, paint: Option<BallColor>)
      reads this, field, field.grid, robot
    {
      Vars() == p.next && Performed(field, robot, paint, p.act, turn)
    }

    /** The plan of the handler the current state selects, from the observations that handler makes. */
    ghost function Planned(isMoving: bool): Plan
      reads this, field, field.grid
      requires Valid()
    {
      if isMoving then Plan(Idle, false, Vars())
      else match state
        case GoToBall => BallPlan(Vars(), field.CanMoveToBall(Target()), field.AtBall(Target()))
        case GoToSafe => SafePlan(Vars(), field.CanMoveToSafe(), field.InSafe())
        case GoToOrigin => OriginPlan(Vars(), field.CanMoveToOrigin(), field.InOrigin())
    }

    /** Each handler reads only its part of the observations: the per-state plan is the Tick of all of them. */
    lemma PlannedIsTick(isMoving: bool)
      requires Valid()
      ensures Planned(isMoving) == Tick(isMoving, Vars(), SightOf())
    {
    }

    /** The termination test of execute. */
    ghost predicate Done()
      reads this, field, field.grid
    {
      (ballsInSafe == NumberOfBalls || field.Finished()) && field.InOrigin()
    }

    /**
     * One execute call, without the recursion. The source reads `ballList[ballsInSafe]` in GO_TO_BALL,
     * which throws past the end of the list; afterwards a grabbed ball's cell is that list entry.
     */
    method Step(isMoving: bool, color: BallColor) returns (done: bool)
      requires Valid()
      requires !isMoving && state == GoToBall ==> ballsInSafe < |ballList|
      modifies this, field, field.grid, robot
      ensures Valid()
      ensures var p := old(Tick(isMoving, Vars(), SightOf()));
        Stepped(p, old(TurnOf(field, p.act)), if p.recolor then Some(color) else None)
      ensures old(Tick(isMoving, Vars(), SightOf())).act == Grab ==> field.lastPoint == Some(ballList[old(ballsInSafe)])
      ensures old(field.Finished()) ==> field.Finished()
      ensures done <==> Done()
    {
      ghost var c, s := Vars(), SightOf();
      PlannedIsTick(isMoving);
      Dispatch(isMoving, color);
      TickKeepsConsistent(isMoving, c, s);
      TickGrabsAndReleasesWhere(isMoving, c, s);
      var finished := field.IsFieldFinished();
      done := (ballsInSafe == NumberOfBalls || finished) && field.InOrigin();
    }

    /** Makes the act's call (recording the colour first when asked) and sets the step's variables to `next`. */
    method Apply(act: Act, paint: Option<BallColor>, next: Control)
      requires Ready(field)
      requires act == Release ==> field.InSafe()
      requires act.Rotate? && act.rotation == TowardLastDirection ==> field.lastDirection.Some?
      modifies this, field, field.grid, robot
      ensures Ready(field)
      ensures Stepped(Plan(act, paint.Some?, next), old(TurnOf(field, act)), paint)
    {
      Perform(field, robot, paint, act);
      Advance(next);
    }

    /** Takes over the variables a handler leaves. */
    method Advance(next: Control)
      modifies this
      ensures Vars() == next
    {
      state, holdingBall, ballsInSafe := next.state, next.holding, next.balls;
      hasToMoveBack, isColorCaught := next.moveBack, next.colorCaught;
    }

    /** The handler the current state selects; nothing while the robot is still moving. */
    method Dispatch(isMoving: bool, color: BallColor)
      requires Valid()
      requires !isMoving && state == GoToBall ==> ballsInSafe < |ballList|
      modifies this, field, field.grid, robot
      ensures Ready(field)
      ensures var p := old(Planned(isMoving));
        Stepped(p, old(TurnOf(field, p.act)), if p.recolor then Some(color) else None)
    {
      if !isMoving {
        match state
        case GoToBall => MoveToBall();
        case GoToSafe => MoveToSafe();
        case GoToOrigin => MoveToOrigin(color);
      } else {
        Apply(Idle, None, Vars());
      }
    }

    /** moveToBall */
    method MoveToBall()
      requires Valid() && state == GoToBall && ballsInSafe < |ballList|
      modifies this, field, field.grid, robot
      ensures Ready(field)
      ensures var p := old(BallPlan(Vars(), field.CanMoveToBall(ballList[ballsInSafe]), field.AtBall(ballList[ballsInSafe])));
        !p.recolor && Stepped(p, old(TurnOf(field, p.act)), None)
    {
      var ball := ballList[ballsInSafe];
      if field.CanMoveToBall(ball) {
        Apply(Drive, None, Vars());
      } else if !field.AtBall(ball) {
        Apply(Rotate(TowardBall, AsIs), None, Vars());
      } else {
        Apply(Grab, None, Vars().(state := GoToOrigin, holding := true, colorCaught := false));
      }
    }

    /** moveToSafe; the angle rewriting is the Quarter widening. */
    method MoveToSafe()
      requires Valid() && state == GoToSafe
      modifies this, field, field.grid, robot
      ensures Ready(field)
      ensures var p := old(SafePlan(Vars(), field.CanMoveToSafe(), field.InSafe()));
        !p.recolor && Stepped(p, old(TurnOf(field, p.act)), None)
    {
      if field.CanMoveToSafe() && holdingBall {
        Apply(Drive, None, Vars());
      } else if !field.InSafe() && holdingBall {
        Apply(Rotate(TowardSafe, Quarter), None, Vars());
      } else if field.InSafe() && holdingBall {
        Apply(Release, None, Vars().(balls := ballsInSafe + 1, holding := false, moveBack := true));
      } else if !holdingBall && hasToMoveBack {
        Apply(Reverse, None, Vars().(moveBack := false));
      } else if ballsInSafe == NumberOfBalls {
        Apply(Idle, None, Vars().(state := GoToOrigin));
      } else {
        Apply(Idle, None, Vars().(state := GoToBall));
      }
    }

    /**
     * moveToOrigin: the colour of the held ball is recorded on the first call, then the robot
     * drives, turns (with the Loaded widening while holding a ball), hands over to GO_TO_SAFE or stops.
     */
    method MoveToOrigin(color: BallColor)
      requires Valid() && state == GoToOrigin
      modifies this, field, field.grid, robot
      ensures Ready(field)
      ensures var p := old(OriginPlan(Vars(), field.CanMoveToOrigin(), field.InOrigin()));
        Stepped(p, old(TurnOf(field, p.act)), if p.recolor then Some(color) else None)
    {
      var paint := if isColorCaught then None else Some(color);
      if field.CanMoveToOrigin() {
        Apply(Drive, paint, Vars().(colorCaught := true));
      } else if !field.InOrigin() {
        Apply(Rotate(TowardOrigin, if holdingBall then Loaded else AsIs), paint, Vars().(colorCaught := true));
      } else if holdingBall {
        Apply(Idle, paint, Vars().(colorCaught := true, state := GoToSafe));
      } else {
        Apply(Stop, paint, Vars().(colorCaught := true));
      }
    }
  }
}

=== FILE: tacho.dfy ===
/**
 * TachoMotor: a LEGO servo motor on one of the output ports. Every operation but the busy test
 * is one direct command without a reply: an output op-code, the layer, the port and the
 * operation's parameters.
 */
module Motors {
  import opened Wrappers
  import opened Bytes
  import opened Bytecodes
  import opened Commands
  import opened Replies
  import opened Channels
  import opened Ports
  import opened Brick

  /** The output op-codes of the firmware. */
  const OutputSetType: i8 := ToI8(0xA1)
  const OutputReset: i8 := ToI8(0xA2)
  const OutputStop: i8 := ToI8(0xA3)
  const OutputPower: i8 := ToI8(0xA4)
  const OutputSpeed: i8 := ToI8(0xA5)
  const OutputStart: i8 := ToI8(0xA6)
  const OutputPolarity: i8 := ToI8(0xA7)
  const OutputTest: i8 := ToI8(0xA9)
  const OutputReady: i8 := ToI8(0xAA)
  const OutputStepPower: i8 := ToI8(0xAC)
  const OutputTimePower: i8 := ToI8(0xAD)
  const OutputStepSpeed: i8 := ToI8(0xAE)
  const OutputTimeSpeed: i8 := ToI8(0xAF)
  const OutputStepSync: i8 := ToI8(0xB0)
  const OutputTimeSync: i8 := ToI8(0xB1)
  const OutputClrCount: i8 := ToI8(0xB2)

  /** How a stopping motor is left: floating, or held. */
  const CoastLevel: i8 := 0x00
  const BrakeLevel: i8 := 0x01

  /** The motor type codes. */
  const LargeMotor: i8 := 0x07
  const MediumMotor: i8 := 0x08

  datatype MotorType = Medium | Large {
    /** The two motor types have the two distinct type codes. */
    function ToByte(): (b: i8)
      ensures b == MediumMotor || b == LargeMotor
      ensures b == LargeMotor <==> this == Large
    {
      match this
      case Medium => MediumMotor
      case Large => LargeMotor
    }
  }

  datatype Polarity = Backwards | Opposite | Forward {
    /** The sign of the code is the direction: negative backwards, zero opposite, positive forward. */
    function ToByte(): (b: i8)
      ensures -1 <= b <= 1
      ensures (b < 0 <==> this == Backwards) && (b == 0 <==> this == Opposite)
    {
      match this
      case Backwards => -1
      case Opposite => 0
      case Forward => 1
    }
  }

  /** The brake level parameter of `brake`: BRAKE when set, COAST otherwise. */
  function Level(brake: bool): i8
  {
    if brake then BrakeLevel else CoastLevel
  }

  /**
   * The output commands the class sends, one per op-code, with their parameters as the methods
   * receive them (an Int speed or power, truncated to a Byte when written).
   */
  datatype OutputCommand =
    | OutClrCount
    | OutTest
    | OutReady
    | OutReset
    | OutStart
    | OutSpeed(speed: int)
    | OutPower(power: int)
    | OutStop(brake: bool)
    | OutSetType(motorType: MotorType)
    | OutPolarity(polarity: Polarity)
    | OutStepPower(power: int, step1: i32, step2: i32, step3: i32, brake: bool)
    | OutTimePower(power: int, step1: i32, step2: i32, step3: i32, brake: bool)
    | OutStepSpeed(speed: int, step1: i32, step2: i32, step3: i32, brake: bool)
    | OutTimeSpeed(speed: int, step1: i32, step2: i32, step3: i32, brake: bool)
    | OutStepSync(power: int, turnRatio: int, step: i32, brake: bool)
    | OutTimeSync(power: int, turnRatio: int, time: i32, brake: bool)
  {
    function Opcode(): i8
    {
      match this
      case OutClrCount => OutputClrCount
      case OutTest => OutputTest
      case OutReady => OutputReady
      case OutReset => OutputReset
      case OutStart => OutputStart
      case OutSpeed(_) => OutputSpeed
      case OutPower(_) => OutputPower
      case OutStop(_) => OutputStop
      case OutSetType(_) => OutputSetType
      case OutPolarity(_) => OutputPolarity
      case OutStepPower(_, _, _, _, _) => OutputStepPower
      case OutTimePower(_, _, _, _, _) => OutputTimePower
      case OutStepSpeed(_, _, _, _, _) => OutputStepSpeed
      case OutTimeSpeed(_, _, _, _, _) => OutputTimeSpeed
      case OutStepSync(_, _, _, _) => OutputStepSync
      case OutTimeSync(_, _, _, _) => OutputTimeSync
    }

    /** The parameters after the port, as addParameter writes them. */
    function TailCode(): seq<u8>
    {
      match this
      case OutSpeed(speed) => ByteParam(ToI8(speed))
      case OutPower(power) => ByteParam(ToI8(power))
      case OutStop(brake) => ByteParam(Level(brake))
      case OutSetType(t) => ByteParam(t.ToByte())
      case OutPolarity(p) => ByteParam(p.ToByte())
      case OutStepPower(power, s1, s2, s3, brake) => ProfileCode(power, s1, s2, s3, brake)
      case OutTimePower(power, s1, s2, s3, brake) => ProfileCode(power, s1, s2, s3, brake)
      case OutStepSpeed(speed, s1, s2, s3, brake) => ProfileCode(speed, s1, s2, s3, brake)
      case OutTimeSpeed(speed, s1, s2, s3, brake) => ProfileCode(speed, s1, s2, s3, brake)
      case OutStepSync(power, turnRatio, step, brake) => SyncCode(power, turnRatio, step, brake)
      case OutTimeSync(power, turnRatio, time, brake) => SyncCode(power, turnRatio, time, brake)
      case _ => []
    }

    /** The values a brick decodes from those parameters. */
    function TailValues(): seq<int>
    {
      match this
      case OutSpeed(speed) => [ToI8(speed)]
      case OutPower(power) => [ToI8(power)]
      case OutStop(brake) => [Level(brake)]
      case OutSetType(t) => [t.ToByte()]
      case OutPolarity(p) => [p.ToByte()]
      case OutStepPower(power, s1, s2, s3, brake) => [ToI8(power), s1, s2, s3, Level(brake)]
      case OutTimePower(power, s1, s2, s3, brake) => [ToI8(power), s1, s2, s3, Level(brake)]
      case OutStepSpeed(speed, s1, s2, s3, brake) => [ToI8(speed), s1, s2, s3, Level(brake)]
      case OutTimeSpeed(speed, s1, s2, s3, brake) => [ToI8(speed), s1, s2, s3, Level(brake)]
      case OutStepSync(power, turnRatio, step, brake) => [ToI8(power), ToI16(turnRatio), step, Level(brake)]
      case OutTimeSync(power, turnRatio, time, brake) => [ToI8(power), ToI16(turnRatio), time, Level(brake)]
      case _ => []
    }
  }

  /** A power or speed profile: the level, the three phases, the brake level. */
  function ProfileCode(level: int, step1: i32, step2: i32, step3: i32, brake: bool): seq<u8>
  {
    ByteParam(ToI8(level)) + IntParam(step1) + IntParam(step2) + IntParam(step3) + ByteParam(Level(brake))
  }

  /** A synchronised run: the power, the turn ratio as a Short, the duration, the brake level. */
  function SyncCode(power: int, turnRatio: int, duration: i32, brake: bool): seq<u8>
  {
    ByteParam(ToI8(power)) + ShortParam(ToI16(turnRatio)) + IntParam(duration) + ByteParam(Level(brake))
  }

  /** How a command addresses its port: by number for setType, by bitmask for all others. */
  function PortParam(port: OutputPort, cmd: OutputCommand): i8
  {
    if cmd.OutSetType? then port.ToByte() else port.Bitmask()
  }

  /** The byte code of an output command on a port. */
  function Code(port: OutputPort, cmd: OutputCommand): seq<u8>
  {
    [LowByte(cmd.Opcode())] + ByteParam(LayerMaster) + ByteParam(PortParam(port, cmd)) + cmd.TailCode()
  }

  /** The trailing parameters decode to the command's values, truncations included. */
  lemma TailDecodes(cmd: OutputCommand)
    ensures DecodeAll(cmd.TailCode()) == Some(cmd.TailValues())
  {
    if cmd.OutStepPower? || cmd.OutTimePower? || cmd.OutStepSpeed? || cmd.OutTimeSpeed? {
      ProfileTailDecodes(cmd);
    } else if cmd.OutStepSync? || cmd.OutTimeSync? {
      SyncTailDecodes(cmd);
    } else {
      ShortTailDecodes(cmd);
    }
  }

  lemma ProfileTailDecodes(cmd: OutputCommand)
    requires cmd.OutStepPower? || cmd.OutTimePower? || cmd.OutStepSpeed? || cmd.OutTimeSpeed?
    ensures DecodeAll(cmd.TailCode()) == Some(cmd.TailValues())
  {
    match cmd
    case OutStepPower(power, s1, s2, s3, brake) => ProfileDecodes(power, s1, s2, s3, brake);
    case OutTimePower(power, s1, s2, s3, brake) => ProfileDecodes(power, s1, s2, s3, brake);
    case OutStepSpeed(speed, s1, s2, s3, brake) => ProfileDecodes(speed, s1, s2, s3, brake);
    case OutTimeSpeed(speed, s1, s2, s3, brake) => ProfileDecodes(speed, s1, s2, s3, brake);
  }

  lemma SyncTailDecodes(cmd: OutputCommand)
    requires cmd.OutStepSync? || cmd.OutTimeSync?
    ensures DecodeAll(cmd.TailCode()) == Some(cmd.TailValues())
  {
    match cmd
    case OutStepSync(power, turnRatio, step, brake) => SyncDecodes(power, turnRatio, step, brake);
    case OutTimeSync(power, turnRatio, time, brake) => SyncDecodes(power, turnRatio, time, brake);
  }

  /** Commands with at most one parameter after the port. */
  lemma ShortTailDecodes(cmd: OutputCommand)
    requires !(cmd.OutStepPower? || cmd.OutTimePower? || cmd.OutStepSpeed? || cmd.OutTimeSpeed? || cmd.OutStepSync? || cmd.OutTimeSync?)
    ensures DecodeAll(cmd.TailCode()) == Some(cmd.TailValues())
  {
    match cmd
    case OutSpeed(speed) => DecodeOne(ByteArg(ToI8(speed)));
    case OutPower(power) => DecodeOne(ByteArg(ToI8(power)));
    case OutStop(brake) => DecodeOne(ByteArg(Level(brake)));
    case OutSetType(t) => DecodeOne(ByteArg(t.ToByte()));
    case OutPolarity(p) => DecodeOne(ByteArg(p.ToByte()));
    case OutClrCount => assert DecodeAll([]) == Some([]);
    case OutTest => assert DecodeAll([]) == Some([]);
    case OutReady => assert DecodeAll([]) == Some([]);
    case OutReset => assert DecodeAll([]) == Some([]);
    case OutStart => assert DecodeAll([]) == Some([]);
  }

  lemma ProfileDecodes(level: int, step1: i32, step2: i32, step3: i32, brake: bool)
    ensures DecodeAll(ProfileCode(level, step1, step2, step3, brake)) == Some([ToI8(level), step1, step2, step3, Level(brake)])
  {
    var b1, i1, i2, i3, b2 := ByteArg(ToI8(level)), IntArg(step1), IntArg(step2), IntArg(step3), ByteArg(Level(brake));
    var e4 := Encode(b2);
    var e3 := Encode(i3) + e4;
    var e2 := Encode(i2) + e3;
    var e1 := Encode(i1) + e2;
    DecodeOne(b2);
    DecodeArgThen(i3, e4, [Value(b2)]);
    DecodeArgThen(i2, e3, [Value(i3)] + [Value(b2)]);
    DecodeArgThen(i1, e2, [Value(i2)] + ([Value(i3)] + [Value(b2)]));
    DecodeArgThen(b1, e1, [Value(i1)] + ([Value(i2)] + ([Value(i3)] + [Value(b2)])));
    ProfileLayout(level, step1, step2, step3, brake);
    ConsFive(Value(b1), Value(i1), Value(i2), Value(i3), Value(b2));
  }

  /** The profile's bytes, grouped from the right as the decoder reads them. */
  lemma ProfileLayout(level: int, step1: i32, step2: i32, step3: i32, brake: bool)
    ensures ProfileCode(level, step1, step2, step3, brake)
      == ByteParam(ToI8(level)) + (IntParam(step1) + (IntParam(step2) + (IntParam(step3) + ByteParam(Level(brake)))))
  {
  }

  lemma SyncDecodes(power: int, turnRatio: int, duration: i32, brake: bool)
    ensures DecodeAll(SyncCode(power, turnRatio, duration, brake)) == Some([ToI8(power), ToI16(turnRatio), duration, Level(brake)])
  {
    var b1, s, i, b2 := ByteArg(ToI8(power)), ShortArg(ToI16(turnRatio)), IntArg(duration), ByteArg(Level(brake));
    var e3 := Encode(b2);
    var e2 := Encode(i) + e3;
    var e1 := Encode(s) + e2;
    DecodeOne(b2);
    DecodeArgThen(i, e3, [Value(b2)]);
    DecodeArgThen(s, e2, [Value(i)] + [Value(b2)]);
    DecodeArgThen(b1, e1, [Value(s)] + ([Value(i)] + [Value(b2)]));
    SyncLayout(power, turnRatio, duration, brake);
    ConsFour(Value(b1), Value(s), Value(i), Value(b2));
  }

  /** Writing a profile's parameters one by one after `prefix` appends its code. */
  lemma AppendProfile(prefix: seq<u8>, level: int, step1: i32, step2: i32, step3: i32, brake: bool)
    ensures prefix + ByteParam(ToI8(level)) + IntParam(step1) + IntParam(step2) + IntParam(step3)
      + ByteParam(if brake then BrakeLevel else CoastLevel) == prefix + ProfileCode(level, step1, step2, step3, brake)
  {
  }

  /** Writing a synchronised run's parameters one by one after `prefix` appends its code. */
  lemma AppendSync(prefix: seq<u8>, power: int, turnRatio: int, duration: i32, brake: bool)
    ensures prefix + ByteParam(ToI8(power)) + ShortParam(ToI16(turnRatio)) + IntParam(duration)
      + ByteParam(if brake then BrakeLevel else CoastLevel) == prefix + SyncCode(power, turnRatio, duration, brake)
  {
  }

  /** The synchronised run's bytes, grouped from the right as the decoder reads them. */
  lemma SyncLayout(power: int, turnRatio: int, duration: i32, brake: bool)
    ensures SyncCode(power, turnRatio, duration, brake)
      == ByteParam(ToI8(power)) + (ShortParam(ToI16(turnRatio)) + (IntParam(duration) + ByteParam(Level(brake))))
  {
  }

  lemma ConsFour(a: int, b: int, c: int, d: int)
    ensures [a] + ([b] + ([c] + [d])) == [a, b, c, d]
  {
  }

  lemma ConsFive(a: int, b: int, c: int, d: int, e: int)
    ensures [a] + ([b] + ([c] + ([d] + [e]))) == [a, b, c, d, e]
  {
  }

  /**
   * Every output command is its op-code followed by a run of parameters that decodes to the
   * layer 0, the port (its bitmask, its number for setType) and the command's own values.
   */
  lemma CodeDecodes(port: OutputPort, cmd: OutputCommand)
    ensures Code(port, cmd)[0] == LowByte(cmd.Opcode())
    ensures DecodeAll(Code(port, cmd)[1..]) == Some([LayerMaster as int, PortParam(port, cmd) as int] + cmd.TailValues())
  {
    CodeOperands(port, cmd);
    TailDecodes(cmd);
    HeadDecodes(LayerMaster, PortParam(port, cmd), cmd.TailCode(), cmd.TailValues());
  }

  /** After the op-code come the layer, the port and the command's own parameters. */
  lemma CodeOperands(port: OutputPort, cmd: OutputCommand)
    ensures Code(port, cmd)[1..] == ByteParam(LayerMaster) + ByteParam(PortParam(port, cmd)) + cmd.TailCode()
  {
    DropOpcode(LowByte(cmd.Opcode()), ByteParam(LayerMaster), ByteParam(PortParam(port, cmd)), cmd.TailCode());
  }

  lemma DropOpcode(op: u8, layer: seq<u8>, port: seq<u8>, tail: seq<u8>)
    ensures ([op] + layer + port + tail)[1..] == layer + port + tail
  {
    assert [op] + layer + port + tail == [op] + (layer + port + tail);
  }

  /** Two byte parameters in front of a readable run add their values in front of its values. */
  lemma HeadDecodes(a: i8, b: i8, tail: seq<u8>, vs: seq<int>)
    requires DecodeAll(tail) == Some(vs)
    ensures DecodeAll(ByteParam(a) + ByteParam(b) + tail) == Some([a as int, b as int] + vs)
  {
    DecodeAllPrefixed(ByteArg(b), tail);
    DecodeAllPrefixed(ByteArg(a), ByteParam(b) + tail);
    assert ByteParam(a) + ByteParam(b) + tail == Encode(ByteArg(a)) + (Encode(ByteArg(b)) + tail);
    assert [a as int] + ([b as int] + vs) == [a as int, b as int] + vs;
  }

  /** Only setType carries OUTPUT_SET_TYPE. */
  lemma SetTypeOpcode(c: OutputCommand)
    ensures c.Opcode() == OutputSetType <==> c.OutSetType?
  {
  }

  /** Two signed bytes with the same low byte are equal. */
  lemma LowByteInjective(a: i8, b: i8)
    ensures LowByte(a) == LowByte(b) ==> a == b
  {
  }

  /** Commands differ in their first byte unless they share an op-code, and in their fifth unless they share a port. */
  lemma CodeNamesOpAndPort(p: OutputPort, q: OutputPort, c: OutputCommand, d: OutputCommand)
    ensures Code(p, c) == Code(q, d) ==> c.Opcode() == d.Opcode() && p == q
  {
    if Code(p, c) == Code(q, d) {
      assert Code(p, c)[0] == LowByte(c.Opcode()) && Code(q, d)[0] == LowByte(d.Opcode());
      LowByteInjective(c.Opcode(), d.Opcode());
      SetTypeOpcode(c);
      SetTypeOpcode(d);
      assert Code(p, c)[4] == LowByte(PortParam(p, c)) && Code(q, d)[4] == LowByte(PortParam(q, d));
      LowByteInjective(PortParam(p, c), PortParam(q, d));
      if c.OutSetType? {
        OutputPortOfToByte(p);
        OutputPortOfToByte(q);
      } else {
        BitmasksDisjoint(p, q);
      }
    }
  }

  /** brake and stop send the same OUTPUT_STOP command but for the last byte: BRAKE 0x01 against COAST 0x00. */
  lemma BrakeAndCoast(port: OutputPort)
    ensures |Code(port, OutStop(true))| == |Code(port, OutStop(false))| == 7
    ensures Code(port, OutStop(true))[..6] == Code(port, OutStop(false))[..6]
    ensures Code(port, OutStop(true))[6] == 0x01 && Code(port, OutStop(false))[6] == 0x00
  {
  }

  /** isBusy's reading of the reply: the first payload byte, non-zero meaning busy; the status is not looked at. */
  function BusyReading(reply: Option<Reply>): Option<bool>
  {
    if reply.None? || reply.value.data == [] then None else Some(reply.value.data[0] != 0)
  }

  /**
   * A reply frame whose payload starts with byte `b` reads as busy exactly when `b` is not zero,
   * whatever its status; an empty payload gives no answer.
   */
  lemma BusyReadsFirstByte(counter: int, status: u8, data: seq<u8>, more: seq<u8>)
    requires 0 <= counter < 0x1_0000 && 3 + |data| < 0x1_0000
    ensures var incoming := Framed(ReplyBytes(counter, status, data)) + more;
      FrameReady(incoming)
      && BusyReading(Parse(incoming[2..2 + PayloadSize(incoming)])) == if data == [] then None else Some(data[0] != 0)
  {
    ReadsFramedReply(counter, status, data, more);
    ParseReplyBytes(counter, status, data);
  }

  /** A tacho motor: the brick it talks through and the output port it is plugged into. */
  class TachoMotor {
    const api: Ev3
    const port: OutputPort

    constructor (api: Ev3, port: OutputPort)
      ensures this.api == api && this.port == port
    {
      this.api, this.port := api, port;
    }

    /** One command without a reply went out: the next counter value, the code framed, nothing read. */
    twostate predicate SentNoReply(code: seq<u8>)
      reads api.service.channel, api.service.sequence
    {
      && api.service.sequence.value == Wrap32(old(api.service.sequence.value) + 1)
      && api.service.channel.sent == old(api.service.channel.sent)
        + [Framed(Marshalled(old(api.service.sequence.value), false, 0, 0, code))]
      && api.service.channel.incoming == old(api.service.channel.incoming)
    }

    /** The op-code, the layer and this motor's port bitmask: how every command but setType starts. */
    method Prefix(op: i8) returns (bc: Bytecode)
      ensures fresh(bc) && bc.bytes == [LowByte(op)] + ByteParam(LayerMaster) + ByteParam(port.Bitmask())
    {
      bc := new Bytecode();
      bc.AddOpCode(op);
      bc.AddByteParameter(LayerMaster);
      bc.AddByteParameter(port.Bitmask());
    }

    /** clearCount */
    method ClearCount()
      modifies api.service.channel, api.service.sequence
      ensures SentNoReply(Code(port, OutClrCount))
    {
      var bc := Prefix(OutputClrCount);
      assert bc.bytes == Code(port, OutClrCount);
      api.SendNoReply(bc);
    }

    /**
     * isBusy: OUTPUT_TEST with one byte of global memory reserved; busy when the reply's first
     * payload byte is not zero. A missing reply or an empty payload (an exception in the source)
     * gives None.
     */
    method IsBusy() returns (r: Option<bool>)
      requires FrameReady(api.service.channel.incoming)
      modifies api.service.channel, api.service.sequence
      ensures api.service.sequence.value == Wrap32(old(api.service.sequence.value) + 1)
      ensures api.service.channel.sent == old(api.service.channel.sent)
        + [Framed(Marshalled(old(api.service.sequence.value), true, 0, 1, Code(port, OutTest)))]
      ensures var n := PayloadSize(old(api.service.channel.incoming));
        api.service.channel.incoming == old(api.service.channel.incoming)[2 + n..]
        && r == BusyReading(Parse(old(api.service.channel.incoming)[2..2 + n]))
    {
      var bc := Prefix(OutputTest);
      assert bc.bytes == Code(port, OutTest);
      var reply := api.Send(1, bc);
      if reply.None? || reply.value.data == [] {
        return None;
      }
      r := Some(reply.value.data[0] != 0);
    }

    /** waitCompletion: OUTPUT_READY, which makes the brick hold later commands until the motor is done. */
    method WaitCompletion()
      modifies api.service.channel, api.service.sequence
      ensures SentNoReply(Code(port, OutReady))
    {
      var bc := Prefix(OutputReady);
      assert bc.bytes == Code(port, OutReady);
      api.SendNoReply(bc);
    }

    /** resetPosition */
    method ResetPosition()
      modifies api.service.channel, api.service.sequence
      ensures SentNoReply(Code(port, OutReset))
    {
      var bc := Prefix(OutputReset);
      assert bc.bytes == Code(port, OutReset);
      api.SendNoReply(bc);
    }

    /** setSpeed: the speed truncated to a Byte. */
    method SetSpeed(speed: i32)
      modifies api.service.channel, api.service.sequence
      ensures SentNoReply(Code(port, OutSpeed(speed)))
    {
      var bc := Prefix(OutputSpeed);
      bc.AddByteParameter(ToI8(speed));
      assert bc.bytes == Code(port, OutSpeed(speed));
      api.SendNoReply(bc);
    }

    /** setPower: the power truncated to a Byte. */
    method SetPower(power: i32)
      modifies api.service.channel, api.service.sequence
      ensures SentNoReply(Code(port, OutPower(power)))
    {
      var bc := Prefix(OutputPower);
      bc.AddByteParameter(ToI8(power));
      assert bc.bytes == Code(port, OutPower(power));
      api.SendNoReply(bc);
    }

    /** start */
    method Start()
      modifies api.service.channel, api.service.sequence
      ensures SentNoReply(Code(port, OutStart))
    {
      var bc := Prefix(OutputStart);
      assert bc.bytes == Code(port, OutStart);
      api.SendNoReply(bc);
    }

    /** brake: OUTPUT_STOP holding the motor. */
    method Brake()
      modifies api.service.channel, api.service.sequence
      ensures SentNoReply(Code(port, OutStop(true)))
    {
      var bc := Prefix(OutputStop);
      bc.AddByteParameter(BrakeLevel);
      assert bc.bytes == Code(port, OutStop(true));
      api.SendNoReply(bc);
    }

    /** stop: OUTPUT_STOP letting the motor float. */
    method Stop()
      modifies api.service.channel, api.service.sequence
      ensures SentNoReply(Code(port, OutStop(false)))
    {
      var bc := Prefix(OutputStop);
      bc.AddByteParameter(CoastLevel);
      assert bc.bytes == Code(port, OutStop(false));
      api.SendNoReply(bc);
    }

    /** setType: the only command that names the port by its number instead of its bitmask. */
    method SetType(mt: MotorType)
      modifies api.service.channel, api.service.sequence
      ensures SentNoReply(Code(port, OutSetType(mt)))
    {
      var bc := new Bytecode();
      bc.AddOpCode(OutputSetType);
      bc.AddByteParameter(LayerMaster);
      bc.AddByteParameter(port.ToByte());
      bc.AddByteParameter(mt.ToByte());
      assert bc.bytes == Code(port, OutSetType(mt));
      api.SendNoReply(bc);
    }

    /** setPolarity */
    method SetPolarity(pol: Polarity)
      modifies api.service.channel, api.service.sequence
      ensures SentNoReply(Code(port, OutPolarity(pol)))
    {
      var bc := Prefix(OutputPolarity);
      bc.AddByteParameter(pol.ToByte());
      assert bc.bytes == Code(port, OutPolarity(pol));
      api.SendNoReply(bc);
    }

    /** The four profile commands: the level as a Byte, the three phases as Ints, the brake level. */
    method SendProfile(op: i8, level: i32, step1: i32, step2: i32, step3: i32, brake: bool)
      modifies api.service.channel, api.service.sequence
      ensures SentNoReply([LowByte(op)] + ByteParam(LayerMaster) + ByteParam(port.Bitmask())
        + ProfileCode(level, step1, step2, step3, brake))
    {
      var bc := Prefix(op);
      bc.AddByteParameter(ToI8(level));
      bc.AddIntParameter(step1);
      bc.AddIntParameter(step2);
      bc.AddIntParameter(step3);
      bc.AddByteParameter(if brake then BrakeLevel else CoastLevel);
      AppendProfile([LowByte(op)] + ByteParam(LayerMaster) + ByteParam(port.Bitmask()), level, step1, step2, step3, brake);
      api.SendNoReply(bc);
    }

    /** setStepPower: ramp up, constant and ramp down power, each in tacho counts. */
    method SetStepPower(power: i32, step1: i32, step2: i32, step3: i32, brake: bool)
      modifies api.service.channel, api.service.sequence
      ensures SentNoReply(Code(port, OutStepPower(power, step1, step2, step3, brake)))
    {
      SendProfile(OutputStepPower, power, step1, step2, step3, brake);
    }

    /** setTimePower: the same phases in milliseconds. */
    method SetTimePower(power: i32, step1: i32, step2: i32, step3: i32, brake: bool)
      modifies api.service.channel, api.service.sequence
      ensures SentNoReply(Code(port, OutTimePower(power, step1, step2, step3, brake)))
    {
      SendProfile(OutputTimePower, power, step1, step2, step3, brake);
    }

    /** setStepSpeed: a speed-regulated profile in tacho counts. */
    method SetStepSpeed(speed: i32, step1: i32, step2: i32, step3: i32, brake: bool)
      modifies api.service.channel, api.service.sequence
      ensures SentNoReply(Code(port, OutStepSpeed(speed, step1, step2, step3, brake)))
    {
      SendProfile(OutputStepSpeed, speed, step1, step2, step3, brake);
    }

    /** setTimeSpeed: a speed-regulated profile in milliseconds. */
    method SetTimeSpeed(speed: i32, step1: i32, step2: i32, step3: i32, brake: bool)
      modifies api.service.channel, api.service.sequence
      ensures SentNoReply(Code(port, OutTimeSpeed(speed, step1, step2, step3, brake)))
    {
      SendProfile(OutputTimeSpeed, speed, step1, step2, step3, brake);
    }

    /** The two synchronised commands: the power as a Byte, the turn ratio as a Short, the duration, the brake level. */
    method SendSync(op: i8, power: i32, turnRatio: i32, duration: i32, brake: bool)
      modifies api.service.channel, api.service.sequence
      ensures SentNoReply([LowByte(op)] + ByteParam(LayerMaster) + ByteParam(port.Bitmask())
        + SyncCode(power, turnRatio, duration, brake))
    {
      var bc := Prefix(op);
      bc.AddByteParameter(ToI8(power));
      bc.AddShortParameter(ToI16(turnRatio));
      bc.AddIntParameter(duration);
      bc.AddByteParameter(if brake then BrakeLevel else CoastLevel);
      AppendSync([LowByte(op)] + ByteParam(LayerMaster) + ByteParam(port.Bitmask()), power, turnRatio, duration, brake);
      api.SendNoReply(bc);
    }

    /** setStepSync: two motors run together for `step` tacho counts (0: for ever). */
    method SetStepSync(power: i32, turnRatio: i32, step: i32, brake: bool)
      modifies api.service.channel, api.service.sequence
      ensures SentNoReply(Code(port, OutStepSync(power, turnRatio, step, brake)))
    {
      SendSync(OutputStepSync, power, turnRatio, step, brake);
    }

    /** setTimeSync: two motors run together for `time` milliseconds (0: for ever). */
    method SetTimeSync(power: i32, turnRatio: i32, time: i32, brake: bool)
      modifies api.service.channel, api.service.sequence
      ensures SentNoReply(Code(port, OutTimeSync(power, turnRatio, time, brake)))
    {
      SendSync(OutputTimeSync, power, turnRatio, time, brake);
    }
  }
}

=== FILE: wrappers.dfy ===
/** Option and Result values, used for the JVM's nullable references and thrown exceptions. */
module Wrappers {

  datatype Option<+T> = None | Some(value: T)

  /** The outcome of an operation that the source either completes or aborts with an exception. */
  datatype Result<+T> = Ok(value: T) | Err(reason: string)
}
